=== FILE: README.md ===
# Publication list and CV generator — a Dafny model

The repository keeps an academic home page up to date. Three scripts do the text work:

- `update_publications.py` reads one citation per line from a text file. It parses each
  line as a journal article or a thesis, bolds the owner's name and renders the record as a
  `<li>` item. It drops titles already on the page, then splices the merged list back into
  the page's `<ul id="publications-list">`, newest year first.
- `update_from_scholar.py` turns bibliography entries into the same records. It formats
  "First Middle Last" names as "Last, F.M.", escapes `&` and bolds "Yang, Y.". It defaults
  the venue and the year, detects theses, and merges the records whose titles are new
  through the same splice.
- `generate_cv.py` reads the home page's HTML and writes a CV page. It extracts education,
  appointments, publications, conference proceedings, awards and presentations, each after
  tag stripping and whitespace collapsing. It then emits the sections in a fixed order and
  groups awards and presentations under year headers.

The model is pure functions over strings. The regular expressions are written as matchers
that reproduce Python's `re` results for the fixed patterns involved:

- `Backtrack` is a priority-ordered, depth-first matcher for the two anchored citation
  patterns.
- `Scan` provides one `ProbeAt` per pattern and builds `re.search`, `re.findall` and
  `re.sub` as scans over start positions.

Reading and writing files, printing, and the bibliography service are left out. The file
contents and the fetched entries are parameters.

Modules:

- `Wrappers`: `Option`.
- `Text`: character classes, find, strip, split, join, replace, decimal conversion and
  Python `int()`.
- `Framing`: facts about text glued from known pieces.
- `Lists`: the keep-what-the-step-accepts loop shared by the extractors.
- `Backtrack`, `Scan`: the matchers.
- `Markup`: the CV cleaning.
- `Citation`: the record, parse and render.
- `StableSort`: Python's stable `sort(reverse=True)` by key.
- `Publications`: title and year extraction, splice and dedup.
- `Readback`: what extraction recovers from a rendered item.
- `Scholar`: the bibliography-entry path.
- `CvExtract`, `CvLayout`, `CvRender`: the CV generator.

## Model

| member | source | states |
|---|---|---|
| Text.Strip | update_publications.py:16 | the result has no leading or trailing whitespace, and it is exactly the input with its leading and trailing whitespace runs cut off |
| Text.Split | update_from_scholar.py:64 | the pieces joined with the separator give back the input, and no piece contains the separator |
| Text.SplitLeftmost | update_from_scholar.py:64 | `split` cuts at the leftmost occurrences: the separator follows each piece but the last and occurs nowhere between that piece's start and there |
| Text.FoundAfterFind | update_from_scholar.py:64 | a separator occurring at a position with none between the start and there is exactly what `str.find` from the start reports |
| Text.Words | update_from_scholar.py:68 | every word is non-empty and contains no whitespace; a non-empty text with no whitespace is a single word |
| Text.WordsEmpty | update_from_scholar.py:68-70 | `split()` gives no words exactly when the text is all whitespace |
| Text.WordsContent | update_from_scholar.py:68 | the words hold exactly the text's non-whitespace characters, in order |
| Text.WordsJoin | update_from_scholar.py:68 | splitting non-empty, whitespace-free words joined by single blanks gives those words back |
| Text.WordsSpaceCons | update_from_scholar.py:68 | leading whitespace does not change the words |
| Text.ParseNatToString | update_publications.py:36 | reading back the decimal spelling of a number gives the number |
| Text.NatToStringParse | update_publications.py:36 | a digit string without a leading zero is the spelling of its value |
| Text.FourDigitValue | update_publications.py:155 | a four-digit year is at most 9999 |
| Text.PyInt | update_from_scholar.py:104 | `int()` accepts only text that is non-blank once stripped |
| Text.PyIntSpelling | update_from_scholar.py:104 | with the stripped text written as an optional sign and a rest, `int()` succeeds exactly when the rest is a non-empty digit string, and then gives its value, negated under `-` |
| Text.PyIntOfIntToString | update_from_scholar.py:104 | `int()` reads back any integer's decimal spelling |
| Text.SubstituteInverse | update_publications.py:26 | replacing the inserted text back by the pattern undoes a `re.sub` whose replacement cannot be confused with the original text |
| Text.SubstituteAbsent | update_publications.py:26 | `re.sub` leaves text without the pattern unchanged |
| Backtrack.Candidates | update_publications.py:19 | an atom's candidate ends are exactly the ends at which it can match, listed in the order Python tries them: shortest first for the lazy `.+?`, longest first for the greedy atoms |
| Backtrack.Descending | update_publications.py:19 | the greedy try order: every end of the range, each once, longest first |
| Backtrack.Ascending | update_publications.py:19 | the lazy try order: every end of the range, each once, shortest first |
| Backtrack.Match | update_publications.py:19-20 | `re.match` of a concatenation pattern: a result is an accepting choice of ends; no result means no choice of ends is accepting |
| Backtrack.TryEach | update_publications.py:19-20 | trying the first atom's ends in priority order either finds an accepting choice or rules out every accepting choice whose first end is a candidate |
| Backtrack.MatchFirst | update_publications.py:19-20 | the match found is the first accepting choice of ends in backtracking order: it comes before every other accepting choice |
| Backtrack.TryEachFirst | update_publications.py:19-20 | the choice found among the candidates comes before every other accepting choice whose first end is a candidate |
| Backtrack.FirstExists | update_publications.py:19-20 | whenever some choice of ends is accepting, `re.match` succeeds with the first one |
| Backtrack.FirstUnique | update_publications.py:19-20 | there is only one first accepting choice |
| Backtrack.BeforeAsymmetric | update_publications.py:19-20 | backtracking order is asymmetric: of two choices, at most one comes first |
| Backtrack.BeforeCons | update_publications.py:19-20 | choices that share their first end are ordered by the rest |
| Backtrack.MatchTake | update_publications.py:19-20 | when the rest of the pattern matches after the first atom's preferred end, that end is taken |
| Backtrack.MatchSkip | update_publications.py:19-20 | when the rest fails after the preferred end but matches after the next one, the next one is taken |
| Backtrack.AcceptsCons | update_publications.py:19 | a pattern accepts exactly when its first atom matches and the rest of the pattern accepts from there |
| Backtrack.YearSpan | update_publications.py:19 | the text a `\d{4}` atom matched is four digits with value at most 9999 |
| Backtrack.NonEmptySpan | update_publications.py:19 | the `\s+`, `.+?`, `\d+` and `[^)]+` atoms match non-empty text |
| Backtrack.NumberSpan | update_publications.py:19 | the volume group is all digits |
| Backtrack.OptNumberSpan | update_publications.py:19 | the optional issue group is empty or a parenthesised digit string |
| Scan.ProbeAt | generate_cv.py:176 | a match found at a position starts there, ends inside the text and has the pattern's number of groups |
| Scan.Search | update_publications.py:140 | `re.search`: the hit is a match at the leftmost position that has one; no hit means no position matches |
| Scan.SearchFinds | update_publications.py:140 | a match at a position with none before it is what `re.search` returns |
| Scan.FindAll | update_publications.py:135 | `re.findall`: every hit is a match at its start, and the hits do not overlap and are in text order |
| Scan.FindAllComplete | update_publications.py:135 | no match is missed: none starts before the first hit, between two hits, or after the last one's end, and none at all when there are no hits |
| Scan.MissedCons | update_publications.py:135 | a search hit followed by a complete scan from its end is a complete scan |
| Scan.SearchLiteral | generate_cv.py:315 | searching for a literal finds it exactly when `str.find` does, at the same position |
| Scan.AllFirstGroups | update_publications.py:135 | the captured texts of `re.findall`, one per hit, in order |
| StableSort.Insert | update_publications.py:208 | inserting into a descending list keeps it descending and adds exactly the one element |
| StableSort.InsertWithKey | update_publications.py:208 | insertion places the element after every element with an equal key |
| StableSort.Sort | update_publications.py:208 | `sort(key, reverse=True)` gives a descending permutation of its input |
| StableSort.SortStable | update_publications.py:208 | elements with an equal key keep their input order |
| StableSort.SortOrdered | update_publications.py:208 | a list that is already descending is left as it is |
| Citation.BoldOwnerReversible | update_publications.py:26 | bolding "Wu, Y." loses nothing: removing the bold tags gives back the author list |
| Citation.BoldOwnerAbsent | update_publications.py:26 | an author list without "Wu, Y." is not changed |
| Citation.MakeJournalInvariant | update_publications.py:29-44 | a journal record built from well-formed groups has a 4-digit year, non-empty title and venue, and a DOI exactly when the pages start with `e` |
| Citation.JournalRecordInvariant | update_publications.py:19-44 | any match of the journal pattern yields a record with those properties |
| Citation.ThesisRecordInvariant | update_publications.py:47-66 | any match of the thesis pattern yields a record with empty volume, issue and pages and no DOI |
| Citation.Parse | update_publications.py:9-70 | a record is returned exactly when the stripped line matches the journal or the thesis pattern; a thesis only when the journal pattern fails; every record satisfies the parse invariant |
| Citation.ParseJournal | update_publications.py:16-44 | a line whose first journal match is a given choice of groups parses to the journal record built from exactly those groups |
| Citation.ParseThesis | update_publications.py:47-66 | a line the journal pattern rejects, whose first thesis match is a given choice of groups, parses to the thesis record built from those groups |
| Citation.RenderFrame | update_publications.py:112 | the item is wrapped in `<li class="margin-10">` and `</li>`, and the citation ends with a period |
| Citation.RenderLink | update_publications.py:86-91 | the title is always inside an anchor, right after the byline, linked to the DOI or to `#` |
| Citation.JournalEnding | update_publications.py:99-110 | a journal item ends with the italic venue, then the volume/issue/pages tail, then `.</li>` |
| Citation.JournalTail | update_publications.py:101-110 | the six tail cases: `, V(I)`, `, V` or nothing by volume and issue, then `, P` exactly when there are pages |
| Citation.ThesisExact | update_publications.py:94-96 | a thesis item is the byline, the linked title and the italic venue, with no tail |
| Citation.ThesisIgnoresTail | update_publications.py:94-96 | volume, issue and pages have no effect on a thesis item |
| Publications.ListBounds | update_publications.py:122-128 | the list lies between the first `<ul id="publications-list">` and the first `</ul>` after it; there is none exactly when either is missing |
| Publications.TitleOfItem | update_publications.py:139-143 | a title read from an item is stripped |
| Publications.TitlesOf | update_publications.py:137-143 | a text is among the titles exactly when some item's first anchor gives it |
| Publications.ExtractTitles | update_publications.py:114-128 | a page without the list yields no titles |
| Publications.YearOf | update_publications.py:147-156 | the sort year is the first `(dddd)` in the item, and 0 when there is none |
| Publications.Tagged | update_publications.py:190-205 | each item is paired with its own sort year, in order |
| Publications.ExistingItems | update_publications.py:185-192 | the existing items are exactly the `<li>...</li>` matches of the old list, in order, and none for an empty list |
| Publications.ArrangeIsStableSort | update_publications.py:195-208 | the merged list is newest first, is a permutation of old and new items, and keeps old-before-new and file order within a year |
| Publications.Block | update_publications.py:211-216 | the new list starts with the list marker and ends with `</ul>` |
| Publications.Rebuild | update_publications.py:158-219 | the page is rejected exactly when the list is missing; otherwise the text before the list and after its `</ul>` is kept and the new list goes in between |
| Publications.RebuildKeepsSurroundings | update_publications.py:219 | the text outside the replaced list is unchanged |
| Publications.FreshSound | update_publications.py:268-287 | every kept record comes from a non-blank line that parses and has a title not already on the page |
| Publications.FreshComplete | update_publications.py:268-287 | every non-blank line that parses to a title not on the page is kept |
| Publications.SelectNew | update_publications.py:265-287 | the dedup loop keeps exactly the fresh records, in file order, and counts them |
| Publications.ExistingListHtml | update_publications.py:253-258 | a page without the list contributes no existing items |
| Publications.Update | update_publications.py:242-316 | the page is rewritten exactly when it has the list, with or without new records |
| Readback.TitleLinkShape | update_publications.py:88-91 | the link's `>` that ends the opening tag is the first `>` after `<a` |
| Readback.AnchorOnLink | update_publications.py:139 | the title pattern matched at a rendered link captures the title |
| Readback.NoAnchorBefore | update_publications.py:139 | no title-pattern match starts before the first `<a` |
| Readback.BylinePlain | update_publications.py:96-99 | a byline whose authors hold no `<a` holds none itself |
| Readback.CitationTitle | update_publications.py:139-142 | the first anchor in a rendered citation holds the record's title |
| Readback.ItemGroups | update_publications.py:134-135 | the item pattern over one rendered item captures exactly its citation |
| Readback.TitleReadBack | update_publications.py:72-143 | extracting titles from a rendered item gives back exactly the record's title, so the dedup recognises items it wrote itself |
| Readback.ParenYearShift | update_publications.py:152 | whether `(dddd)` occurs depends only on the six characters at that position |
| Readback.YearAtOffset | update_publications.py:152-155 | the first `(dddd)` gives the sort year |
| Readback.BylineYear | update_publications.py:96-99 | the byline is the authors followed by ` (year)` |
| Readback.RenderByline | update_publications.py:112 | the item opens with the list-item tag and then the byline |
| Readback.NoYearInOpen | update_publications.py:112 | the list-item tag holds no `(dddd)` |
| Readback.YearAfterAuthors | update_publications.py:152-155 | with no `(dddd)` in the authors, the year after them is the sort year |
| Readback.YearReadBack | update_publications.py:96-112 | the sort year read from a rendered item is the record's year, for 4-digit years and authors without a parenthesised year |
| Scholar.Initials | update_from_scholar.py:75 | two characters per given name: its first letter, then a period |
| Scholar.FirstLetters | update_from_scholar.py:75 | the first letter of each given name, in order |
| Scholar.LettersOfInitials | update_from_scholar.py:75 | the initials string spells exactly the first letters of the given names |
| Scholar.FormatName | update_from_scholar.py:68-76 | a blank entry is dropped, and a one-word entry is kept as it is |
| Scholar.CommaAfterLast | update_from_scholar.py:76 | the first `, ` of a formatted name follows the last name |
| Scholar.FormatNameInverse | update_from_scholar.py:68-76 | the last name and the given names' first letters can be read back from "Last, F.M." |
| Scholar.Names | update_from_scholar.py:64-76 | at most one formatted name per entry |
| Scholar.NamesAppend | update_from_scholar.py:67-76 | names are formatted one entry at a time, so the list is a concatenation |
| Scholar.NamesSingle | update_from_scholar.py:67-76 | one entry gives its formatted name, or nothing when it is blank |
| Scholar.EscapeInverse | update_from_scholar.py:79 | unescaping `&amp;` gives back the joined names |
| Scholar.FallbackAnyInitial | update_from_scholar.py:85 | the fallback bolds "Yang, X." for any capital initial X as "Yang, Y." |
| Scholar.BoldYang | update_from_scholar.py:81-85 | for an input without tags, the looser fallback pattern is used exactly when "Yang" occurs but "Yang, Y." does not; otherwise every "Yang, Y." is bolded. A list without "Yang" is unchanged |
| Scholar.BoldYangReversible | update_from_scholar.py:82 | when "Yang, Y." occurs, unbolding gives back the author list |
| Scholar.FirstTruthy | update_from_scholar.py:88 | the `or` chain gives the first truthy option, or the default when none is truthy |
| Scholar.Venue | update_from_scholar.py:88 | the venue is never empty: journal, else conference, else publisher, else "Unknown Journal" |
| Scholar.LowerSlice | update_from_scholar.py:99 | lower-casing commutes with slicing |
| Scholar.ContainsLower | update_from_scholar.py:99 | "thesis" occurs in the lower-cased text exactly when the text has "thesis" in any letter case |
| Scholar.YearValue | update_from_scholar.py:104 | a missing or empty year is 0; otherwise it is `int()` of the text |
| Scholar.Normalise | update_from_scholar.py:45-119 | an entry is skipped exactly when it has no title or its year is not an integer; a kept record has the entry's title and year, the formatted and bolded authors, the volume, number and pages (empty when missing), the defaulted venue, is a thesis exactly when "thesis" is in the title or venue, and has a link exactly when the entry has a URL |
| Scholar.Collect | update_from_scholar.py:45-121 | at most one record per entry |
| Scholar.CollectFrom | update_from_scholar.py:45-121 | every collected record is what `Normalise` makes of one of the entries |
| Scholar.CollectSingle | update_from_scholar.py:102-119 | one entry gives its record, or nothing when it is skipped |
| Scholar.CollectAppend | update_from_scholar.py:45-121 | entries are processed one at a time, so the records of a concatenation are a concatenation |
| Scholar.NotPresent | update_from_scholar.py:170-184 | no kept record has a title already on the page |
| Scholar.NotPresentMembers | update_from_scholar.py:170-184 | a record is kept exactly when it was fetched and its title is not on the page |
| Scholar.NotPresentAppend | update_from_scholar.py:170-184 | the filter works record by record, so it distributes over concatenation |
| Scholar.NotPresentDescending | update_from_scholar.py:140-184 | filtering a newest-first list keeps it newest first |
| Scholar.NewRecords | update_from_scholar.py:139-184 | the new records are newest first |
| Scholar.ScholarUpdate | update_from_scholar.py:186-211 | nothing is written exactly when no record is new or the page has no list |
| Markup.CollapseShape | generate_cv.py:182 | collapsing whitespace leaves only single blanks, is empty only for empty text, and starts with a blank exactly when the text does |
| Markup.CollapseGlue | generate_cv.py:182 | a blank-free stretch, one blank for a whitespace run, and a collapsed remainder form a collapsed text |
| Markup.CollapseSingleSpaced | generate_cv.py:182 | after `re.sub(r'\s+', ' ')` no two blanks are adjacent and every space character is a blank |
| Markup.Clean | generate_cv.py:181-182 | cleaned text is stripped and single-spaced |
| Markup.StripTagsPlain | generate_cv.py:181 | text without `<` has no tags to remove |
| Markup.CollapseFixed | generate_cv.py:182 | single-spaced text is not changed by collapsing |
| Markup.CleanFixed | generate_cv.py:181-182 | clean text is a fixed point of the cleaning |
| Markup.CleanIdempotent | generate_cv.py:181-182 | cleaning twice equals cleaning once when no `<` survives the first pass |
| Markup.SubNoChar | generate_cv.py:181-182 | a substitution whose replacement lacks a character never brings that character into text that lacks it |
| Markup.CleanNoChar | generate_cv.py:181-182 | cleaning text that lacks a character other than the blank leaves it lacking that character |
| CvExtract.SectionAbsent | generate_cv.py:54-57 | a page without the section heading has no such section |
| CvExtract.DegreeEntry | generate_cv.py:61-91 | a degree is listed at most once, exactly when its line is found, with stripped institution and location |
| CvExtract.DegreesInOrder | generate_cv.py:60-91 | appending the Ph.D., M.A. and B.S. results gives a list in that order with stripped fields |
| CvExtract.EducationIn | generate_cv.py:57-91 | at most three entries in Ph.D., M.A., B.S. order, and each degree is listed exactly when its line is found |
| CvExtract.EducationOf | generate_cv.py:47-93 | no education section means no entries; otherwise the entries are those of the section text |
| CvExtract.FirstRule | generate_cv.py:110-159 | no appointment exactly when no rule fires; otherwise the entry of the first rule that fires |
| CvExtract.FiresOne | generate_cv.py:125 | a one-phrase rule fires exactly when the item contains the phrase |
| CvExtract.FiresTwo | generate_cv.py:111 | a two-phrase rule fires exactly when the item contains both phrases |
| CvExtract.FirstRuleStep | generate_cv.py:111-159 | the first firing rule is the current rule if it fires, else one of the later rules |
| CvExtract.ClassifyIsFirstRule | generate_cv.py:111-159 | the `if/elif` chain picks the entry of the first rule, in table order, whose phrases all occur |
| Lists.AcceptedFrom | generate_cv.py:105-159 | every value the per-bullet loop keeps is what the step makes of one of the bullets |
| Lists.AcceptedAppend | generate_cv.py:105-159 | the loop keeps values one item at a time, so over a concatenation it keeps the first part's values and then the second's |
| CvExtract.Classified | generate_cv.py:110-159 | at most one appointment per bullet, each one of the table's fixed entries |
| CvExtract.ClassifiedAppend | generate_cv.py:110-159 | bullets are classified one at a time, so the list is a concatenation |
| CvExtract.AppointmentsOf | generate_cv.py:95-161 | no appointments section means no entries; otherwise at most one per bullet |
| CvExtract.PaperYear | generate_cv.py:185-187 | the year is the first `(dddd)` of the cleaned item, or "Unknown" when there is none |
| CvExtract.LeadingAuthors | generate_cv.py:207-209 | the authors are the stripped text before the first `(`, or "Unknown Authors" when the cleaned item is empty or starts with `(` |
| CvExtract.Paper | generate_cv.py:179-216 | a publication's year and authors are read from the cleaned item |
| CvExtract.Papers | generate_cv.py:177-216 | one publication per list item, in order |
| CvExtract.PublicationsOf | generate_cv.py:163-218 | no publications list means no entries; otherwise one per item of the list |
| CvExtract.TextBeforeTag | generate_cv.py:252-254 | the stripped text before the first `<`, or "Unknown Authors" when the text is empty or starts with `<` |
| CvExtract.ExampleTitle | generate_cv.py:247-249 | the example item's anchor holds the title "GIS" |
| CvExtract.ExampleClean | generate_cv.py:238-239 | the example item cleans to "Wu GIS" |
| CvExtract.ProceedingAuthorsTakeTitle | generate_cv.py:238-254 | as written, the authors of the example item include its title: "Wu GIS" |
| CvExtract.ProceedingAuthorsExample | generate_cv.py:251-254 | read before the link, the example item's authors are "Wu" |
| CvExtract.ProceedingAuthorsBoldExample | generate_cv.py:251-254 | read before the link, the item `<b>Wu</b> <a>GIS</a>`, whose name is bolded ahead of the link, still has authors "Wu" |
| CvExtract.ProceedingAuthorsBeforeLink | generate_cv.py:251-254 | when the item's first link starts at `n`, the corrected authors are the cleaned text `li[..n]` in front of it, tags such as `<b>` dropped, or "Unknown Authors" when that text is empty |
| CvExtract.ProceedingAuthorsNoLink | generate_cv.py:251-254 | an item without a link has corrected authors "Unknown Authors" |
| CvExtract.ProceedingAuthorsPlainLead | generate_cv.py:251-254 | when the text in front of the first link has no `<` and does not clean to nothing, the corrected authors are exactly that text, cleaned |
| CvExtract.FirstYear | generate_cv.py:242-244 | the year is the first run of four digits in the cleaned text; it is "Unknown" exactly when no four digits occur |
| CvExtract.ProceedingOf | generate_cv.py:236-260 | as written: the authors are the `^([^<]+)` match on the cleaned text, the year is the first four-digit run of the cleaned item, or "Unknown" exactly when it has none, and the title is the stripped text of the first link, else the cleaned item |
| CvExtract.ProceedingOfIntended | generate_cv.py:251-254 | the corrected entry differs from the as-written one in its authors alone, which are the cleaned text in front of the item's first link |
| CvExtract.ProceedingOfExample | generate_cv.py:236-260 | as written, the item `Wu <a>GIS</a>` gets authors "Wu GIS" and title "GIS"; corrected, authors "Wu" and the same title |
| CvExtract.ProceedingListItems | generate_cv.py:224-234 | no proceedings section means no items; otherwise the `<li>` items of its list |
| CvExtract.ProceedingsOf | generate_cv.py:220-262 | one as-written entry per item of the list, in order |
| CvExtract.ProceedingsOfIntended | generate_cv.py:220-262 | the corrected proceedings: the same items in the same order, each differing from the code's entry only in its authors |
| CvExtract.UnderYear | generate_cv.py:284-294 | each award of a year block carries the block's year and its cleaned text |
| CvExtract.BlockAwards | generate_cv.py:281-294 | every award's year is the year of some block |
| CvExtract.BlockAwardsSingle | generate_cv.py:281-294 | one block gives its cleaned items, in order, under its year |
| CvExtract.BlockAwardsAppend | generate_cv.py:281-294 | blocks are taken one after another, so the awards of a concatenation are a concatenation |
| CvExtract.AwardBlocks | generate_cv.py:270-279 | no awards section means no blocks; otherwise the blocks are all non-overlapping matches of the `<h3>(\d{4})</h3>\s*<ul>(.*?)</ul>` pattern in the section text, in order (complete by `Scan.FindAllComplete`); every block has a four-digit year and a list |
| CvExtract.AwardsOf | generate_cv.py:264-296 | no awards section means no awards; every award year is four digits |
| CvExtract.AwardsAround | generate_cv.py:264-296 | around any block of the section, the awards are those of the earlier blocks, then that block's cleaned items under its year, then those of the later blocks |
| CvExtract.WindowEnd | generate_cv.py:312-324 | a year's window ends within the page and contains no further year heading; it ends at the next year heading if there is one, else at the first end of the timeline after it, else at the end of the page |
| CvExtract.WindowClear | generate_cv.py:315-317 | a stretch with no year-heading match contains no year heading |
| CvExtract.Talks | generate_cv.py:330-343 | each presentation kept from a year carries that year and a non-empty, stripped, single-spaced text |
| CvExtract.TalksSingle | generate_cv.py:333-343 | one item gives its cleaned text under the year, or nothing when that text is empty |
| CvExtract.TalksAppend | generate_cv.py:333-343 | items are taken one after another, so the talks of a concatenation are a concatenation |
| CvExtract.HeadingTalks | generate_cv.py:308-343 | the talks under one heading have its four-digit year and non-empty clean text |
| CvExtract.YearTalks | generate_cv.py:308-343 | every presentation has a four-digit year and non-empty clean text |
| CvExtract.YearTalksSingle | generate_cv.py:308-343 | one heading gives the talks of its own window, under its year |
| CvExtract.YearTalksAppend | generate_cv.py:308-343 | headings are taken one after another, so the talks of a concatenation are a concatenation |
| CvExtract.TimelineYears | generate_cv.py:305-309 | every timeline-year match lies in the page and has a four-digit year |
| CvExtract.PresentationsOf | generate_cv.py:298-345 | every presentation has a four-digit year and non-empty clean text |
| CvExtract.PresentationsAround | generate_cv.py:298-345 | around any timeline-year heading of the page, the presentations are those of the earlier headings, then the non-empty cleaned items of its window under its year, then those of the later headings |
| CvLayout.HtmlAppend | generate_cv.py:414-500 | the page text is built piece by piece, so it distributes over concatenation |
| CvLayout.Bullets | generate_cv.py:474-477 | one bulleted item per entry, in order |
| CvLayout.GroupedItems | generate_cv.py:467-478 | apart from the year headers, the grouping loop emits exactly one bulleted item per entry, in order |
| CvLayout.GroupedSameYear | generate_cv.py:467-478 | entries of the current year get no header |
| CvLayout.GroupedAppend | generate_cv.py:467-478 | the loop over a concatenation is the loop over the first part, then the loop over the second with the first part's last year as current |
| CvLayout.Runs | generate_cv.py:467-478 | the runs of equal years are non-empty, there are none exactly for no entries, and the first run starts with the first entry |
| CvLayout.RunsFlatten | generate_cv.py:467-478 | the runs concatenated give back the entries |
| CvLayout.RunsShaped | generate_cv.py:467-478 | each run has one year, and neighbouring runs have different years |
| CvLayout.RunsPartition | generate_cv.py:467-478 | the runs partition the entries into maximal equal-year stretches |
| CvLayout.GroupedRun | generate_cv.py:467-478 | a run whose year differs from the current one is one header followed by its items |
| CvLayout.GroupedBlocks | generate_cv.py:467-478 | over a partition into runs, the loop emits one header-and-items block per run |
| CvLayout.GroupedRuns | generate_cv.py:467-495 | the loop from no current year emits one block per maximal run of equal years |
| CvLayout.RunYears | generate_cv.py:469-472 | one year per run, in order |
| CvLayout.BlocksHeaders | generate_cv.py:469-472 | the headers of the blocks are the run years |
| CvLayout.GroupedHeaders | generate_cv.py:467-495 | one header per maximal run, never the same year twice in a row, and the first header is the first entry's year |
| CvLayout.HeadingsOfAppend | generate_cv.py:414-483 | section headings distribute over concatenation |
| CvLayout.NoHeadings | generate_cv.py:418-461 | a list of items holds no section heading |
| CvLayout.GroupedNoHeadings | generate_cv.py:467-495 | the grouping loop emits no section heading |
| CvLayout.Names | generate_cv.py:414-483 | one name per section, in order |
| CvLayout.SectionsHeadings | generate_cv.py:414-483 | when section bodies hold no headings, the page's headings are the section names, in order |
| CvRender.EducationItems | generate_cv.py:418-424 | education entries emit no section heading |
| CvRender.AppointmentItems | generate_cv.py:430-436 | appointment entries emit no section heading |
| CvRender.PublicationItems | generate_cv.py:442-449 | publication entries emit no section heading |
| CvRender.ProceedingItems | generate_cv.py:455-461 | proceeding entries emit no section heading |
| CvRender.SectionOrder | generate_cv.py:414-495 | the CV has exactly the six sections Education, Appointments, Publications, Conference Proceedings, Awards & Honors, Presentations, in that order, whatever the entries |

## Left out

- Reading the citation file, the page and the CV file, writing them back, and printing progress. The file contents are parameters and the results are returned.
- The bibliography service (`scholarly.search_author_id`, `fill`) and its exceptions. Each fetched publication is an `Entry` value. Only the one exception the model can raise is kept: `int()` rejecting the year.
- An entry whose author field is missing is treated as having an empty author field.
- Python's `int()` also accepts `_` separators and non-ASCII digits. `Text.PyInt` accepts optional blanks, a sign and ASCII digits only.
- `\s` and `str.strip()` are modelled by `Text.IsSpace`: the ASCII whitespace `\t\n\v\f\r` and space, plus `\x1c`-`\x1f`, `\x85` and `\xa0`. The remaining Unicode whitespace (`\u1680`, `\u2000`-`\u200a`, `\u2028`, `\u2029`, `\u202f`, `\u205f`, `\u3000`) is not.
- `\d` is modelled as the ASCII digits `0`-`9`, and `str.lower` as the ASCII case mapping. Other Unicode digits and case mappings are not.
- `\b` and `\w` (the word boundary in front of `Wu, Y.`) are modelled by `Text.IsWordChar`: ASCII letters, digits and `_`. Python's `\w` is Unicode, so for a non-ASCII letter right before `Wu, Y.` (as in `éWu, Y.`) the source does not bold the name and the model does.
- `extract_personal_info`, the HTML head, the style sheet and the contact block of `generate_cv_html` are not modelled. `CvRender.Page` takes that text as its `front` parameter.
- `update_readme.py` and `js_self/Scroll-change-nav.js` are not part of this model.
- `update_html_file` first locates the list with `re.search` and then with `str.find` from that point. Both find the same first occurrence of a literal, so the model keeps one search.
- An education entry's period string is not stored. Each degree has a fixed period, `CvExtract.Period`, which the renderer uses.
- CvExtract.Paper: the contract states the year and the authors only. The title and journal come from regex fallbacks that are modelled but not characterised.
- CvExtract.ProceedingOf: the link title is characterised only as the stripped first group of the anchor pattern, not as the text between particular tags.
- CvExtract.ProceedingOfIntended: the code's comment says only "everything before the link". For an item with no link, the corrected authors are taken to be "Unknown Authors", the code's own fallback.
- CvExtract.AwardsOf: the contract states the missing-section case and the year format. The award texts are stated by `CvExtract.AwardsAround`, block by block.
- CvExtract.PresentationsOf: the contract states the shape of every entry. The entries themselves are stated by `CvExtract.PresentationsAround`, heading by heading.
- `update_from_scholar.py` imports `update_html_file`, `generate_html_li` and `extract_existing_publications` from `archive.update_publications`. That module is not part of this model; it is taken to be the same as `update_publications.py`, whose functions the bibliography path reuses.
- A concrete journal line run through `Citation.Parse` is not worked out. `Citation.ParseJournal` and `Citation.ParseThesis` state the result for every line in terms of its first match.
- CvExtract.AppointmentsOf: bounds the number of entries and leaves the per-bullet content to `CvExtract.Classified`.
- Publications.ExtractTitles: the contract states only the missing-list case. The meaning of the titles is carried by `Publications.TitlesOf` and `Readback.TitleReadBack`.
- Citation.RenderFrame: the contract states only the frame of the item. The layout inside it is stated by `Citation.RenderLink`, `Citation.JournalTail` and `Citation.ThesisExact`.
- Scholar.BoldYang: `re.sub(r'Yang, [A-ZY]\.?', ...)` also rewrites "Yang, X" for any other initial X to "Yang, Y." inside the bold tags. The model reproduces this, and `Scholar.FallbackAnyInitial` states it, but it is not reported as a defect because the code comments say variants are meant to be caught.

## Findings

| source | as written | input that shows it | evidently intended | confidence | as-written member | corrected member |
|---|---|---|---|---|---|---|
| generate_cv.py:251-254 | the authors of a conference proceeding are matched by `^([^<]+)` against the cleaned text. The tags are already gone, so the match runs to the end and takes in the title | the item `Wu <a>GIS</a>` gets authors "Wu GIS" | the text before the link, "Wu", as the comment on line 251 says | not executed | CvExtract.ProceedingOfExample | CvExtract.ProceedingAuthorsBeforeLink |

=== FILE: backtrack.dfy ===
/**
 The two citation shapes of `parse_publication` are regular expressions that are plain
 concatenations of atoms. This module matches such a concatenation the way Python's `re`
 backtracks: each atom offers its possible end positions in priority order (a lazy atom
 shortest first, a greedy one longest first, an optional group "with" before "without"),
 and the first choice sequence, in depth-first order, that reaches the end of the pattern
 wins. The result is the list of end positions, one per atom.
 */
module Backtrack {
  import opened Wrappers
  import opened Text

  /** One atom of a concatenation pattern. */
  datatype Atom =
    | Lit(c: char)       // a literal character
    | Blank              // \s+      greedy
    | AnyLazy            // .+?      lazy, `.` excludes newline
    | Year4              // \d{4}
    | Number             // \d+      greedy
    | OptParenNumber     // (?:\(\d+\))?  greedy optional group
    | UntilParen         // [^)]+    greedy
    | EndOfText          // $        end of text, or before a final newline

  /** Atom `a` can match exactly `s[i..k]`. */
  predicate AtomMatches(a: Atom, s: string, i: nat, k: nat) {
    i <= k <= |s| &&
    match a
    case Lit(c) => i < |s| && s[i] == c && k == i + 1
    case Blank => i < k && AllIn(s, i, k, Space)
    case AnyLazy => i < k && AllIn(s, i, k, Except('\n'))
    case Year4 => k == i + 4 && AllIn(s, i, k, Digit)
    case Number => i < k && AllIn(s, i, k, Digit)
    case OptParenNumber =>
      k == i || (i + 3 <= k && s[i] == '(' && s[k - 1] == ')' && AllIn(s, i + 1, k - 1, Digit))
    case UntilParen => i < k && AllIn(s, i, k, Except(')'))
    case EndOfText => k == i && (i == |s| || (i + 1 == |s| && s[i] == '\n'))
  }

  /** hi, hi-1, ..., lo */
  function Descending(lo: nat, hi: nat): (r: seq<nat>)
    ensures forall k :: k in r <==> lo <= k <= hi
    ensures forall x, y :: 0 <= x < y < |r| ==> r[x] > r[y]
    decreases hi
  {
    if hi < lo then []
    else
      var rest := if hi == 0 then [] else Descending(lo, hi - 1);
      assert forall y :: 0 <= y < |rest| ==> rest[y] in rest;
      [hi] + rest
  }

  /** lo, lo+1, ..., hi */
  function Ascending(lo: nat, hi: nat): (r: seq<nat>)
    ensures forall k :: k in r <==> lo <= k <= hi
    ensures forall x, y :: 0 <= x < y < |r| ==> r[x] < r[y]
    decreases hi - lo
  {
    if hi < lo then []
    else
      var rest := Ascending(lo + 1, hi);
      assert forall y :: 0 <= y < |rest| ==> rest[y] in rest;
      [lo] + rest
  }

  /** Which of two ends of atom `a` the engine tries first: the shorter match for the lazy atom,
      the longer for every other (the atoms with a single possible end never compare two). */
  predicate Prefers(a: Atom, x: nat, y: nat) {
    if a.AnyLazy? then x < y else x > y
  }

  /** The end positions atom `a` may take from `i`, in the order the regex engine tries them. */
  function Candidates(a: Atom, s: string, i: nat): (r: seq<nat>)
    requires i <= |s|
    ensures forall k :: k in r <==> AtomMatches(a, s, i, k)
    ensures forall x, y :: 0 <= x < y < |r| ==> Prefers(a, r[x], r[y])
  {
    match a
    case Lit(c) => if i < |s| && s[i] == c then [i + 1] else []
    case Blank => Descending(i + 1, RunEnd(s, i, Space))
    case AnyLazy => Ascending(i + 1, RunEnd(s, i, Except('\n')))
    case Year4 => if i + 4 <= |s| && AllIn(s, i, i + 4, Digit) then [i + 4] else []
    case Number => Descending(i + 1, RunEnd(s, i, Digit))
    case OptParenNumber =>
      var d := if i < |s| then RunEnd(s, i + 1, Digit) else i;
      assert forall k :: AtomMatches(a, s, i, k) && k != i ==> k == d + 1 by {
        forall k: nat | AtomMatches(a, s, i, k) && k != i ensures k == d + 1 {
          assert !IsDigit(s[k - 1]);
        }
      }
      (if i < |s| && s[i] == '(' && d > i + 1 && d < |s| && s[d] == ')' then [d + 1] else []) + [i]
    case UntilParen => Descending(i + 1, RunEnd(s, i, Except(')')))
    case EndOfText => if i == |s| || (i + 1 == |s| && s[i] == '\n') then [i] else []
  }

  /** Where atom `k` of a match starting at `i` begins. */
  function StartOf(i: nat, ends: seq<nat>, k: nat): nat
    requires k <= |ends|
  {
    if k == 0 then i else ends[k - 1]
  }

  /** `ends` is a way for `pat` to match `s` from `i`: atom k spans `s[StartOf(k)..ends[k]]`. */
  ghost predicate Accepts(pat: seq<Atom>, s: string, i: nat, ends: seq<nat>) {
    |ends| == |pat| &&
    forall k :: 0 <= k < |pat| ==> AtomMatches(pat[k], s, StartOf(i, ends, k), ends[k])
  }

  lemma AcceptsCons(pat: seq<Atom>, s: string, i: nat, ends: seq<nat>)
    requires |pat| > 0 && |ends| == |pat|
    ensures Accepts(pat, s, i, ends) <==>
            AtomMatches(pat[0], s, i, ends[0]) && Accepts(pat[1..], s, ends[0], ends[1..])
  {
    if AtomMatches(pat[0], s, i, ends[0]) && Accepts(pat[1..], s, ends[0], ends[1..]) {
      forall k | 0 <= k < |pat| ensures AtomMatches(pat[k], s, StartOf(i, ends, k), ends[k]) {
        if k > 0 {
          assert pat[k] == pat[1..][k - 1];
          assert StartOf(i, ends, k) == StartOf(ends[0], ends[1..], k - 1);
        }
      }
    }
    if Accepts(pat, s, i, ends) {
      forall k | 0 <= k < |pat| - 1
        ensures AtomMatches(pat[1..][k], s, StartOf(ends[0], ends[1..], k), ends[1..][k])
      {
        assert AtomMatches(pat[k + 1], s, StartOf(i, ends, k + 1), ends[k + 1]);
      }
    }
  }

  /** Python's `re.match` of the concatenation `pat` against `s` from `i`: the first way to
      match in backtracking order, or None when there is no way at all. */
  function Match(pat: seq<Atom>, s: string, i: nat): (r: Option<seq<nat>>)
    requires i <= |s|
    ensures r.Some? ==> Accepts(pat, s, i, r.value)
    ensures r.None? ==> forall ends :: !Accepts(pat, s, i, ends)
    decreases |pat|, 1, 0
  {
    if pat == [] then Some([])
    else
      TryEach(pat, s, i, Candidates(pat[0], s, i))
  }

  /** Tries the candidate ends of the first atom in order. */
  function TryEach(pat: seq<Atom>, s: string, i: nat, cands: seq<nat>): (r: Option<seq<nat>>)
    requires pat != [] && i <= |s|
    requires forall k :: k in cands ==> AtomMatches(pat[0], s, i, k)
    ensures r.Some? ==> Accepts(pat, s, i, r.value)
    ensures r.None? ==> forall ends :: Accepts(pat, s, i, ends) ==> ends[0] !in cands
    decreases |pat|, 0, |cands|
  {
    if cands == [] then None
    else
      var c := cands[0];
      assert c in cands && AtomMatches(pat[0], s, i, c);
      match Match(pat[1..], s, c)
      case Some(rest) =>
        AcceptsCons(pat, s, i, [c] + rest);
        assert ([c] + rest)[1..] == rest;
        Some([c] + rest)
      case None =>
        var r := TryEach(pat, s, i, cands[1..]);
        assert r.None? ==> forall ends :: Accepts(pat, s, i, ends) ==> ends[0] !in cands by {
          if r.None? {
            forall ends | Accepts(pat, s, i, ends) ensures ends[0] !in cands {
              AcceptsCons(pat, s, i, ends);
              assert ends[0] != c;
              assert ends[0] !in cands[1..];
            }
          }
        }
        r
  }

  /** The engine tries `a` before `b`: they agree on the atoms before some atom `k`, and atom
      `k`'s end in `a` comes first in that atom's order. */
  ghost predicate Before(pat: seq<Atom>, a: seq<nat>, b: seq<nat>) {
    exists k :: 0 <= k < |pat| && k < |a| && k < |b| && a[..k] == b[..k] && Prefers(pat[k], a[k], b[k])
  }

  /** `e` is the way to match that backtracking reaches first: it is accepted, and comes before
      every other accepted way. */
  ghost predicate FirstAccepting(pat: seq<Atom>, s: string, i: nat, e: seq<nat>) {
    Accepts(pat, s, i, e) && forall e' :: Accepts(pat, s, i, e') && e' != e ==> Before(pat, e, e')
  }

  /** Two ways cannot each come before the other. */
  lemma BeforeAsymmetric(pat: seq<Atom>, a: seq<nat>, b: seq<nat>)
    requires Before(pat, a, b)
    ensures !Before(pat, b, a)
  {
    var k :| 0 <= k < |pat| && k < |a| && k < |b| && a[..k] == b[..k] && Prefers(pat[k], a[k], b[k]);
    forall m | 0 <= m < |pat| && m < |b| && m < |a| && b[..m] == a[..m]
      ensures !Prefers(pat[m], b[m], a[m])
    {
      if m < k {
        assert a[..k][m] == b[..k][m];
      } else if m > k {
        assert false;
      }
    }
  }

  /** The first way to match is unique. */
  lemma FirstUnique(pat: seq<Atom>, s: string, i: nat, e1: seq<nat>, e2: seq<nat>)
    requires FirstAccepting(pat, s, i, e1) && FirstAccepting(pat, s, i, e2)
    ensures e1 == e2
  {
    if e1 != e2 {
      BeforeAsymmetric(pat, e1, e2);
    }
  }

  /** Choosing the same first end keeps the order of what follows. */
  lemma BeforeCons(pat: seq<Atom>, c: nat, a: seq<nat>, b: seq<nat>)
    requires pat != [] && Before(pat[1..], a, b)
    ensures Before(pat, [c] + a, [c] + b)
  {
    var k :| 0 <= k < |pat[1..]| && k < |a| && k < |b| && a[..k] == b[..k] && Prefers(pat[1..][k], a[k], b[k]);
    var x, y := [c] + a, [c] + b;
    assert x[..k + 1] == [c] + a[..k] && y[..k + 1] == [c] + b[..k];
    assert x[k + 1] == a[k] && y[k + 1] == b[k] && pat[k + 1] == pat[1..][k];
  }

  /** What `Match` returns is the first way to match in backtracking order. */
  lemma {:induction false} MatchFirst(pat: seq<Atom>, s: string, i: nat)
    requires i <= |s|
    ensures Match(pat, s, i).Some? ==> FirstAccepting(pat, s, i, Match(pat, s, i).value)
    decreases |pat|, 1, 0
  {
    if pat != [] {
      var cands := Candidates(pat[0], s, i);
      TryEachFirst(pat, s, i, cands);
      if Match(pat, s, i).Some? {
        forall e' | Accepts(pat, s, i, e') ensures e'[0] in cands {
          assert AtomMatches(pat[0], s, StartOf(i, e', 0), e'[0]);
        }
      }
    }
  }

  /** Trying the candidates in order finds the first accepted way among those whose first end
      is a candidate. */
  lemma {:induction false} TryEachFirst(pat: seq<Atom>, s: string, i: nat, cands: seq<nat>)
    requires pat != [] && i <= |s|
    requires forall k :: k in cands ==> AtomMatches(pat[0], s, i, k)
    requires forall x, y :: 0 <= x < y < |cands| ==> Prefers(pat[0], cands[x], cands[y])
    ensures var r := TryEach(pat, s, i, cands);
      r.Some? ==> forall e' :: Accepts(pat, s, i, e') && e'[0] in cands && e' != r.value ==> Before(pat, r.value, e')
    decreases |pat|, 0, |cands|
  {
    if cands != [] {
      var c := cands[0];
      var r := TryEach(pat, s, i, cands);
      assert c in cands && AtomMatches(pat[0], s, i, c);
      MatchFirst(pat[1..], s, c);
      match Match(pat[1..], s, c)
      case Some(rest) =>
        assert r == Some([c] + rest);
        forall e' | Accepts(pat, s, i, e') && e'[0] in cands && e' != [c] + rest
          ensures Before(pat, [c] + rest, e')
        {
          AcceptsCons(pat, s, i, e');
          if e'[0] == c {
            assert e' == [c] + e'[1..];
            BeforeCons(pat, c, rest, e'[1..]);
          } else {
            var j :| 0 <= j < |cands| && cands[j] == e'[0];
            assert j > 0;
            assert ([c] + rest)[..0] == e'[..0];
          }
        }
      case None =>
        assert r == TryEach(pat, s, i, cands[1..]);
        TryEachFirst(pat, s, i, cands[1..]);
        if r.Some? {
          forall e' | Accepts(pat, s, i, e') && e'[0] in cands ensures e'[0] in cands[1..] {
            AcceptsCons(pat, s, i, e');
          }
        }
    }
  }

  /** Some way to match means a first one. */
  lemma FirstExists(pat: seq<Atom>, s: string, i: nat, e: seq<nat>)
    requires i <= |s| && Accepts(pat, s, i, e)
    ensures Match(pat, s, i).Some? && FirstAccepting(pat, s, i, Match(pat, s, i).value)
  {
    MatchFirst(pat, s, i);
  }

  /** When the first candidate of the first atom leads to a match, the engine takes it. */
  lemma MatchTake(pat: seq<Atom>, s: string, i: nat, rest: seq<nat>)
    requires pat != [] && i <= |s|
    requires var cs := Candidates(pat[0], s, i);
      cs != [] && cs[0] <= |s| && Match(pat[1..], s, cs[0]) == Some(rest)
    ensures Match(pat, s, i) == Some([Candidates(pat[0], s, i)[0]] + rest)
  {
  }

  /** When the first candidate leads nowhere and the second does, the engine takes the second. */
  lemma MatchSkip(pat: seq<Atom>, s: string, i: nat, rest: seq<nat>)
    requires pat != [] && i <= |s|
    requires var cs := Candidates(pat[0], s, i);
      |cs| >= 2 && cs[0] <= |s| && cs[1] <= |s| &&
      Match(pat[1..], s, cs[0]).None? && Match(pat[1..], s, cs[1]) == Some(rest)
    ensures Match(pat, s, i) == Some([Candidates(pat[0], s, i)[1]] + rest)
  {
    var cs := Candidates(pat[0], s, i);
    assert cs[1..][0] == cs[1];
    assert Match(pat, s, i) == TryEach(pat, s, i, cs);
    assert TryEach(pat, s, i, cs) == TryEach(pat, s, i, cs[1..]);
  }

  /** The text spanned by atom `k` of an accepted match. */
  function Span(pat: seq<Atom>, s: string, i: nat, ends: seq<nat>, k: nat): string
    requires Accepts(pat, s, i, ends) && k < |pat|
  {
    assert AtomMatches(pat[k], s, StartOf(i, ends, k), ends[k]);
    s[StartOf(i, ends, k)..ends[k]]
  }

  lemma YearSpan(pat: seq<Atom>, s: string, i: nat, ends: seq<nat>, k: nat)
    requires Accepts(pat, s, i, ends) && k < |pat| && pat[k] == Year4
    ensures var y := Span(pat, s, i, ends, k); |y| == 4 && AllDigits(y) && ParseNat(y) <= 9999
  {
    assert AtomMatches(pat[k], s, StartOf(i, ends, k), ends[k]);
    DigitsSlice(s, StartOf(i, ends, k), ends[k]);
    FourDigitValue(Span(pat, s, i, ends, k));
  }

  lemma NonEmptySpan(pat: seq<Atom>, s: string, i: nat, ends: seq<nat>, k: nat)
    requires Accepts(pat, s, i, ends) && k < |pat|
    requires pat[k].Blank? || pat[k].AnyLazy? || pat[k].Number? || pat[k].UntilParen?
    ensures Span(pat, s, i, ends, k) != ""
  {
    assert AtomMatches(pat[k], s, StartOf(i, ends, k), ends[k]);
  }

  lemma NumberSpan(pat: seq<Atom>, s: string, i: nat, ends: seq<nat>, k: nat)
    requires Accepts(pat, s, i, ends) && k < |pat| && pat[k] == Number
    ensures AllDigits(Span(pat, s, i, ends, k))
  {
    assert AtomMatches(pat[k], s, StartOf(i, ends, k), ends[k]);
    DigitsSlice(s, StartOf(i, ends, k), ends[k]);
  }

  /** The text an optional `(digits)` group matches: nothing, or a parenthesised digit run. */
  lemma OptParenText(s: string, a: nat, b: nat)
    requires AtomMatches(OptParenNumber, s, a, b)
    ensures var x := s[a..b];
      x == "" || (|x| >= 3 && x[0] == '(' && x[|x| - 1] == ')' && AllDigits(x[1..|x| - 1]))
  {
    if a != b {
      var x := s[a..b];
      var m := x[1..|x| - 1];
      assert x[0] == s[a] && x[|x| - 1] == s[b - 1];
      forall j | 0 <= j < |m| ensures IsDigit(m[j]) {
        assert m[j] == s[a + 1 + j];
        assert InClass(Digit, s[a + 1 + j]);
      }
    }
  }

  /** An optional `(digits)` group spans nothing, or a parenthesised digit run. */
  lemma OptNumberSpan(pat: seq<Atom>, s: string, i: nat, ends: seq<nat>, k: nat)
    requires Accepts(pat, s, i, ends) && k < |pat| && pat[k] == OptParenNumber
    ensures var x := Span(pat, s, i, ends, k);
      x == "" || (|x| >= 3 && x[0] == '(' && x[|x| - 1] == ')' && AllDigits(x[1..|x| - 1]))
  {
    var a := StartOf(i, ends, k);
    assert AtomMatches(pat[k], s, a, ends[k]);
    OptParenText(s, a, ends[k]);
  }
}

=== FILE: citation.dfy ===
/**
 The publication record of the update scripts, the free-text citation parser
 (`parse_publication`) and the `<li>` renderer (`generate_html_li`).
 */
module Citation {
  import opened Wrappers
  import opened Text
  import opened Backtrack
  import opened Framing

  datatype Kind = Journal | Thesis

  /** The dict both scripts hand to the renderer. `volume`, `issue` and `pages` use "" for both
      Python's `''` and `None`: the renderer only tests them for truth. */
  datatype Publication = Publication(
    authors: string,
    year: int,
    title: string,
    venue: string,
    volume: string,
    issue: string,
    pages: string,
    doi: Option<string>,
    kind: Kind)

  // ---- owner emphasis ----

  const Owner: string := "Wu, Y."

  function Bolded(name: string): string {
    "<b>" + name + "</b>"
  }

  /** `re.sub(r'\bWu, Y\.', '<b>Wu, Y.</b>', authors)`. */
  function BoldOwner(authors: string): string {
    Substitute(authors, Owner, Bolded(Owner), true, false)
  }

  /** Bolding only inserts markup: taking the emphasis back out restores the author list. */
  lemma BoldOwnerReversible(authors: string)
    requires NoChar(authors, '<')
    ensures ReplaceAll(BoldOwner(authors), Bolded(Owner), Owner) == authors
  {
    SubstituteInverse(authors, Owner, Bolded(Owner), true, false);
  }

  lemma BoldOwnerAbsent(authors: string)
    requires !Contains(authors, Owner)
    ensures BoldOwner(authors) == authors
  {
    SubstituteAbsent(authors, Owner, Bolded(Owner), true, false);
  }

  // ---- the two accepted citation shapes ----

  /** `^(.+?)\s+\((\d{4})\)\.\s+(.+?)\.\s+(.+?),\s+(\d+)(?:\((\d+)\))?,\s+(.+?)\.$` */
  const JournalShape: seq<Atom> := [
    AnyLazy, Blank, Lit('('), Year4, Lit(')'), Lit('.'), Blank,   // authors (year).
    AnyLazy, Lit('.'), Blank,                                     // title.
    AnyLazy, Lit(','), Blank,                                     // journal,
    Number, OptParenNumber, Lit(','), Blank,                      // volume(issue),
    AnyLazy, Lit('.'), EndOfText]                                 // pages.

  /** `^(.+?)\s+\((\d{4})\)\.\s+(.+?)\s+\(([^)]+)\)\.$` */
  const ThesisShape: seq<Atom> := [
    AnyLazy, Blank, Lit('('), Year4, Lit(')'), Lit('.'), Blank,   // authors (year).
    AnyLazy, Blank,                                               // title
    Lit('('), UntilParen, Lit(')'), Lit('.'), EndOfText]          // (degree info).

  const DoiPrefix: string := "https://doi.org/"

  /** The DOI heuristic: a pages field starting with 'e' is taken for an article number. */
  function InferDoi(pages: string): Option<string> {
    if |pages| > 0 && pages[0] == 'e' then Some(DoiPrefix + pages) else None
  }

  /** A journal record from the captured groups; `issueGroup` is the optional `(digits)` text. */
  function MakeJournal(authors: string, year: string, title: string, venue: string,
                       volume: string, issueGroup: string, pages: string): Publication
    requires AllDigits(year)
  {
    Publication(
      BoldOwner(authors), ParseNat(year), title, venue, volume,
      if |issueGroup| < 2 then "" else issueGroup[1..|issueGroup| - 1],
      pages, InferDoi(pages), Journal)
  }

  /** The record built from a journal-shape match of `t`. */
  function JournalRecord(t: string, ends: seq<nat>): Publication
    requires Accepts(JournalShape, t, 0, ends)
  {
    YearSpan(JournalShape, t, 0, ends, 3);
    MakeJournal(
      Span(JournalShape, t, 0, ends, 0),
      Span(JournalShape, t, 0, ends, 3),
      Span(JournalShape, t, 0, ends, 7),
      Span(JournalShape, t, 0, ends, 10),
      Span(JournalShape, t, 0, ends, 13),
      Span(JournalShape, t, 0, ends, 14),
      Span(JournalShape, t, 0, ends, 17))
  }

  /** The record built from a thesis-shape match of `t`. */
  function ThesisRecord(t: string, ends: seq<nat>): Publication
    requires Accepts(ThesisShape, t, 0, ends)
  {
    YearSpan(ThesisShape, t, 0, ends, 3);
    Publication(
      BoldOwner(Span(ThesisShape, t, 0, ends, 0)),
      ParseNat(Span(ThesisShape, t, 0, ends, 3)),
      Span(ThesisShape, t, 0, ends, 7),
      Span(ThesisShape, t, 0, ends, 10),
      "", "", "", None, Thesis)
  }

  /** What every parsed record satisfies, whichever shape it came from. */
  predicate ParsedInvariant(p: Publication) {
    && 0 <= p.year <= 9999
    && p.title != ""
    && p.venue != ""
    && (p.doi.Some? <==> |p.pages| > 0 && p.pages[0] == 'e')
    && (p.doi.Some? ==> p.doi.value == DoiPrefix + p.pages)
    && (p.kind == Journal ==> p.volume != "" && AllDigits(p.volume) && AllDigits(p.issue) && p.pages != "")
    && (p.kind == Thesis ==> p.volume == "" && p.issue == "" && p.pages == "" && p.doi.None?)
  }

  lemma MakeJournalInvariant(authors: string, year: string, title: string, venue: string,
                             volume: string, issueGroup: string, pages: string)
    requires |year| == 4 && AllDigits(year) && ParseNat(year) <= 9999
    requires title != "" && venue != "" && volume != "" && AllDigits(volume) && pages != ""
    requires issueGroup == "" || (|issueGroup| >= 3 && AllDigits(issueGroup[1..|issueGroup| - 1]))
    ensures ParsedInvariant(MakeJournal(authors, year, title, venue, volume, issueGroup, pages))
  {
  }

  /** The atoms of the journal pattern that carry a captured group. */
  lemma JournalGroups()
    ensures |JournalShape| == 20
    ensures JournalShape[3] == Year4 && JournalShape[13] == Number && JournalShape[14] == OptParenNumber
    ensures JournalShape[7] == AnyLazy && JournalShape[10] == AnyLazy && JournalShape[17] == AnyLazy
  {
  }

  lemma JournalRecordInvariant(t: string, ends: seq<nat>)
    requires Accepts(JournalShape, t, 0, ends)
    ensures ParsedInvariant(JournalRecord(t, ends))
  {
    JournalGroups();
    YearSpan(JournalShape, t, 0, ends, 3);
    NonEmptySpan(JournalShape, t, 0, ends, 7);
    NonEmptySpan(JournalShape, t, 0, ends, 10);
    NonEmptySpan(JournalShape, t, 0, ends, 13);
    NumberSpan(JournalShape, t, 0, ends, 13);
    OptNumberSpan(JournalShape, t, 0, ends, 14);
    NonEmptySpan(JournalShape, t, 0, ends, 17);
    MakeJournalInvariant(
      Span(JournalShape, t, 0, ends, 0),
      Span(JournalShape, t, 0, ends, 3),
      Span(JournalShape, t, 0, ends, 7),
      Span(JournalShape, t, 0, ends, 10),
      Span(JournalShape, t, 0, ends, 13),
      Span(JournalShape, t, 0, ends, 14),
      Span(JournalShape, t, 0, ends, 17));
  }

  lemma ThesisRecordInvariant(t: string, ends: seq<nat>)
    requires Accepts(ThesisShape, t, 0, ends)
    ensures ParsedInvariant(ThesisRecord(t, ends))
  {
    YearSpan(ThesisShape, t, 0, ends, 3);
    NonEmptySpan(ThesisShape, t, 0, ends, 7);
    NonEmptySpan(ThesisShape, t, 0, ends, 10);
  }

  /** `parse_publication`: the journal shape first, then the thesis shape, else None. */
  function Parse(line: string): (r: Option<Publication>)
    ensures r.Some? ==> ParsedInvariant(r.value)
    ensures r.None? <==> (forall e :: !Accepts(JournalShape, Strip(line), 0, e))
                         && (forall e :: !Accepts(ThesisShape, Strip(line), 0, e))
    ensures r.Some? && r.value.kind == Thesis ==> forall e :: !Accepts(JournalShape, Strip(line), 0, e)
    ensures r.Some? ==> Strip(line) != ""
  {
    var t := Strip(line);
    match Match(JournalShape, t, 0)
    case Some(ends) =>
      assert AtomMatches(JournalShape[0], t, 0, ends[0]);
      JournalRecordInvariant(t, ends);
      Some(JournalRecord(t, ends))
    case None =>
      match Match(ThesisShape, t, 0)
      case Some(ends) =>
        assert AtomMatches(ThesisShape[0], t, 0, ends[0]);
        ThesisRecordInvariant(t, ends);
        Some(ThesisRecord(t, ends))
      case None => None
  }

  /** The record `Parse` returns for a journal line is the one built from the first way the
      journal shape matches, in backtracking order. */
  lemma ParseJournal(line: string, e: seq<nat>)
    requires FirstAccepting(JournalShape, Strip(line), 0, e)
    ensures Parse(line) == Some(JournalRecord(Strip(line), e))
  {
    var t := Strip(line);
    FirstExists(JournalShape, t, 0, e);
    FirstUnique(JournalShape, t, 0, Match(JournalShape, t, 0).value, e);
  }

  /** A line the journal shape rejects is parsed from the first way the thesis shape matches. */
  lemma ParseThesis(line: string, e: seq<nat>)
    requires forall e' :: !Accepts(JournalShape, Strip(line), 0, e')
    requires FirstAccepting(ThesisShape, Strip(line), 0, e)
    ensures Parse(line) == Some(ThesisRecord(Strip(line), e))
  {
    var t := Strip(line);
    FirstExists(ThesisShape, t, 0, e);
    FirstUnique(ThesisShape, t, 0, Match(ThesisShape, t, 0).value, e);
  }

  // ---- rendering ----

  const ItemOpen: string := "<li class=\"margin-10\">"
  const ItemClose: string := "</li>"

  /** The anchor target: the DOI link when there is a non-empty one, else the placeholder. */
  function Href(p: Publication): string {
    if p.doi.Some? && p.doi.value != "" then p.doi.value else "#"
  }

  function TitleLink(href: string, title: string): string {
    "<a href=\"" + href + "\" target=\"_blank\">" + title + "</a>"
  }

  /** `Authors (Year). `, the text in front of the title link. */
  function Byline(p: Publication): string {
    p.authors + " (" + IntToString(p.year) + "). "
  }

  /** The journal tail: `, V(I)` or `, V` when there is a volume, then `, P` when there are pages. */
  function Tail(p: Publication): string {
    (if p.volume == "" then ""
     else if p.issue == "" then ", " + p.volume
     else ", " + p.volume + "(" + p.issue + ")")
    + (if p.pages == "" then "" else ", " + p.pages)
  }

  /** `. <em>Venue</em>`, then the journal tail (a thesis has none), then the final period. */
  function Trailer(p: Publication): string {
    ". <em>" + p.venue + "</em>" + (if p.kind == Thesis then "" else Tail(p)) + "."
  }

  /** The citation inside the `<li>`: the same layout for both kinds up to the venue. */
  function CitationText(p: Publication): string {
    Byline(p) + TitleLink(Href(p), p.title) + Trailer(p)
  }

  /** `generate_html_li`. */
  function Render(p: Publication): string {
    ItemOpen + CitationText(p) + ItemClose
  }

  /** The item is wrapped in the list-item tags, and the citation inside ends with a period. */
  lemma RenderFrame(p: Publication)
    ensures At(Render(p), 0, ItemOpen) && EndsWith(Render(p), "." + ItemClose)
  {
    var c := CitationText(p);
    var t := Trailer(p);
    assert c[|c| - 1] == '.' by {
      assert c[|c| - 1] == t[|t| - 1];
    }
    Wrapped(ItemOpen, c, ItemClose);
    WrappedLast(ItemOpen, c, ItemClose);
  }

  /** The title is always wrapped in an anchor, placed right after the byline. */
  lemma RenderLink(p: Publication)
    ensures At(Render(p), |ItemOpen| + |Byline(p)|, TitleLink(Href(p), p.title))
  {
    var b, l := Byline(p), TitleLink(Href(p), p.title);
    AtJoin(b, l);
    AtExtend(b + l, |b|, l, Trailer(p));
    AtPrepend(ItemOpen, CitationText(p), |b|, l);
    AtExtend(ItemOpen + CitationText(p), |ItemOpen| + |b|, l, ItemClose);
  }

  /** A journal item ends with the venue, then the volume/issue/pages tail, then `.</li>`. */
  lemma JournalEnding(p: Publication)
    requires p.kind == Journal
    ensures EndsWith(Render(p), "</em>" + Tail(p) + "." + ItemClose)
  {
    var t := Tail(p);
    EndsWithJoin(". <em>" + p.venue, "</em>", t);
    EndsWithBoth(". <em>" + p.venue + "</em>" + t, "</em>" + t, ".");
    EndsWithLonger(Byline(p) + TitleLink(Href(p), p.title), Trailer(p), "</em>" + t + ".");
    EndsWithLonger(ItemOpen, CitationText(p), "</em>" + t + ".");
    EndsWithBoth(ItemOpen + CitationText(p), "</em>" + t + ".", ItemClose);
  }

  /** The tail cases of `generate_html_li`: `, V(I)` with volume and issue, `, V` with a volume
      only, nothing without a volume; then `, P` exactly when there are pages. With
      `JournalEnding` this places the tail between `</em>` and `.</li>`. */
  lemma JournalTail(p: Publication)
    ensures p.volume != "" && p.issue != "" && p.pages != "" ==>
      Tail(p) == ", " + p.volume + "(" + p.issue + "), " + p.pages
    ensures p.volume != "" && p.issue != "" && p.pages == "" ==>
      Tail(p) == ", " + p.volume + "(" + p.issue + ")"
    ensures p.volume != "" && p.issue == "" && p.pages != "" ==>
      Tail(p) == ", " + p.volume + ", " + p.pages
    ensures p.volume != "" && p.issue == "" && p.pages == "" ==> Tail(p) == ", " + p.volume
    ensures p.volume == "" && p.pages != "" ==> Tail(p) == ", " + p.pages
    ensures p.volume == "" && p.pages == "" ==> Tail(p) == ""
  {
    var v, i, g := p.volume, p.issue, p.pages;
    if v != "" && i != "" && g != "" {
      assert (", " + v + "(" + i + ")") + (", " + g) == ", " + v + "(" + i + "), " + g;
    } else if v != "" && g != "" {
      assert (", " + v) + (", " + g) == ", " + v + ", " + g;
    }
  }

  /** A thesis item is exactly `authors (year). link. <em>venue</em>.` inside the item tags. */
  lemma ThesisExact(p: Publication)
    requires p.kind == Thesis
    ensures Render(p) == ItemOpen + p.authors + " (" + IntToString(p.year) + "). "
                         + TitleLink(Href(p), p.title) + ". <em>" + p.venue + "</em>." + ItemClose
  {
    var a, y, l := ItemOpen, IntToString(p.year), TitleLink(Href(p), p.title);
    var b := p.authors + " (" + y + "). ";
    var t := ". <em>" + p.venue + "</em>.";
    assert Trailer(p) == t by {
      assert ". <em>" + p.venue + "</em>" + "" + "." == ". <em>" + p.venue + ("</em>" + "" + ".");
    }
    Assoc(a, b + l, t);
    Assoc(a, b, l);
    Assoc(a, p.authors + " (" + y, "). ");
    Assoc(a, p.authors + " (", y);
    Assoc(a, p.authors, " (");
    Assoc(a + b + l, ". <em>" + p.venue, "</em>.");
    Assoc(a + b + l, ". <em>", p.venue);
  }

  /** Volume, issue and pages play no part in a thesis item. */
  lemma ThesisIgnoresTail(p: Publication, volume: string, issue: string, pages: string)
    requires p.kind == Thesis
    ensures Render(p.(volume := volume, issue := issue, pages := pages)) == Render(p)
  {
    ThesisExact(p);
    ThesisExact(p.(volume := volume, issue := issue, pages := pages));
  }
}

=== FILE: cv_extract.dfy ===
/**
 The section extractors of `generate_cv.py`: each finds its section of the home page by its
 heading, then reads entries out of it with fixed patterns and the item cleaning of `Markup`.
 */
module CvExtract {
  import opened Wrappers
  import opened Lists
  import opened Text
  import opened Scan
  import opened Markup
  import Publications
  import opened CvLayout

  // ---- sections ----

  const HeadOpen: string := "<h2 class=\"section-heading\">"
  const ParaOpen: string := "<p class=\"large\">"
  const ContainerOpen: string := "<div class=\"container\">"

  function Heading(name: string): string {
    HeadOpen + name + "</h2>"
  }

  /** `re.search(head + '.*?' + open + '(.*?)' + close, html, re.DOTALL).group(1)`. */
  function SectionText(html: string, head: string, open: string, close: string): Option<string>
    requires head != ""
  {
    FirstGroup(Section(head, open, close), html)
  }

  /** A page without the heading has no such section. */
  lemma SectionAbsent(html: string, head: string, open: string, close: string)
    requires head != "" && !Contains(html, head)
    ensures SectionText(html, head, open, close).None?
  {
    forall j: nat ensures ProbeAt(Section(head, open, close), html, j).None? {
      NotContains(html, head, j);
    }
    assert Search(Section(head, open, close), html, 0).None?;
  }

  // ---- education ----

  datatype Degree = PhD | MA | BS

  /** The three degrees in the order the extractor tries them. */
  function Rank(d: Degree): nat {
    match d
    case PhD => 0
    case MA => 1
    case BS => 2
  }

  const BulletEntity: string := "&bull; "

  /** The text in front of each degree's institution link (the `\.` of the pattern unescaped). */
  function Lead(d: Degree): string {
    BulletEntity + LeadAfterBullet(d)
  }

  function LeadAfterBullet(d: Degree): string {
    Leads[Rank(d)]
  }

  const Leads: seq<string> := [
    "2019\U{2013}2024 &emsp; Ph.D. in Geospatial information sciences.",
    "2017\U{2013}2019 &emsp; M.A. in Geography.",
    "2013\U{2013}2017 &emsp; B.S. in Resource Environment and Urban-Rural Planning Management."]

  function DegreeTitle(d: Degree): string {
    match d
    case PhD => "Ph.D. in Geospatial Information Sciences"
    case MA => "M.A. in Geography"
    case BS => "B.S. in Resource Environment and Urban-Rural Planning Management"
  }

  function Period(d: Degree): string {
    match d
    case PhD => "2019\U{2013}2024"
    case MA => "2017\U{2013}2019"
    case BS => "2013\U{2013}2017"
  }

  /** An education entry; its degree title and period are fixed by the degree. */
  datatype Education = Education(degree: Degree, institution: string, location: string)

  /** Whether the text holds the line of degree `d`. */
  predicate Found(text: string, d: Degree) {
    Search(EducationLine(Lead(d)), text, 0).Some?
  }

  /** One degree's line: the link text and the place after the comma, both stripped. */
  function DegreeEntry(text: string, d: Degree): (r: seq<Education>)
    ensures |r| <= 1
    ensures r != [] <==> Found(text, d)
    ensures r != [] ==> r[0].degree == d && IsStripped(r[0].institution) && IsStripped(r[0].location)
  {
    match Search(EducationLine(Lead(d)), text, 0)
    case None => []
    case Some(h) => [Education(d, Strip(h.groups[0]), Strip(h.groups[1]))]
  }

  predicate HasDegree(r: seq<Education>, d: Degree) {
    exists k :: 0 <= k < |r| && r[k].degree == d
  }

  /** The three optional entries, concatenated, hold each degree exactly when its part does. */
  lemma DegreesInOrder(a: seq<Education>, b: seq<Education>, c: seq<Education>)
    requires |a| <= 1 && |b| <= 1 && |c| <= 1
    requires (a != [] ==> a[0].degree == PhD) && (b != [] ==> b[0].degree == MA) && (c != [] ==> c[0].degree == BS)
    requires forall e :: e in a ==> IsStripped(e.institution) && IsStripped(e.location)
    requires forall e :: e in b ==> IsStripped(e.institution) && IsStripped(e.location)
    requires forall e :: e in c ==> IsStripped(e.institution) && IsStripped(e.location)
    ensures var r := a + b + c;
      && |r| <= 3
      && (forall k :: 0 <= k < |r| ==> IsStripped(r[k].institution) && IsStripped(r[k].location))
      && (forall i, j :: 0 <= i < j < |r| ==> Rank(r[i].degree) < Rank(r[j].degree))
      && (HasDegree(r, PhD) <==> a != []) && (HasDegree(r, MA) <==> b != []) && (HasDegree(r, BS) <==> c != [])
  {
    var r := a + b + c;
    assert forall k :: 0 <= k < |r| ==>
      (k < |a| && r[k] == a[0]) || (|a| <= k < |a| + |b| && r[k] == b[0]) || (|a| + |b| <= k && r[k] == c[0]);
    if a != [] { assert r[0] == a[0]; }
    if b != [] { assert r[|a|] == b[0]; }
    if c != [] { assert r[|a| + |b|] == c[0]; }
  }

  /** The entries of the Education paragraph `t`. */
  function EducationIn(t: string): (r: seq<Education>)
    ensures |r| <= 3
    ensures forall i, j :: 0 <= i < j < |r| ==> Rank(r[i].degree) < Rank(r[j].degree)
    ensures forall k :: 0 <= k < |r| ==> IsStripped(r[k].institution) && IsStripped(r[k].location)
    ensures HasDegree(r, PhD) <==> Found(t, PhD)
    ensures HasDegree(r, MA) <==> Found(t, MA)
    ensures HasDegree(r, BS) <==> Found(t, BS)
  {
    var a, b, c := DegreeEntry(t, PhD), DegreeEntry(t, MA), DegreeEntry(t, BS);
    DegreesInOrder(a, b, c);
    a + b + c
  }

  function EducationSection(html: string): Option<string> {
    SectionText(html, Heading("Education"), ParaOpen, "</p>")
  }

  /** `extract_education`: at most one entry per degree, Ph.D. before M.A. before B.S., and a
      degree is present exactly when the section holds its line. */
  function EducationOf(html: string): (r: seq<Education>)
    ensures EducationSection(html).None? ==> r == []
    ensures EducationSection(html).Some? ==> r == EducationIn(EducationSection(html).value)
  {
    match EducationSection(html)
    case None => []
    case Some(t) => EducationIn(t)
  }

  // ---- appointments ----

  datatype Appointment = Appointment(position: string, institution: string, period: string, location: string)

  const Utd: string := "Geospatial Information Sciences Department, UTD"
  const UtDallas: string := "University of Texas at Dallas"

  /** The branches of `extract_appointments`, in the order they are tried: the phrases an item
      must contain, and the fixed entry it then yields. */
  datatype Rule = Rule(needs: seq<string>, entry: Appointment)

  const ArkansasRule: Rule := Rule(["Assistant Professor", "Central Arkansas University"],
    Appointment("Assistant Professor", "Department of Geography, Central Arkansas University", "2025\U{2013}now", "Conway, AR"))
  const ClarkRule: Rule := Rule(["Visiting Assistant Professor", "Clark University"],
    Appointment("Visiting Assistant Professor", "Geography Department, Clark University", "2024\U{2013}2025", "Worcester, MA"))
  const LewisvilleRule: Rule := Rule(["GIS Analyst"],
    Appointment("GIS Analyst", "Information Technology Services, City of Lewisville", "2024\U{2013}2024", "Lewisville, TX"))
  const TeachingRule: Rule := Rule(["Teaching Assistant", "UTD"], Appointment("Teaching Assistant", Utd, "2023-2024", UtDallas))
  const InstructorRule: Rule := Rule(["Instructor", "UTD"], Appointment("Instructor", Utd, "2021-2023", UtDallas))
  const ResearchRule: Rule := Rule(["Research Assistant", "UTD"], Appointment("Research Assistant", Utd, "2019-2020", UtDallas))
  const BinghamtonRule: Rule := Rule(["Graduate Assistant", "Binghamton"],
    Appointment("Graduate Assistant", "Geography Department, Binghamton University", "2017-2019", "Binghamton University"))

  const Rules: seq<Rule> :=
    [ArkansasRule, ClarkRule, LewisvilleRule, TeachingRule, InstructorRule, ResearchRule, BinghamtonRule]

  predicate Fires(item: string, rule: Rule) {
    forall k :: 0 <= k < |rule.needs| ==> Contains(item, rule.needs[k])
  }

  /** The entry of the first rule from `i` on that fires, if any. */
  function FirstRule(item: string, rules: seq<Rule>, i: nat): (r: Option<Appointment>)
    requires i <= |rules|
    ensures r.None? <==> forall k :: i <= k < |rules| ==> !Fires(item, rules[k])
    ensures r.Some? ==> exists k :: i <= k < |rules| && Fires(item, rules[k]) && r.value == rules[k].entry
                                    && forall j :: i <= j < k ==> !Fires(item, rules[j])
    decreases |rules| - i
  {
    if i == |rules| then None
    else if Fires(item, rules[i]) then Some(rules[i].entry)
    else FirstRule(item, rules, i + 1)
  }

  /** The `if`/`elif` chain of `extract_appointments` for one bullet. */
  function Classify(item: string): Option<Appointment> {
    if Contains(item, "Assistant Professor") && Contains(item, "Central Arkansas University") then Some(ArkansasRule.entry)
    else if Contains(item, "Visiting Assistant Professor") && Contains(item, "Clark University") then Some(ClarkRule.entry)
    else if Contains(item, "GIS Analyst") then Some(LewisvilleRule.entry)
    else if Contains(item, "Teaching Assistant") && Contains(item, "UTD") then Some(TeachingRule.entry)
    else if Contains(item, "Instructor") && Contains(item, "UTD") then Some(InstructorRule.entry)
    else if Contains(item, "Research Assistant") && Contains(item, "UTD") then Some(ResearchRule.entry)
    else if Contains(item, "Graduate Assistant") && Contains(item, "Binghamton") then Some(BinghamtonRule.entry)
    else None
  }

  lemma FiresOne(item: string, r: Rule)
    requires |r.needs| == 1
    ensures Fires(item, r) <==> Contains(item, r.needs[0])
  {
  }

  lemma FiresTwo(item: string, r: Rule)
    requires |r.needs| == 2
    ensures Fires(item, r) <==> Contains(item, r.needs[0]) && Contains(item, r.needs[1])
  {
  }

  /** One step of the table: the rule at `i` fires, or the search moves on. */
  lemma FirstRuleStep(item: string, i: nat)
    requires i < |Rules|
    ensures FirstRule(item, Rules, i) == if Fires(item, Rules[i]) then Some(Rules[i].entry) else FirstRule(item, Rules, i + 1)
  {
  }

  /** The chain is the first-match rule table: each bullet yields the entry of the first
      branch whose phrases it contains. */
  lemma ClassifyIsFirstRule(item: string)
    ensures Classify(item) == FirstRule(item, Rules, 0)
  {
    FiresTwo(item, ArkansasRule);
    FiresTwo(item, ClarkRule);
    FiresOne(item, LewisvilleRule);
    FiresTwo(item, TeachingRule);
    FiresTwo(item, InstructorRule);
    FiresTwo(item, ResearchRule);
    FiresTwo(item, BinghamtonRule);
    FirstRuleStep(item, 0);
    FirstRuleStep(item, 1);
    FirstRuleStep(item, 2);
    FirstRuleStep(item, 3);
    FirstRuleStep(item, 4);
    FirstRuleStep(item, 5);
    FirstRuleStep(item, 6);
    assert FirstRule(item, Rules, 7) == None;
  }

  /** `a` is the fixed entry of some rule of the table. */
  predicate InTable(a: Appointment) {
    exists i :: 0 <= i < |Rules| && a == Rules[i].entry
  }

  /** An accepted bullet yields one of the table's entries. */
  lemma TableEntry(items: seq<string>, k: nat)
    requires k < |Accepted(Classify, items)|
    ensures InTable(Accepted(Classify, items)[k])
  {
    var e := Accepted(Classify, items)[k];
    AcceptedFrom(Classify, items, k);
    var j :| 0 <= j < |items| && Classify(items[j]) == Some(e);
    ClassifyIsFirstRule(items[j]);
    var r := FirstRule(items[j], Rules, 0);
    assert r == Some(e);
  }

  /** The classified bullets, in order; a bullet no branch accepts yields nothing. */
  function Classified(items: seq<string>): (r: seq<Appointment>)
    ensures |r| <= |items|
    ensures forall k :: 0 <= k < |r| ==> InTable(r[k])
  {
    var kept := Accepted(Classify, items);
    forall k | 0 <= k < |kept| ensures InTable(kept[k]) {
      TableEntry(items, k);
    }
    kept
  }

  lemma ClassifiedAppend(a: seq<string>, b: seq<string>)
    ensures Classified(a + b) == Classified(a) + Classified(b)
  {
    AcceptedAppend(Classify, a, b);
  }

  /** `extract_appointments`: the `&bull; ...<br />` bullets of the section, classified. */
  function AppointmentsOf(html: string): (r: seq<Appointment>)
    ensures SectionText(html, Heading("Appointments"), ParaOpen, "</p>").None? ==> r == []
    ensures SectionText(html, Heading("Appointments"), ParaOpen, "</p>").Some? ==>
      |r| <= |AllFirstGroups(Bullet, SectionText(html, Heading("Appointments"), ParaOpen, "</p>").value)|
  {
    match SectionText(html, Heading("Appointments"), ParaOpen, "</p>")
    case None => []
    case Some(t) => Classified(AllFirstGroups(Bullet, t))
  }

  // ---- publications ----

  datatype CvPublication = CvPublication(year: string, title: string, journal: string, authors: string)

  /** `re.search(r'\((\d{4})\)', clean)`: the first parenthesised year, else `Unknown`. */
  function PaperYear(clean: string): (y: string)
    ensures y == "Unknown" || (|y| == 4 && AllDigits(y))
    ensures (forall j: nat :: !IsParenYearAt(clean, j)) ==> y == "Unknown"
    ensures forall j: nat :: IsParenYearAt(clean, j) && (forall k: nat :: k < j ==> !IsParenYearAt(clean, k))
                        ==> y == clean[j + 1..j + 5]
  {
    match Search(ParenYear, clean, 0)
    case None =>
      assert forall j: nat :: !IsParenYearAt(clean, j) by {
        forall j: nat ensures !IsParenYearAt(clean, j) { assert ProbeAt(ParenYear, clean, j).None?; }
      }
      "Unknown"
    case Some(h) =>
      assert ProbeAt(ParenYear, clean, h.start).Some?;
      assert forall j: nat :: j < h.start ==> !IsParenYearAt(clean, j) by {
        forall j: nat | j < h.start ensures !IsParenYearAt(clean, j) { assert ProbeAt(ParenYear, clean, j).None?; }
      }
      DigitsSlice(clean, h.start + 1, h.start + 5);
      h.groups[0]
  }

  /** `re.search(r'^([^(]+)', clean).group(1).strip()`, else `Unknown Authors`. */
  function LeadingAuthors(clean: string): (a: string)
    ensures a == "Unknown Authors" || (IsStripped(a) && NoChar(a, '('))
    ensures clean == "" || clean[0] == '(' ==> a == "Unknown Authors"
    ensures clean != "" && clean[0] != '(' ==>
      var k := RunEnd(clean, 0, Except('('));
      a == Strip(clean[..k]) && (k == |clean| || clean[k] == '(')
  {
    if clean == "" || clean[0] == '(' then "Unknown Authors"
    else
      var k := RunEnd(clean, 0, Except('('));
      var a := Strip(clean[..k]);
      var b := RunEnd(clean[..k], 0, Space);
      assert forall j :: 0 <= j < |a| ==> a[j] == clean[b + j];
      a
  }

  /** The title: from the link after `(year).` in the raw item, else from the cleaned text,
      else `Unknown Title`. */
  function PaperTitle(li: string, clean: string): string {
    match Search(TitleAfterYear, li, 0)
    case Some(h) => Strip(h.groups[1])
    case None =>
      match Search(TitleFallback, clean, 0)
      case Some(h) => Strip(h.groups[1])
      case None => "Unknown Title"
  }

  /** One `<li>` of the publication list. */
  function Paper(li: string): (p: CvPublication)
    ensures p.year == PaperYear(Clean(li)) && p.authors == LeadingAuthors(Clean(li))
    ensures p.year == "Unknown" || (|p.year| == 4 && AllDigits(p.year))
  {
    var clean := Clean(li);
    var journal := match FirstGroup(Emphasis, li) case None => "Unknown Journal" case Some(j) => Strip(j);
    var y := PaperYear(clean);
    CvPublication(y, PaperTitle(li, clean), journal, LeadingAuthors(clean))
  }

  function Papers(items: seq<string>): (r: seq<CvPublication>)
    ensures |r| == |items| && forall k :: 0 <= k < |r| ==> r[k] == Paper(items[k])
  {
    seq(|items|, k requires 0 <= k < |items| => Paper(items[k]))
  }

  /** `extract_publications`: one entry per `<li>` between the list marker and the next `</ul>`. */
  function PublicationsOf(html: string): (r: seq<CvPublication>)
    ensures SectionText(html, Publications.ListMarker, "", "</ul>").None? ==> r == []
    ensures SectionText(html, Publications.ListMarker, "", "</ul>").Some? ==>
      r == Papers(AllFirstGroups(LiItem, SectionText(html, Publications.ListMarker, "", "</ul>").value))
  {
    match SectionText(html, Publications.ListMarker, "", "</ul>")
    case None => []
    case Some(t) => Papers(AllFirstGroups(LiItem, t))
  }

  // ---- conference proceedings ----

  datatype Proceeding = Proceeding(year: string, title: string, authors: string)

  /** `re.search(r'^([^<]+)', s).group(1).strip()`, else `Unknown Authors`. */
  function TextBeforeTag(s: string): (a: string)
    ensures s == "" || s[0] == '<' ==> a == "Unknown Authors"
    ensures s != "" && s[0] != '<' ==> a == Strip(s[..RunEnd(s, 0, Except('<'))])
  {
    if s == "" || s[0] == '<' then "Unknown Authors" else Strip(s[..RunEnd(s, 0, Except('<'))])
  }

  /** The authors as `extract_conference_proceedings` computes them: the `[^<]` prefix of the
      cleaned text, which has no tags left, so the whole cleaned item. */
  function ProceedingAuthorsAsWritten(li: string): string {
    TextBeforeTag(Clean(li))
  }

  /** The authors the code's comment describes: the `^([^<]+)` prefix of the cleaned text in
      front of the item's first link; `Unknown Authors` when the item has no link. */
  function ProceedingAuthors(li: string): string {
    match Search(Anchor, li, 0)
    case None => "Unknown Authors"
    case Some(h) => TextBeforeTag(Clean(li[..h.start]))
  }

  /** An item whose text in front of the link is `Wu`, and whose link text is `GIS`. */
  const Example: string := "Wu <a>GIS</a>"

  /** No link starts in the example's leading `Wu `. */
  lemma ExampleNoEarlyLink(li: string)
    requires li == Example
    ensures ProbeAt(Anchor, li, 0).None? && ProbeAt(Anchor, li, 1).None? && ProbeAt(Anchor, li, 2).None?
  {
    assert !At(li, 0, "<a") by { assert li[0..2][0] == 'W'; }
    assert !At(li, 1, "<a") by { assert li[1..3][0] == 'u'; }
    assert !At(li, 2, "<a") by { assert li[2..4][0] == ' '; }
  }

  /** The example's link starts at 3 and holds `GIS`. */
  lemma ExampleLinkAt(li: string)
    requires li == Example
    ensures ProbeAt(Anchor, li, 3) == Some(Hit(3, 13, ["GIS"]))
  {
    assert li[3..5] == "<a" && li[5..6] == ">" && li[9..13] == "</a>";
    assert FindFrom(li, ">", 5) == Some(5);
    assert RunEnd(li, 6, Except('<')) == 9;
    assert AnchorSpan(li, 3) == Some((6, 9));
    assert li[6..9] == "GIS";
  }

  /** The title link of the example item. */
  lemma ExampleTitle(li: string)
    requires li == Example
    ensures FirstGroup(Anchor, li) == Some("GIS")
  {
    ExampleNoEarlyLink(li);
    ExampleLinkAt(li);
    assert Search(Anchor, li, 0) == Some(Hit(3, 13, ["GIS"]));
  }

  /** The example's first tag is the `<a>` at 3. */
  lemma ExampleFirstTag(li: string)
    requires li == Example
    ensures Search(Tag, li, 0) == Some(Hit(3, 6, []))
  {
    assert ProbeAt(Tag, li, 0).None? && ProbeAt(Tag, li, 1).None? && ProbeAt(Tag, li, 2).None?;
    assert RunEnd(li, 4, Except('>')) == 5;
    assert ProbeAt(Tag, li, 3) == Some(Hit(3, 6, []));
  }

  /** The example's next tag is the `</a>` at 9, and none follows it. */
  lemma ExampleLaterTags(li: string)
    requires li == Example
    ensures Search(Tag, li, 6) == Some(Hit(9, 13, [])) && Search(Tag, li, 13).None?
  {
    assert ProbeAt(Tag, li, 6).None? && ProbeAt(Tag, li, 7).None? && ProbeAt(Tag, li, 8).None?;
    assert RunEnd(li, 10, Except('>')) == 12;
    assert ProbeAt(Tag, li, 9) == Some(Hit(9, 13, []));
  }

  /** Dropping the example's tags leaves `Wu GIS`. */
  lemma ExampleTagless(li: string)
    requires li == Example
    ensures StripTags(li) == "Wu GIS"
  {
    ExampleFirstTag(li);
    ExampleLaterTags(li);
    assert li[0..3] == "Wu " && li[6..9] == "GIS";
  }

  /** `Wu GIS` is clean text. */
  lemma ExampleTextClean(t: string)
    requires t == "Wu GIS"
    ensures NoChar(t, '<') && IsStripped(t) && SingleSpaced(t) && NoChar(t, '(')
  {
    assert forall i :: 0 <= i < |t| ==> t[i] in "Wu GIS";
  }

  /** Cleaning the example leaves `Wu GIS`. */
  lemma ExampleClean(li: string)
    requires li == Example
    ensures Clean(li) == "Wu GIS"
  {
    ExampleTagless(li);
    var t := StripTags(li);
    ExampleTextClean(t);
    CleanFixed(t);
    StripTagsPlain(t);
  }

  /** Clean text without `<` is its own `[^<]+` prefix. */
  lemma BeforeTagClean(t: string)
    requires t != "" && NoChar(t, '<') && IsStripped(t)
    ensures TextBeforeTag(t) == t
  {
    assert AllIn(t, 0, |t|, Except('<'));
    RunEndIs(t, 0, |t|, Except('<'));
    assert t[..|t|] == t;
    StripStripped(t);
  }

  lemma StripWu(a: string)
    requires a == "Wu "
    ensures Strip(a) == "Wu"
  {
    assert RunEnd(a, 0, Space) == 0;
    assert RunStart(a, 3, Space) == 2;
  }

  /** As written, the authors of `Wu <a>GIS</a>` come out as `Wu GIS`, the title included. */
  lemma ProceedingAuthorsTakeTitle(li: string)
    requires li == Example
    ensures FirstGroup(Anchor, li) == Some("GIS")
    ensures ProceedingAuthorsAsWritten(li) == "Wu GIS"
  {
    ExampleTitle(li);
    ExampleClean(li);
    ExampleTextClean(Clean(li));
    BeforeTagClean(Clean(li));
  }

  /** `Wu` is its own `[^<]+` prefix. */
  lemma WuPlain(t: string)
    requires t == "Wu"
    ensures t != "" && NoChar(t, '<')
  {
    assert forall i :: 0 <= i < |t| ==> t[i] in "Wu";
  }

  /** `Wu ` cleans to `Wu`. */
  lemma CleanWu(a: string)
    requires a == "Wu "
    ensures Clean(a) == "Wu"
  {
    assert NoChar(a, '<');
    StripTagsPlain(a);
    assert SingleSpaced(a);
    CollapseFixed(a, 0);
    assert a[0..] == a;
    StripWu(a);
  }

  /** The corrected authors of the same item are `Wu`. */
  lemma ProceedingAuthorsExample(li: string)
    requires li == Example
    ensures ProceedingAuthors(li) == "Wu"
  {
    ExampleNoEarlyLink(li);
    ExampleLinkAt(li);
    assert forall j :: 0 <= j < 3 ==> ProbeAt(Anchor, li, j).None? by {
      forall j | 0 <= j < 3 ensures ProbeAt(Anchor, li, j).None? { assert j == 0 || j == 1 || j == 2; }
    }
    assert li[..3] == "Wu ";
    CleanWu(li[..3]);
    WuPlain(Clean(li[..3]));
    ProceedingAuthorsBeforeLink(li, 3);
  }

  /** An item whose owner's name is bolded in front of the link. */
  const BoldExample: string := "<b>Wu</b> <a>GIS</a>"

  /** The tags of the bolded lead `<b>Wu</b> ` are at 0 and 5, and dropping them leaves `Wu `. */
  lemma BoldLeadTagless(a: string)
    requires a == "<b>Wu</b> "
    ensures StripTags(a) == "Wu "
  {
    assert RunEnd(a, 1, Except('>')) == 2;
    assert ProbeAt(Tag, a, 0) == Some(Hit(0, 3, []));
    assert Search(Tag, a, 0) == Some(Hit(0, 3, []));
    assert ProbeAt(Tag, a, 3).None? && ProbeAt(Tag, a, 4).None?;
    assert a[6] == '/' && a[7] == 'b' && a[8] == '>';
    assert AllIn(a, 6, 8, Except('>'));
    RunEndIs(a, 6, 8, Except('>'));
    assert ProbeAt(Tag, a, 5) == Some(Hit(5, 9, []));
    assert Search(Tag, a, 3) == Some(Hit(5, 9, []));
    assert ProbeAt(Tag, a, 9).None?;
    assert Search(Tag, a, 9).None?;
    assert Sub(Tag, a, 9, "") == " " by { assert a[9..] == " "; }
    assert Sub(Tag, a, 3, "") == "Wu" + "" + " " by { assert a[3..5] == "Wu"; }
    assert Sub(Tag, a, 0, "") == a[0..0] + "" + "Wu ";
  }

  /** The bolded lead cleans to `Wu`. */
  lemma CleanBoldLead(a: string)
    requires a == "<b>Wu</b> "
    ensures Clean(a) == "Wu"
  {
    BoldLeadTagless(a);
    var t := StripTags(a);
    assert NoChar(t, '<') && SingleSpaced(t);
    CollapseFixed(t, 0);
    assert t[0..] == t;
    StripWu(t);
  }

  /** No link starts in the bolded lead, and the link at 10 is a match. */
  lemma BoldExampleLink(li: string)
    requires li == BoldExample
    ensures forall j :: 0 <= j < 10 ==> ProbeAt(Anchor, li, j).None?
    ensures ProbeAt(Anchor, li, 10).Some?
    ensures li[..10] == "<b>Wu</b> "
  {
    forall j | 0 <= j < 10 ensures ProbeAt(Anchor, li, j).None? {
      assert !At(li, j, "<a") by { assert li[j..j + 2][1] == li[j + 1]; }
    }
    assert li[10..12] == "<a" && li[12..13] == ">" && li[16..20] == "</a>";
    assert FindFrom(li, ">", 12) == Some(12);
    assert RunEnd(li, 13, Except('<')) == 16;
    assert AnchorSpan(li, 10) == Some((13, 16));
  }

  /** With the corrected reading, a bolded name in front of the link still gives `Wu`. */
  lemma ProceedingAuthorsBoldExample(li: string)
    requires li == BoldExample
    ensures ProceedingAuthors(li) == "Wu"
  {
    BoldExampleLink(li);
    CleanBoldLead(li[..10]);
    WuPlain("Wu");
    ProceedingAuthorsBeforeLink(li, 10);
  }

  /** The corrected authors are the cleaned text in front of the item's first link, or
      `Unknown Authors` when that text is empty. */
  lemma ProceedingAuthorsBeforeLink(li: string, n: nat)
    requires ProbeAt(Anchor, li, n).Some?
    requires forall j :: 0 <= j < n ==> ProbeAt(Anchor, li, j).None?
    ensures n <= |li|
    ensures Clean(li[..n]) == "" ==> ProceedingAuthors(li) == "Unknown Authors"
    ensures Clean(li[..n]) != "" && NoChar(Clean(li[..n]), '<') ==> ProceedingAuthors(li) == Clean(li[..n])
  {
    SearchFinds(Anchor, li, 0, n);
    if Clean(li[..n]) != "" && NoChar(Clean(li[..n]), '<') {
      BeforeTagClean(Clean(li[..n]));
    }
  }

  /** When the text in front of the first link has no `<` at all, the corrected authors are
      exactly that text, cleaned. */
  lemma ProceedingAuthorsPlainLead(li: string, n: nat)
    requires ProbeAt(Anchor, li, n).Some?
    requires forall j :: 0 <= j < n ==> ProbeAt(Anchor, li, j).None?
    requires n <= |li| && NoChar(li[..n], '<') && Clean(li[..n]) != ""
    ensures ProceedingAuthors(li) == Clean(li[..n])
  {
    CleanNoChar(li[..n], '<');
    ProceedingAuthorsBeforeLink(li, n);
  }

  /** An item without a link has no corrected authors. */
  lemma ProceedingAuthorsNoLink(li: string)
    requires forall j :: 0 <= j <= |li| ==> ProbeAt(Anchor, li, j).None?
    ensures ProceedingAuthors(li) == "Unknown Authors"
  {
  }

  /** `re.search(r'(\d{4})', clean)`: the first run of four digits, else `Unknown`. */
  function FirstYear(clean: string): (y: string)
    ensures y == "Unknown" || (|y| == 4 && AllDigits(y))
    ensures y == "Unknown" <==> forall j: nat :: !IsFourDigitsAt(clean, j)
    ensures forall j: nat :: IsFourDigitsAt(clean, j) && (forall k: nat :: k < j ==> !IsFourDigitsAt(clean, k))
                        ==> y == clean[j..j + 4]
  {
    match Search(FourDigits, clean, 0)
    case None =>
      assert forall j: nat :: !IsFourDigitsAt(clean, j) by {
        forall j: nat ensures !IsFourDigitsAt(clean, j) { assert ProbeAt(FourDigits, clean, j).None?; }
      }
      "Unknown"
    case Some(h) =>
      assert ProbeAt(FourDigits, clean, h.start).Some?;
      assert forall j: nat :: j < h.start ==> !IsFourDigitsAt(clean, j) by {
        forall j: nat | j < h.start ensures !IsFourDigitsAt(clean, j) { assert ProbeAt(FourDigits, clean, j).None?; }
      }
      DigitsSlice(clean, h.start, h.start + 4);
      assert h.groups[0] != "Unknown" by { assert |h.groups[0]| == 4; }
      h.groups[0]
  }

  /** The title of one `<li>`: the stripped text of its first link, else the cleaned item. */
  function ProceedingTitle(li: string): string {
    match FirstGroup(Anchor, li)
    case None => Clean(li)
    case Some(t) => Strip(t)
  }

  /** One `<li>` of the proceedings list, as `extract_conference_proceedings` builds it. */
  function ProceedingOf(li: string): (p: Proceeding)
    ensures p.authors == ProceedingAuthorsAsWritten(li)
    ensures p.year == FirstYear(Clean(li))
    ensures p.year == "Unknown" || (|p.year| == 4 && AllDigits(p.year))
    ensures p.year == "Unknown" <==> forall j: nat :: !IsFourDigitsAt(Clean(li), j)
    ensures forall j: nat :: IsFourDigitsAt(Clean(li), j) && (forall k: nat :: k < j ==> !IsFourDigitsAt(Clean(li), k))
                        ==> p.year == Clean(li)[j..j + 4]
    ensures FirstGroup(Anchor, li).None? ==> p.title == Clean(li)
    ensures FirstGroup(Anchor, li).Some? ==> p.title == Strip(FirstGroup(Anchor, li).value)
  {
    Proceeding(FirstYear(Clean(li)), ProceedingTitle(li), ProceedingAuthorsAsWritten(li))
  }

  /** The same item with the authors taken from the cleaned text in front of its first link;
      it differs from what the code builds in the authors alone. */
  function ProceedingOfIntended(li: string): (p: Proceeding)
    ensures p.authors == ProceedingAuthors(li)
    ensures p == ProceedingOf(li).(authors := ProceedingAuthors(li))
  {
    Proceeding(FirstYear(Clean(li)), ProceedingTitle(li), ProceedingAuthors(li))
  }

  /** As written, the example item comes out with authors `Wu GIS` and title `GIS`; with the
      corrected authors it comes out with authors `Wu` and the same title. */
  lemma ProceedingOfExample(li: string)
    requires li == Example
    ensures ProceedingOf(li).authors == "Wu GIS" && ProceedingOf(li).title == "GIS"
    ensures ProceedingOfIntended(li).authors == "Wu" && ProceedingOfIntended(li).title == "GIS"
  {
    ProceedingAuthorsTakeTitle(li);
    ProceedingAuthorsExample(li);
    StripPlainGIS("GIS");
  }

  lemma StripPlainGIS(t: string)
    requires t == "GIS"
    ensures Strip(t) == "GIS"
  {
    assert RunEnd(t, 0, Space) == 0;
    assert RunStart(t, 3, Space) == 3;
  }

  /** The `<li>` items of the proceedings section's first list; none without the section. */
  function ProceedingListItems(html: string): (items: seq<string>)
    ensures SectionText(html, Heading("Conference Proceedings"), "<ul>", "</ul>").None? ==> items == []
    ensures SectionText(html, Heading("Conference Proceedings"), "<ul>", "</ul>").Some? ==>
      items == AllFirstGroups(LiItem, SectionText(html, Heading("Conference Proceedings"), "<ul>", "</ul>").value)
  {
    match SectionText(html, Heading("Conference Proceedings"), "<ul>", "</ul>")
    case None => []
    case Some(t) => AllFirstGroups(LiItem, t)
  }

  /** `extract_conference_proceedings`: one entry per item, in order. */
  function ProceedingsOf(html: string): (r: seq<Proceeding>)
    ensures |r| == |ProceedingListItems(html)|
    ensures forall k :: 0 <= k < |r| ==> r[k] == ProceedingOf(ProceedingListItems(html)[k])
  {
    var items := ProceedingListItems(html);
    seq(|items|, k requires 0 <= k < |items| => ProceedingOf(items[k]))
  }

  /** The proceedings with the corrected authors: the same items, in the same order, each
      differing from the code's entry in its authors alone. */
  function ProceedingsOfIntended(html: string): (r: seq<Proceeding>)
    ensures |r| == |ProceedingsOf(html)|
    ensures forall k :: 0 <= k < |r| ==>
      r[k] == ProceedingsOf(html)[k].(authors := ProceedingAuthors(ProceedingListItems(html)[k]))
  {
    var items := ProceedingListItems(html);
    var r := seq(|items|, k requires 0 <= k < |items| => ProceedingOfIntended(items[k]));
    var code := ProceedingsOf(html);
    forall k | 0 <= k < |r| ensures r[k] == code[k].(authors := ProceedingAuthors(items[k])) {
      assert code[k] == ProceedingOf(items[k]);
    }
    r
  }

  // ---- awards and presentations ----

  /** The cleaned items of one year's list, each under that year. */
  function UnderYear(year: string, items: seq<string>): (r: seq<Dated>)
    ensures |r| == |items|
    ensures forall k :: 0 <= k < |r| ==> r[k] == Dated(year, Clean(items[k]))
  {
    seq(|items|, k requires 0 <= k < |items| => Dated(year, Clean(items[k])))
  }

  /** `y` is the year of one of the blocks. */
  predicate FromBlock(blocks: seq<Hit>, y: string) {
    exists i :: 0 <= i < |blocks| && |blocks[i].groups| > 0 && y == blocks[i].groups[0]
  }

  lemma FromBlockLater(blocks: seq<Hit>, y: string)
    requires blocks != [] && FromBlock(blocks[1..], y)
    ensures FromBlock(blocks, y)
  {
    var i :| 0 <= i < |blocks[1..]| && |blocks[1..][i].groups| > 0 && y == blocks[1..][i].groups[0];
    assert blocks[1..][i] == blocks[i + 1];
  }

  /** Every block has its year and its list as its two groups. */
  predicate TwoGroups(blocks: seq<Hit>) {
    forall i :: 0 <= i < |blocks| ==> |blocks[i].groups| == 2
  }

  /** The awards of one `<h3>year</h3> <ul>...</ul>` block. */
  function BlockEntries(b: Hit): seq<Dated>
    requires |b.groups| == 2
  {
    UnderYear(b.groups[0], AllFirstGroups(LiItem, b.groups[1]))
  }

  /** The awards of the year blocks, block by block. */
  function BlockAwards(blocks: seq<Hit>): (r: seq<Dated>)
    requires TwoGroups(blocks)
    ensures forall j :: 0 <= j < |r| ==> FromBlock(blocks, r[j].year)
    decreases |blocks|
  {
    if blocks == [] then []
    else
      var here := BlockEntries(blocks[0]);
      var rest := BlockAwards(blocks[1..]);
      var r := here + rest;
      assert FromBlock(blocks, blocks[0].groups[0]);
      forall j | 0 <= j < |r| ensures FromBlock(blocks, r[j].year) {
        if j < |here| {
          assert r[j] == here[j];
        } else {
          assert r[j] == rest[j - |here|];
          FromBlockLater(blocks, r[j].year);
        }
      }
      r
  }

  /** One block gives its cleaned items, in order, each under the block's year. */
  lemma BlockAwardsSingle(b: Hit)
    requires |b.groups| == 2
    ensures BlockAwards([b]) == UnderYear(b.groups[0], AllFirstGroups(LiItem, b.groups[1]))
  {
    assert [b][1..] == [];
  }

  /** The blocks are taken one after another: the awards of two runs of blocks are those of
      the first run followed by those of the second. */
  lemma {:induction false} BlockAwardsAppend(a: seq<Hit>, b: seq<Hit>)
    requires TwoGroups(a) && TwoGroups(b)
    ensures TwoGroups(a + b)
    ensures BlockAwards(a + b) == BlockAwards(a) + BlockAwards(b)
    decreases |a|
  {
    TwoGroupsAppend(a, b);
    if a == [] {
      assert a + b == b;
    } else {
      TwoGroupsAppend(a[1..], b);
      BlockAwardsAppend(a[1..], b);
      BlockAwardsCons(a, b);
      SeqAssoc(BlockEntries(a[0]), BlockAwards(a[1..]), BlockAwards(b));
    }
  }

  lemma TwoGroupsAppend(a: seq<Hit>, b: seq<Hit>)
    requires TwoGroups(a) && TwoGroups(b)
    ensures TwoGroups(a + b)
    ensures a != [] ==> TwoGroups(a[1..])
  {
    forall i | 0 <= i < |a + b| ensures |(a + b)[i].groups| == 2 {
      if i < |a| { assert (a + b)[i] == a[i]; } else { assert (a + b)[i] == b[i - |a|]; }
    }
    if a != [] {
      forall i | 0 <= i < |a[1..]| ensures |a[1..][i].groups| == 2 { assert a[1..][i] == a[i + 1]; }
    }
  }

  /** Unfolding `BlockAwards` over a non-empty front run. */
  lemma BlockAwardsCons(a: seq<Hit>, b: seq<Hit>)
    requires a != [] && TwoGroups(a + b) && TwoGroups(a[1..] + b) && TwoGroups(a)
    ensures BlockAwards(a + b) == BlockEntries(a[0]) + BlockAwards(a[1..] + b)
    ensures BlockAwards(a) == BlockEntries(a[0]) + BlockAwards(a[1..])
  {
    assert (a + b)[0] == a[0] && (a + b)[1..] == a[1..] + b;
  }

  /** Every year-block match has its two groups, the first of them four digits. */
  lemma YearBlocksShape(t: string)
    ensures var blocks := FindAll(YearBlock, t, 0);
      forall i :: 0 <= i < |blocks| ==>
        |blocks[i].groups| == 2 && |blocks[i].groups[0]| == 4 && AllDigits(blocks[i].groups[0])
  {
    var blocks := FindAll(YearBlock, t, 0);
    forall i | 0 <= i < |blocks|
      ensures |blocks[i].groups| == 2 && |blocks[i].groups[0]| == 4 && AllDigits(blocks[i].groups[0])
    {
      var s := blocks[i].start;
      assert ProbeAt(YearBlock, t, s) == Some(blocks[i]);
      DigitsSlice(t, s + 4, s + 8);
    }
  }

  /** When every block year has four digits, so does every award's year. */
  lemma AwardYears(blocks: seq<Hit>)
    requires forall i :: 0 <= i < |blocks| ==>
      |blocks[i].groups| == 2 && |blocks[i].groups[0]| == 4 && AllDigits(blocks[i].groups[0])
    ensures TwoGroups(blocks)
    ensures var r := BlockAwards(blocks);
      forall j :: 0 <= j < |r| ==> |r[j].year| == 4 && AllDigits(r[j].year)
  {
    var r := BlockAwards(blocks);
    forall j | 0 <= j < |r| ensures |r[j].year| == 4 && AllDigits(r[j].year) {
      assert FromBlock(blocks, r[j].year);
      var i :| 0 <= i < |blocks| && |blocks[i].groups| > 0 && r[j].year == blocks[i].groups[0];
    }
  }

  /** The `<h3>year</h3> <ul>...</ul>` blocks of the awards section: none without the section,
      otherwise every non-overlapping match of the block pattern in the section text, in order.
      Each has its two groups, the year among them four digits. */
  function AwardBlocks(html: string): (blocks: seq<Hit>)
    ensures SectionText(html, Heading("Awards and Honors"), ContainerOpen, "</div>").None? ==> blocks == []
    ensures SectionText(html, Heading("Awards and Honors"), ContainerOpen, "</div>").Some? ==>
      blocks == FindAll(YearBlock, SectionText(html, Heading("Awards and Honors"), ContainerOpen, "</div>").value, 0)
    ensures forall i :: 0 <= i < |blocks| ==>
      |blocks[i].groups| == 2 && |blocks[i].groups[0]| == 4 && AllDigits(blocks[i].groups[0])
  {
    match SectionText(html, Heading("Awards and Honors"), ContainerOpen, "</div>")
    case None => []
    case Some(t) =>
      YearBlocksShape(t);
      FindAll(YearBlock, t, 0)
  }

  /** `extract_awards`: no section, no awards; every award's year has four digits. */
  function AwardsOf(html: string): (r: seq<Dated>)
    ensures SectionText(html, Heading("Awards and Honors"), ContainerOpen, "</div>").None? ==> r == []
    ensures forall j :: 0 <= j < |r| ==> |r[j].year| == 4 && AllDigits(r[j].year)
  {
    var blocks := AwardBlocks(html);
    AwardYears(blocks);
    BlockAwards(blocks)
  }

  /** Around any one block of the awards section, the awards are those of the blocks before it,
      then that block's cleaned items under its year, then those of the blocks after it. */
  lemma AwardsAround(html: string, a: seq<Hit>, b: Hit, c: seq<Hit>)
    requires AwardBlocks(html) == a + [b] + c
    ensures TwoGroups(a) && |b.groups| == 2 && TwoGroups(c)
    ensures AwardsOf(html) ==
      BlockAwards(a) + UnderYear(b.groups[0], AllFirstGroups(LiItem, b.groups[1])) + BlockAwards(c)
  {
    var blocks := AwardBlocks(html);
    AwardYears(blocks);
    assert blocks[|a|] == b;
    forall i | 0 <= i < |a| ensures |a[i].groups| == 2 { assert blocks[i] == a[i]; }
    forall i | 0 <= i < |c| ensures |c[i].groups| == 2 { assert blocks[|a| + 1 + i] == c[i]; }
    BlockAwardsSingle(b);
    BlockAwardsAppend(a, [b]);
    BlockAwardsAppend(a + [b], c);
  }

  /** Where one timeline year's content ends: at the next timeline-year opening, else at the
      first end of the timeline, else at the end of the page. */
  function WindowEnd(html: string, start: nat): (e: nat)
    requires start <= |html|
    ensures start <= e <= |html|
    ensures !Contains(html[start..e], TimelineYearOpen)
    ensures FindFrom(html, TimelineYearOpen, start).Some? ==> e == FindFrom(html, TimelineYearOpen, start).value
    ensures FindFrom(html, TimelineYearOpen, start).None? ==>
      NoneBetween(TimelineClose, html, start, e) && (e < |html| ==> ProbeAt(TimelineClose, html, e).Some?)
  {
    SearchLiteral(TimelineYearOpen, html, start);
    match Search(Literal(TimelineYearOpen), html, start)
    case Some(n) =>
      assert ProbeAt(Literal(TimelineYearOpen), html, n.start).Some?;
      WindowClear(html, start, n.start);
      n.start
    case None =>
      var e := match Search(TimelineClose, html, start)
        case Some(c) => assert ProbeAt(TimelineClose, html, c.start).Some?; c.start
        case None => |html|;
      WindowClear(html, start, e);
      e
  }

  /** An occurrence in a slice is an occurrence in the whole text. */
  lemma AtInSlice(s: string, lo: nat, hi: nat, j: nat, t: string)
    requires lo <= hi <= |s|
    ensures At(s[lo..hi], j, t) ==> At(s, lo + j, t)
  {
    if At(s[lo..hi], j, t) {
      AtNested(s, lo, s[lo..hi], j, t, lo + j);
    }
  }

  /** No timeline-year opening starts before the first one the search finds. */
  lemma WindowClear(html: string, start: nat, e: nat)
    requires start <= e <= |html|
    requires forall j: nat :: start <= j < e ==> ProbeAt(Literal(TimelineYearOpen), html, j).None?
    ensures !Contains(html[start..e], TimelineYearOpen)
  {
    var w := html[start..e];
    var n := |TimelineYearOpen|;
    forall j: nat ensures !At(w, j, TimelineYearOpen) {
      if j + n <= |w| {
        assert ProbeAt(Literal(TimelineYearOpen), html, start + j).None?;
        AtInSlice(html, start, e, j, TimelineYearOpen);
      }
    }
  }

  /** A presentation as the extractor keeps it: a four-digit year and non-empty clean text. */
  predicate Kept(t: Dated) {
    |t.year| == 4 && AllDigits(t.year) && t.text != "" && IsStripped(t.text) && SingleSpaced(t.text)
  }

  /** A talk filed under `year`: that year, with non-empty clean text. */
  predicate Filed(year: string, d: Dated) {
    d.year == year && d.text != "" && IsStripped(d.text) && SingleSpaced(d.text)
  }

  lemma KeptAppend(a: seq<Dated>, b: seq<Dated>)
    requires forall k :: 0 <= k < |a| ==> Kept(a[k])
    requires forall k :: 0 <= k < |b| ==> Kept(b[k])
    ensures forall k :: 0 <= k < |a + b| ==> Kept((a + b)[k])
  {
    forall k | 0 <= k < |a + b| ensures Kept((a + b)[k]) {
      if k < |a| { assert (a + b)[k] == a[k]; } else { assert (a + b)[k] == b[k - |a|]; }
    }
  }

  /** What the extractor keeps of one item of a year: its cleaned text, unless that is empty. */
  function TalkStep(year: string): string -> Option<Dated> {
    item => if Clean(item) != "" then Some(Dated(year, Clean(item))) else None
  }

  /** The non-empty cleaned items of one timeline year's content. */
  function Talks(year: string, items: seq<string>): (r: seq<Dated>)
    ensures |r| <= |items|
    ensures forall k :: 0 <= k < |r| ==> Filed(year, r[k])
  {
    var r := Accepted(TalkStep(year), items);
    forall k | 0 <= k < |r| ensures Filed(year, r[k]) {
      AcceptedFrom(TalkStep(year), items, k);
    }
    r
  }

  /** One item gives its cleaned text under the year, or nothing when that text is empty. */
  lemma TalksSingle(year: string, item: string)
    ensures Clean(item) != "" ==> Talks(year, [item]) == [Dated(year, Clean(item))]
    ensures Clean(item) == "" ==> Talks(year, [item]) == []
  {
    assert [item][0] == item && [item][1..] == [];
  }

  /** The items are taken one after another, in order. */
  lemma TalksAppend(year: string, a: seq<string>, b: seq<string>)
    ensures Talks(year, a + b) == Talks(year, a) + Talks(year, b)
  {
    AcceptedAppend(TalkStep(year), a, b);
  }

  /** A timeline-year match that lies in the page and has a four-digit year as its one group. */
  predicate YearHeading(html: string, h: Hit) {
    h.end <= |html| && |h.groups| == 1 && |h.groups[0]| == 4 && AllDigits(h.groups[0])
  }

  predicate YearHeadings(html: string, years: seq<Hit>) {
    forall i :: 0 <= i < |years| ==> YearHeading(html, years[i])
  }

  lemma YearHeadingsAppend(html: string, a: seq<Hit>, b: seq<Hit>)
    requires YearHeadings(html, a) && YearHeadings(html, b)
    ensures YearHeadings(html, a + b)
  {
    forall i | 0 <= i < |a + b| ensures YearHeading(html, (a + b)[i]) {
      if i < |a| { assert (a + b)[i] == a[i]; } else { assert (a + b)[i] == b[i - |a|]; }
    }
  }

  lemma YearHeadingsTail(html: string, a: seq<Hit>)
    requires a != [] && YearHeadings(html, a)
    ensures YearHeading(html, a[0]) && YearHeadings(html, a[1..])
  {
    forall i | 0 <= i < |a[1..]| ensures YearHeading(html, a[1..][i]) { assert a[1..][i] == a[i + 1]; }
  }

  /** The `<li>` items between a timeline-year heading and the end of its window. */
  function WindowItems(html: string, h: Hit): seq<string>
    requires h.end <= |html|
  {
    AllFirstGroups(LiItem, html[h.end..WindowEnd(html, h.end)])
  }

  /** The talks under one heading: those of its window, under its year. */
  function HeadingTalks(html: string, h: Hit): (r: seq<Dated>)
    requires YearHeading(html, h)
    ensures forall j :: 0 <= j < |r| ==> Kept(r[j])
  {
    Talks(h.groups[0], WindowItems(html, h))
  }

  /** The presentations filed under the timeline years, heading by heading. */
  function YearTalks(html: string, years: seq<Hit>): (r: seq<Dated>)
    requires YearHeadings(html, years)
    ensures forall j :: 0 <= j < |r| ==> Kept(r[j])
    decreases |years|
  {
    if years == [] then []
    else
      YearHeadingsTail(html, years);
      var here, rest := HeadingTalks(html, years[0]), YearTalks(html, years[1..]);
      KeptAppend(here, rest);
      here + rest
  }

  /** One heading gives the talks of its own window, under its year. */
  lemma YearTalksSingle(html: string, h: Hit)
    requires YearHeading(html, h)
    ensures YearHeadings(html, [h])
    ensures YearTalks(html, [h]) == Talks(h.groups[0], WindowItems(html, h))
  {
    assert [h][0] == h && [h][1..] == [];
  }

  /** Unfolding `YearTalks` over a non-empty front run. */
  lemma YearTalksCons(html: string, a: seq<Hit>, b: seq<Hit>)
    requires a != [] && YearHeadings(html, a + b) && YearHeading(html, a[0]) && YearHeadings(html, a[1..] + b)
    ensures YearTalks(html, a + b) == HeadingTalks(html, a[0]) + YearTalks(html, a[1..] + b)
  {
    assert (a + b)[0] == a[0] && (a + b)[1..] == a[1..] + b;
  }

  /** The headings are taken one after another, in page order. */
  lemma {:induction false} YearTalksAppend(html: string, a: seq<Hit>, b: seq<Hit>)
    requires YearHeadings(html, a) && YearHeadings(html, b)
    ensures YearHeadings(html, a + b)
    ensures YearTalks(html, a + b) == YearTalks(html, a) + YearTalks(html, b)
    decreases |a|
  {
    YearHeadingsAppend(html, a, b);
    if a == [] {
      assert a + b == b;
    } else {
      YearHeadingsTail(html, a);
      YearHeadingsAppend(html, a[1..], b);
      YearTalksAppend(html, a[1..], b);
      YearTalksCons(html, a, b);
      SeqAssoc(HeadingTalks(html, a[0]), YearTalks(html, a[1..]), YearTalks(html, b));
    }
  }

  /** Every timeline-year match of the page, with its year as four digits. */
  lemma TimelineYears(html: string)
    ensures YearHeadings(html, FindAll(TimelineYear, html, 0))
  {
    var years := FindAll(TimelineYear, html, 0);
    forall i | 0 <= i < |years| ensures YearHeading(html, years[i]) {
      var s := years[i].start;
      assert ProbeAt(TimelineYear, html, s) == Some(years[i]);
      DigitsSlice(html, s + |TimelineYearOpen|, s + |TimelineYearOpen| + 4);
    }
  }

  /** `extract_presentations`: the talks of every timeline-year heading of the page, in page
      order, each a four-digit year with non-empty clean text. */
  function PresentationsOf(html: string): (r: seq<Dated>)
    ensures forall j :: 0 <= j < |r| ==> Kept(r[j])
  {
    TimelineYears(html);
    YearTalks(html, FindAll(TimelineYear, html, 0))
  }

  /** Around any one timeline-year heading of the page, the presentations are those of the
      headings before it, then the non-empty cleaned items of its own window under its year,
      then those of the headings after it. */
  lemma PresentationsAround(html: string, a: seq<Hit>, h: Hit, c: seq<Hit>)
    requires FindAll(TimelineYear, html, 0) == a + [h] + c
    ensures YearHeadings(html, a) && YearHeading(html, h) && YearHeadings(html, c)
    ensures PresentationsOf(html) ==
      YearTalks(html, a) + Talks(h.groups[0], WindowItems(html, h)) + YearTalks(html, c)
  {
    var years := FindAll(TimelineYear, html, 0);
    TimelineYears(html);
    assert years[|a|] == h;
    forall i | 0 <= i < |a| ensures YearHeading(html, a[i]) { assert years[i] == a[i]; }
    forall i | 0 <= i < |c| ensures YearHeading(html, c[i]) { assert years[|a| + 1 + i] == c[i]; }
    YearTalksSingle(html, h);
    YearTalksAppend(html, a, [h]);
    YearTalksAppend(html, a + [h], c);
  }
}

=== FILE: cv_layout.dfy ===
/**
 The pieces the CV page body is built from, and the loop `generate_cv.py` uses for awards and
 presentations: a year header wherever the year changes, then one bullet item per entry.
 */
module CvLayout {
  import opened Wrappers

  /** An award or a presentation: the year it is filed under and its cleaned text. */
  datatype Dated = Dated(year: string, text: string)

  /** The pieces the page body is assembled from. */
  datatype Piece = Heading(name: string) | YearHeader(year: string) | Item(cls: string, body: string)

  function PieceHtml(p: Piece): string {
    match p
    case Heading(n) => "\n    <h2>" + n + "</h2>\n"
    case YearHeader(y) => "\n    <div class=\"award-year\">" + y + "</div>\n"
    case Item(c, b) => "\n    <div class=\"" + c + "\">\n        " + b + "\n    </div>\n"
  }

  function Html(ps: seq<Piece>): string {
    if ps == [] then "" else PieceHtml(ps[0]) + Html(ps[1..])
  }

  /** Rendering distributes over concatenation of pieces. */
  lemma {:induction false} HtmlAppend(a: seq<Piece>, b: seq<Piece>)
    ensures Html(a + b) == Html(a) + Html(b)
    decreases |a|
  {
    if a == [] {
      assert a + b == b;
    } else {
      assert (a + b)[0] == a[0] && (a + b)[1..] == a[1..] + b;
      HtmlAppend(a[1..], b);
    }
  }

  function Bulleted(text: string): string {
    "\U{2022} " + text
  }

  /** One bullet item per entry, in order. */
  function Bullets(cls: string, es: seq<Dated>): (r: seq<Piece>)
    ensures |r| == |es| && forall k :: 0 <= k < |r| ==> r[k] == Item(cls, Bulleted(es[k].text))
  {
    seq(|es|, k requires 0 <= k < |es| => Item(cls, Bulleted(es[k].text)))
  }

  lemma BulletsCons(cls: string, es: seq<Dated>)
    requires es != []
    ensures Bullets(cls, es) == [Item(cls, Bulleted(es[0].text))] + Bullets(cls, es[1..])
  {
    var b, br := Bullets(cls, es), Bullets(cls, es[1..]);
    var c := [Item(cls, Bulleted(es[0].text))] + br;
    forall k | 0 <= k < |b| ensures c[k] == b[k] {
      if k > 0 {
        assert c[k] == br[k - 1] && es[1..][k - 1] == es[k];
      }
    }
  }

  // ---- the year-grouping loop ----

  /** The loop over awards (or presentations) with `current_year` starting at `current`: a
      year header goes out before an entry whose year differs from the current one. */
  function Grouped(cls: string, es: seq<Dated>, current: Option<string>): seq<Piece>
    decreases |es|
  {
    if es == [] then [] else Step(cls, es[0], current) + Grouped(cls, es[1..], Some(es[0].year))
  }

  /** What the loop body emits for one entry: a header if its year is not the current one,
      then its item. */
  function Step(cls: string, e: Dated, current: Option<string>): seq<Piece> {
    (if current != Some(e.year) then [YearHeader(e.year)] else []) + [Item(cls, Bulleted(e.text))]
  }

  /** The items the loop emits. */
  function ItemsOf(ps: seq<Piece>): seq<Piece> {
    if ps == [] then [] else (if ps[0].Item? then [ps[0]] else []) + ItemsOf(ps[1..])
  }

  /** The years of the headers the loop emits. */
  function HeaderYears(ps: seq<Piece>): seq<string> {
    if ps == [] then [] else (if ps[0].YearHeader? then [ps[0].year] else []) + HeaderYears(ps[1..])
  }

  lemma {:induction false} ItemsOfAppend(a: seq<Piece>, b: seq<Piece>)
    ensures ItemsOf(a + b) == ItemsOf(a) + ItemsOf(b)
    ensures HeaderYears(a + b) == HeaderYears(a) + HeaderYears(b)
    decreases |a|
  {
    if a == [] {
      assert a + b == b;
    } else {
      assert (a + b)[0] == a[0] && (a + b)[1..] == a[1..] + b;
      var hi := if a[0].Item? then [a[0]] else [];
      var hy := if a[0].YearHeader? then [a[0].year] else [];
      assert ItemsOf(a + b) == hi + ItemsOf(a[1..] + b);
      assert HeaderYears(a + b) == hy + HeaderYears(a[1..] + b);
      ItemsOfAppend(a[1..], b);
      assert hi + (ItemsOf(a[1..]) + ItemsOf(b)) == (hi + ItemsOf(a[1..])) + ItemsOf(b);
      assert hy + (HeaderYears(a[1..]) + HeaderYears(b)) == (hy + HeaderYears(a[1..])) + HeaderYears(b);
    }
  }

  lemma {:induction false} BulletsOnlyItems(cls: string, es: seq<Dated>)
    ensures ItemsOf(Bullets(cls, es)) == Bullets(cls, es)
    ensures HeaderYears(Bullets(cls, es)) == []
    decreases |es|
  {
    if es != [] {
      assert Bullets(cls, es)[1..] == Bullets(cls, es[1..]);
      BulletsOnlyItems(cls, es[1..]);
    }
  }

  /** Every entry is emitted as one item, in input order, whatever the headers. */
  lemma {:induction false} GroupedItems(cls: string, es: seq<Dated>, current: Option<string>)
    ensures ItemsOf(Grouped(cls, es, current)) == Bullets(cls, es)
    decreases |es|
  {
    if es != [] {
      var head := if current != Some(es[0].year) then [YearHeader(es[0].year)] else [];
      var it := [Item(cls, Bulleted(es[0].text))];
      var rest := Grouped(cls, es[1..], Some(es[0].year));
      GroupedItems(cls, es[1..], Some(es[0].year));
      ItemsOfAppend(head + it, rest);
      ItemsOfAppend(head, it);
      BulletsCons(cls, es);
    }
  }

  /** Entries that all share the current year get no header at all. */
  lemma {:induction false} GroupedSameYear(cls: string, es: seq<Dated>, y: string)
    requires forall k :: 0 <= k < |es| ==> es[k].year == y
    ensures Grouped(cls, es, Some(y)) == Bullets(cls, es)
    decreases |es|
  {
    if es != [] {
      assert es[0].year == y;
      assert Step(cls, es[0], Some(y)) == [Item(cls, Bulleted(es[0].text))];
      assert forall k :: 0 <= k < |es[1..]| ==> es[1..][k] == es[k + 1];
      GroupedSameYear(cls, es[1..], y);
      BulletsCons(cls, es);
    }
  }

  /** Running the loop over `a + b` is running it over `a`, then over `b` with the last year
      of `a` as the current one. */
  lemma {:induction false} GroupedAppend(cls: string, a: seq<Dated>, b: seq<Dated>, current: Option<string>)
    requires a != []
    ensures Grouped(cls, a + b, current) == Grouped(cls, a, current) + Grouped(cls, b, Some(a[|a| - 1].year))
    decreases |a|
  {
    var ab := a + b;
    assert ab[0] == a[0] && ab[1..] == a[1..] + b;
    var st := Step(cls, a[0], current);
    assert Grouped(cls, ab, current) == st + Grouped(cls, a[1..] + b, Some(a[0].year));
    if |a| > 1 {
      var g1 := Grouped(cls, a[1..], Some(a[0].year));
      var g2 := Grouped(cls, b, Some(a[|a| - 1].year));
      assert a[1..][|a[1..]| - 1] == a[|a| - 1];
      GroupedAppend(cls, a[1..], b, Some(a[0].year));
      calc {
        Grouped(cls, ab, current);
        st + Grouped(cls, a[1..] + b, Some(a[0].year));
        st + (g1 + g2);
        (st + g1) + g2;
        Grouped(cls, a, current) + g2;
      }
    } else {
      assert a[1..] == [];
      calc {
        Grouped(cls, ab, current);
        st + Grouped(cls, b, Some(a[0].year));
        (st + []) + Grouped(cls, b, Some(a[|a| - 1].year));
        Grouped(cls, a, current) + Grouped(cls, b, Some(a[|a| - 1].year));
      }
    }
  }

  // ---- runs of equal years ----

  /** The maximal runs of consecutive entries with equal years. */
  function Runs(es: seq<Dated>): (rs: seq<seq<Dated>>)
    ensures forall i :: 0 <= i < |rs| ==> rs[i] != []
    ensures es == [] <==> rs == []
    ensures es != [] ==> rs[0][0] == es[0]
    decreases |es|
  {
    if es == [] then []
    else
      var rs: seq<seq<Dated>> := Runs(es[1..]);
      if rs != [] && rs[0][0].year == es[0].year then [[es[0]] + rs[0]] + rs[1..]
      else [[es[0]]] + rs
  }

  function Flatten(rs: seq<seq<Dated>>): seq<Dated> {
    if rs == [] then [] else rs[0] + Flatten(rs[1..])
  }

  /** Non-empty runs, each of one year, neighbours of different years. */
  predicate IsRuns(rs: seq<seq<Dated>>) {
    && (forall i :: 0 <= i < |rs| ==> rs[i] != [])
    && (forall i, j :: 0 <= i < |rs| && 0 <= j < |rs[i]| ==> rs[i][j].year == rs[i][0].year)
    && (forall i :: 0 <= i < |rs| - 1 ==> rs[i][0].year != rs[i + 1][0].year)
  }

  lemma {:induction false} RunsFlatten(es: seq<Dated>)
    ensures Flatten(Runs(es)) == es
    decreases |es|
  {
    if es != [] {
      var rs: seq<seq<Dated>> := Runs(es[1..]);
      RunsFlatten(es[1..]);
      if rs != [] && rs[0][0].year == es[0].year {
        var r := [[es[0]] + rs[0]] + rs[1..];
        assert r[0] == [es[0]] + rs[0] && r[1..] == rs[1..];
        assert Flatten(rs) == rs[0] + Flatten(rs[1..]);
        assert Flatten(r) == ([es[0]] + rs[0]) + Flatten(rs[1..]);
        assert es == [es[0]] + es[1..];
      } else {
        var r := [[es[0]]] + rs;
        assert r[0] == [es[0]] && r[1..] == rs;
        assert es == [es[0]] + es[1..];
      }
    }
  }

  lemma {:induction false} RunsShaped(es: seq<Dated>)
    ensures IsRuns(Runs(es))
    decreases |es|
  {
    if es != [] {
      var rs: seq<seq<Dated>> := Runs(es[1..]);
      RunsShaped(es[1..]);
      if rs != [] && rs[0][0].year == es[0].year {
        var r := [[es[0]] + rs[0]] + rs[1..];
        assert forall i :: 1 <= i < |r| ==> r[i] == rs[i];
        assert forall j :: 1 <= j < |r[0]| ==> r[0][j] == rs[0][j - 1];
      } else {
        var r := [[es[0]]] + rs;
        assert forall i :: 1 <= i < |r| ==> r[i] == rs[i - 1];
      }
    }
  }

  /** `Runs` partitions the entries into maximal runs. */
  lemma RunsPartition(es: seq<Dated>)
    ensures Flatten(Runs(es)) == es && IsRuns(Runs(es))
  {
    RunsFlatten(es);
    RunsShaped(es);
  }

  /** A run's header followed by its items. */
  function Block(cls: string, run: seq<Dated>): seq<Piece>
    requires run != []
  {
    [YearHeader(run[0].year)] + Bullets(cls, run)
  }

  function Blocks(cls: string, rs: seq<seq<Dated>>): seq<Piece>
    requires forall i :: 0 <= i < |rs| ==> rs[i] != []
  {
    if rs == [] then [] else Block(cls, rs[0]) + Blocks(cls, rs[1..])
  }

  /** A run entered with a different current year gets exactly one header. */
  lemma GroupedRun(cls: string, run: seq<Dated>, current: Option<string>)
    requires run != [] && current != Some(run[0].year)
    requires forall j :: 0 <= j < |run| ==> run[j].year == run[0].year
    ensures Grouped(cls, run, current) == Block(cls, run)
  {
    GroupedSameYear(cls, run[1..], run[0].year);
    assert Bullets(cls, run) == [Item(cls, Bulleted(run[0].text))] + Bullets(cls, run[1..]);
  }

  lemma {:induction false} GroupedBlocks(cls: string, rs: seq<seq<Dated>>, current: Option<string>)
    requires IsRuns(rs)
    requires rs != [] ==> current != Some(rs[0][0].year)
    ensures Grouped(cls, Flatten(rs), current) == Blocks(cls, rs)
    decreases |rs|
  {
    if rs != [] {
      var run := rs[0];
      var y := run[0].year;
      var tail := rs[1..];
      assert IsRuns(tail) by {
        assert forall i :: 0 <= i < |tail| ==> tail[i] == rs[i + 1];
      }
      GroupedRun(cls, run, current);
      assert run[|run| - 1].year == y;
      assert tail != [] ==> tail[0][0].year == rs[1][0].year;
      GroupedBlocks(cls, tail, Some(y));
      GroupedAppend(cls, run, Flatten(tail), current);
      assert Flatten(rs) == run + Flatten(tail);
      assert Blocks(cls, rs) == Block(cls, run) + Blocks(cls, tail);
    }
  }

  /** The loop from `current_year = None` emits, for each maximal run of equal years, one
      header with that year followed by the run's items. */
  lemma GroupedRuns(cls: string, es: seq<Dated>)
    ensures Flatten(Runs(es)) == es && IsRuns(Runs(es))
    ensures Grouped(cls, es, None) == Blocks(cls, Runs(es))
  {
    RunsPartition(es);
    GroupedBlocks(cls, Runs(es), None);
  }

  /** The first year of each run. */
  function RunYears(rs: seq<seq<Dated>>): (ys: seq<string>)
    requires forall i :: 0 <= i < |rs| ==> rs[i] != []
    ensures |ys| == |rs| && forall i :: 0 <= i < |rs| ==> ys[i] == rs[i][0].year
  {
    seq(|rs|, i requires 0 <= i < |rs| => rs[i][0].year)
  }

  lemma {:induction false} BlocksHeaders(cls: string, rs: seq<seq<Dated>>)
    requires forall i :: 0 <= i < |rs| ==> rs[i] != []
    ensures HeaderYears(Blocks(cls, rs)) == RunYears(rs)
    decreases |rs|
  {
    if rs != [] {
      BlocksHeaders(cls, rs[1..]);
      ItemsOfAppend(Block(cls, rs[0]), Blocks(cls, rs[1..]));
      ItemsOfAppend([YearHeader(rs[0][0].year)], Bullets(cls, rs[0]));
      BulletsOnlyItems(cls, rs[0]);
      assert RunYears(rs) == [rs[0][0].year] + RunYears(rs[1..]);
    }
  }

  /** The headers the loop emits are the run years: no header repeats the one before it, and
      there is one per maximal run. */
  lemma GroupedHeaders(cls: string, es: seq<Dated>)
    ensures var ys := HeaderYears(Grouped(cls, es, None));
      && ys == RunYears(Runs(es))
      && (forall i :: 0 <= i < |ys| - 1 ==> ys[i] != ys[i + 1])
      && (es != [] ==> ys != [] && ys[0] == es[0].year)
  {
    GroupedRuns(cls, es);
    RunsPartition(es);
    BlocksHeaders(cls, Runs(es));
  }

  // ---- section headings ----

  /** The section names, in the order the pieces carry them. */
  function HeadingsOf(ps: seq<Piece>): seq<string> {
    if ps == [] then [] else (if ps[0].Heading? then [ps[0].name] else []) + HeadingsOf(ps[1..])
  }

  lemma {:induction false} HeadingsOfAppend(a: seq<Piece>, b: seq<Piece>)
    ensures HeadingsOf(a + b) == HeadingsOf(a) + HeadingsOf(b)
    decreases |a|
  {
    if a == [] {
      assert a + b == b;
    } else {
      assert (a + b)[0] == a[0] && (a + b)[1..] == a[1..] + b;
      HeadingsOfAppend(a[1..], b);
    }
  }

  /** Item lists carry no section heading. */
  lemma {:induction false} NoHeadings(ps: seq<Piece>)
    requires forall k :: 0 <= k < |ps| ==> ps[k].Item?
    ensures HeadingsOf(ps) == []
    decreases |ps|
  {
    if ps != [] {
      NoHeadings(ps[1..]);
    }
  }

  /** The grouping loop emits no section heading. */
  lemma {:induction false} GroupedNoHeadings(cls: string, es: seq<Dated>, current: Option<string>)
    ensures HeadingsOf(Grouped(cls, es, current)) == []
    decreases |es|
  {
    if es != [] {
      var st := Step(cls, es[0], current);
      GroupedNoHeadings(cls, es[1..], Some(es[0].year));
      HeadingsOfAppend(st, Grouped(cls, es[1..], Some(es[0].year)));
      assert HeadingsOf(st) == [] by {
        NoHeadings([Item(cls, Bulleted(es[0].text))]);
        if current != Some(es[0].year) {
          HeadingsOfAppend([YearHeader(es[0].year)], [Item(cls, Bulleted(es[0].text))]);
        }
      }
    }
  }

  /** A part of the page: its heading, then its pieces. */
  datatype Part = Part(name: string, pieces: seq<Piece>)

  function Sections(ss: seq<Part>): seq<Piece> {
    if ss == [] then [] else [Heading(ss[0].name)] + ss[0].pieces + Sections(ss[1..])
  }

  function Names(ss: seq<Part>): (ns: seq<string>)
    ensures |ns| == |ss| && forall i :: 0 <= i < |ss| ==> ns[i] == ss[i].name
  {
    seq(|ss|, i requires 0 <= i < |ss| => ss[i].name)
  }

  /** When no section's pieces carry a heading, the headings are the section names in order. */
  lemma {:induction false} SectionsHeadings(ss: seq<Part>)
    requires forall i :: 0 <= i < |ss| ==> HeadingsOf(ss[i].pieces) == []
    ensures HeadingsOf(Sections(ss)) == Names(ss)
    decreases |ss|
  {
    if ss != [] {
      var h := [Heading(ss[0].name)];
      SectionsHeadings(ss[1..]);
      HeadingsOfAppend(h, ss[0].pieces);
      HeadingsOfAppend(h + ss[0].pieces, Sections(ss[1..]));
      assert Names(ss) == [ss[0].name] + Names(ss[1..]);
    }
  }

  /** Six sections whose pieces carry no heading of their own show exactly their six names. */
  lemma SixHeadings(ns: seq<string>, a: seq<Piece>, b: seq<Piece>, c: seq<Piece>,
                    d: seq<Piece>, e: seq<Piece>, f: seq<Piece>)
    requires |ns| == 6
    requires HeadingsOf(a) == HeadingsOf(b) == HeadingsOf(c) == []
    requires HeadingsOf(d) == HeadingsOf(e) == HeadingsOf(f) == []
    ensures HeadingsOf(Sections([Part(ns[0], a), Part(ns[1], b), Part(ns[2], c),
                                 Part(ns[3], d), Part(ns[4], e), Part(ns[5], f)])) == ns
  {
    var ss := [Part(ns[0], a), Part(ns[1], b), Part(ns[2], c), Part(ns[3], d), Part(ns[4], e), Part(ns[5], f)];
    SectionsHeadings(ss);
    assert Names(ss) == ns;
  }
}

=== FILE: cv_render.dfy ===
/**
 The page `generate_cv.py` writes: a fixed front part, then the six sections in a fixed order,
 the awards and presentations grouped under a year header wherever the year changes.
 */
module CvRender {
  import opened Wrappers
  import opened CvLayout
  import opened CvExtract

  // ---- item bodies ----

  const YearSpan: string := "<span class=\"year\">"
  const LineBreak: string := "<br>\n        "

  function EducationBody(e: Education): string {
    YearSpan + Period(e.degree) + "</span> - " + DegreeTitle(e.degree) + LineBreak + e.institution + ", " + e.location
  }

  function AppointmentBody(a: Appointment): string {
    YearSpan + a.period + "</span> - " + a.position + LineBreak + a.institution + ", " + a.location
  }

  function PublicationBody(p: CvPublication): string {
    YearSpan + p.year + "</span> - " + p.authors + LineBreak + p.title + LineBreak
      + "<span class=\"journal\">" + p.journal + "</span>"
  }

  function ProceedingBody(p: Proceeding): string {
    YearSpan + p.year + "</span> - " + p.authors + LineBreak + p.title
  }

  // ---- the page ----

  function EducationItems(es: seq<Education>): (r: seq<Piece>)
    ensures HeadingsOf(r) == []
  {
    var r := seq(|es|, k requires 0 <= k < |es| => Item("education-item", EducationBody(es[k])));
    NoHeadings(r);
    r
  }

  function AppointmentItems(es: seq<Appointment>): (r: seq<Piece>)
    ensures HeadingsOf(r) == []
  {
    var r := seq(|es|, k requires 0 <= k < |es| => Item("appointment-item", AppointmentBody(es[k])));
    NoHeadings(r);
    r
  }

  function PublicationItems(es: seq<CvPublication>): (r: seq<Piece>)
    ensures HeadingsOf(r) == []
  {
    var r := seq(|es|, k requires 0 <= k < |es| => Item("publication-item", PublicationBody(es[k])));
    NoHeadings(r);
    r
  }

  function ProceedingItems(es: seq<Proceeding>): (r: seq<Piece>)
    ensures HeadingsOf(r) == []
  {
    var r := seq(|es|, k requires 0 <= k < |es| => Item("proceeding-item", ProceedingBody(es[k])));
    NoHeadings(r);
    r
  }

  /** The section headings, in the order the page lists them. */
  const SectionNames: seq<string> :=
    ["Education", "Appointments", "Publications", "Conference Proceedings", "Awards & Honors", "Presentations"]

  /** The six sections, each under its name from `SectionNames`. */
  function Parts(education: seq<Education>, appointments: seq<Appointment>, publications: seq<CvPublication>,
                 proceedings: seq<Proceeding>, awards: seq<Dated>, presentations: seq<Dated>): seq<Part>
  {
    [Part(SectionNames[0], EducationItems(education)),
     Part(SectionNames[1], AppointmentItems(appointments)),
     Part(SectionNames[2], PublicationItems(publications)),
     Part(SectionNames[3], ProceedingItems(proceedings)),
     Part(SectionNames[4], Grouped("award-item", awards, None)),
     Part(SectionNames[5], Grouped("presentation-item", presentations, None))]
  }

  /** The page body after the contact block, section by section. */
  function Body(education: seq<Education>, appointments: seq<Appointment>, publications: seq<CvPublication>,
                proceedings: seq<Proceeding>, awards: seq<Dated>, presentations: seq<Dated>): seq<Piece>
  {
    Sections(Parts(education, appointments, publications, proceedings, awards, presentations))
  }

  const PageEnd: string := "\n</body>\n</html>\n"

  /** `generate_cv_html`, with the head, style sheet and contact block given as `front`. */
  function Page(front: string, education: seq<Education>, appointments: seq<Appointment>,
                publications: seq<CvPublication>, proceedings: seq<Proceeding>,
                awards: seq<Dated>, presentations: seq<Dated>): string
  {
    front + Html(Body(education, appointments, publications, proceedings, awards, presentations)) + PageEnd
  }

  /** The sections come out as Education, Appointments, Publications, Conference Proceedings,
      Awards & Honors, Presentations, each exactly once, whatever the entries. */
  lemma SectionOrder(education: seq<Education>, appointments: seq<Appointment>, publications: seq<CvPublication>,
                     proceedings: seq<Proceeding>, awards: seq<Dated>, presentations: seq<Dated>)
    ensures HeadingsOf(Body(education, appointments, publications, proceedings, awards, presentations))
      == SectionNames
  {
    GroupedNoHeadings("award-item", awards, None);
    GroupedNoHeadings("presentation-item", presentations, None);
    SixHeadings(SectionNames, EducationItems(education), AppointmentItems(appointments),
                PublicationItems(publications), ProceedingItems(proceedings),
                Grouped("award-item", awards, None), Grouped("presentation-item", presentations, None));
  }
}

=== FILE: framing.dfy ===
/**
 Where the parts of a three-part concatenation sit. Stated once over arbitrary strings, so the
 fixed tags of the renderers never have to be unfolded character by character.
 */
module Framing {
  import opened Text

  lemma Wrapped(o: string, c: string, e: string)
    ensures var w := o + c + e;
      && |w| == |o| + |c| + |e|
      && w[..|o|] == o && At(w, 0, o)
      && w[|o|..|o| + |c|] == c && At(w, |o|, c)
      && w[|o| + |c|..] == e && At(w, |o| + |c|, e)
  {
    var w := o + c + e;
    assert w[..|o|] == o;
    assert w[|o|..|o| + |c|] == c;
    assert w[|o| + |c|..] == e;
  }

  /** The last character of the middle part comes right before the closing part. */
  lemma WrappedLast(o: string, c: string, e: string)
    requires c != ""
    ensures var w := o + c + e; |w| > |e| && w[|w| - |e| - 1..] == [c[|c| - 1]] + e
  {
    var w := o + c + e;
    assert w[|w| - |e| - 1..] == c[|c| - 1..] + e;
    assert c[|c| - 1..] == [c[|c| - 1]];
  }

  lemma EndsWithJoin(a: string, b: string, c: string)
    ensures EndsWith(a + b + c, b + c)
  {
    assert (a + b + c)[|a|..] == b + c;
  }

  lemma EndsWithBoth(x: string, y: string, z: string)
    requires EndsWith(x, y)
    ensures EndsWith(x + z, y + z)
  {
    assert (x + z)[|x| - |y|..] == x[|x| - |y|..] + z;
  }

  lemma EndsWithLonger(u: string, x: string, y: string)
    requires EndsWith(x, y)
    ensures EndsWith(u + x, y)
  {
    assert (u + x)[|u| + |x| - |y|..] == x[|x| - |y|..];
  }

  lemma AtJoin(a: string, b: string)
    ensures At(a + b, |a|, b)
  {
    assert (a + b)[|a|..|a| + |b|] == b;
  }

  lemma AtExtend(x: string, i: nat, y: string, z: string)
    requires At(x, i, y)
    ensures At(x + z, i, y)
  {
    assert (x + z)[i..i + |y|] == x[i..i + |y|];
  }

  lemma AtPrepend(u: string, x: string, i: nat, y: string)
    requires At(x, i, y)
    ensures At(u + x, |u| + i, y)
  {
    assert (u + x)[|u| + i..|u| + i + |y|] == x[i..i + |y|];
  }

  lemma Assoc(x: string, y: string, z: string)
    ensures x + (y + z) == (x + y) + z
  {
  }
}

=== FILE: lists.dfy ===
/** Sequence helpers shared by the extractors. */
module Lists {
  import opened Wrappers

  /** The value an accepted item contributes: none, or one. */
  function Kept1<T>(o: Option<T>): (r: seq<T>)
    ensures |r| <= 1 && (r == [] <==> o.None?)
  {
    match o
    case None => []
    case Some(a) => [a]
  }

  /** What a per-item step `f` keeps of `items`, in order: the values of the items it accepts. */
  function Accepted<S, T>(f: S -> Option<T>, items: seq<S>): (r: seq<T>)
    ensures |r| <= |items|
  {
    if items == [] then []
    else Kept1(f(items[0])) + Accepted(f, items[1..])
  }

  /** Each kept value is what `f` makes of some item. */
  lemma {:induction false} AcceptedFrom<S, T>(f: S -> Option<T>, items: seq<S>, k: nat)
    requires k < |Accepted(f, items)|
    ensures exists i :: 0 <= i < |items| && f(items[i]) == Some(Accepted(f, items)[k])
    decreases |items|
  {
    var rest := Accepted(f, items[1..]);
    assert Accepted(f, items) == Kept1(f(items[0])) + rest;
    match f(items[0]) {
      case None =>
        AcceptedFrom(f, items[1..], k);
        var i :| 0 <= i < |items[1..]| && f(items[1..][i]) == Some(rest[k]);
        assert items[1..][i] == items[i + 1];
      case Some(a) =>
        if k > 0 {
          AcceptedFrom(f, items[1..], k - 1);
          var i :| 0 <= i < |items[1..]| && f(items[1..][i]) == Some(rest[k - 1]);
          assert items[1..][i] == items[i + 1];
        }
    }
  }

  /** Unfolding `Accepted` over a non-empty front part. */
  lemma AcceptedCons<S, T>(f: S -> Option<T>, a: seq<S>, b: seq<S>)
    requires a != []
    ensures Accepted(f, a + b) == Kept1(f(a[0])) + Accepted(f, a[1..] + b)
  {
    assert (a + b)[0] == a[0] && (a + b)[1..] == a[1..] + b;
  }

  /** Regrouping a concatenation of three sequences. */
  lemma SeqAssoc<T>(x: seq<T>, y: seq<T>, z: seq<T>)
    ensures x + (y + z) == (x + y) + z
  {
  }

  lemma {:induction false} AcceptedAppend<S, T>(f: S -> Option<T>, a: seq<S>, b: seq<S>)
    ensures Accepted(f, a + b) == Accepted(f, a) + Accepted(f, b)
    decreases |a|
  {
    if a == [] {
      assert a + b == b;
    } else {
      var h, ra, rb := Kept1(f(a[0])), Accepted(f, a[1..]), Accepted(f, b);
      AcceptedCons(f, a, b);
      AcceptedAppend(f, a[1..], b);
      SeqAssoc(h, ra, rb);
    }
  }
}

=== FILE: markup.dfy ===
/**
 The cleaning `generate_cv.py` applies to every list item before reading fields out of it:
 drop the tags, squeeze each whitespace run to one blank, strip the ends.
 */
module Markup {
  import opened Wrappers
  import opened Text
  import opened Scan

  /** `re.sub(r'<[^>]+>', '', s)`. */
  function StripTags(s: string): string {
    Sub(Tag, s, 0, "")
  }

  /** `re.sub(r'\s+', ' ', s)`. */
  function CollapseBlanks(s: string): string {
    Sub(Blanks, s, 0, " ")
  }

  /** Whitespace occurs only as lone ' ' characters. */
  predicate SingleSpaced(s: string) {
    && (forall i :: 0 <= i < |s| && IsSpace(s[i]) ==> s[i] == ' ')
    && (forall i :: 0 <= i < |s| - 1 && IsSpace(s[i]) ==> !IsSpace(s[i + 1]))
  }

  lemma SingleSpacedConcat(a: string, b: string)
    requires SingleSpaced(a) && SingleSpaced(b)
    requires a == "" || b == "" || !IsSpace(a[|a| - 1]) || !IsSpace(b[0])
    ensures SingleSpaced(a + b)
  {
    var c := a + b;
    forall i | 0 <= i < |c| - 1 && IsSpace(c[i]) ensures !IsSpace(c[i + 1]) {
      if i + 1 < |a| {
        assert c[i] == a[i] && c[i + 1] == a[i + 1];
      } else if i + 1 == |a| {
        assert c[i] == a[|a| - 1] && c[i + 1] == b[0];
      } else {
        assert c[i] == b[i - |a|] && c[i + 1] == b[i + 1 - |a|];
      }
    }
  }

  lemma SingleSpacedSlice(s: string, lo: nat, hi: nat)
    requires lo <= hi <= |s| && SingleSpaced(s)
    ensures SingleSpaced(s[lo..hi])
  {
    var t := s[lo..hi];
    forall i | 0 <= i < |t| - 1 && IsSpace(t[i]) ensures !IsSpace(t[i + 1]) {
      assert t[i] == s[lo + i] && t[i + 1] == s[lo + i + 1];
    }
    forall i | 0 <= i < |t| && IsSpace(t[i]) ensures t[i] == ' ' {
      assert t[i] == s[lo + i];
    }
  }

  lemma NoSpaceSingleSpaced(s: string)
    requires NoSpaceIn(s)
    ensures SingleSpaced(s)
  {
  }

  /** The text left of a whitespace match holds no whitespace. */
  lemma BlanksGap(s: string, from: nat, j: nat)
    requires from <= j <= |s|
    requires forall k :: from <= k < j ==> ProbeAt(Blanks, s, k).None?
    ensures NoSpaceIn(s[from..j])
  {
    forall k | 0 <= k < j - from ensures !IsSpace(s[from..j][k]) {
      assert ProbeAt(Blanks, s, from + k).None?;
    }
  }

  /** `r` has the shape of a collapsed tail `s[from..]`: single-spaced, empty only for an empty
      tail, and starting with a blank exactly when the tail does. */
  predicate Collapsed(s: string, from: nat, r: string)
    requires from <= |s|
  {
    && SingleSpaced(r)
    && (r == "" <==> from == |s|)
    && (r != "" ==> (IsSpace(r[0]) <==> IsSpace(s[from])))
  }

  /** What collapsing the tail `s[from..]` yields. */
  lemma {:induction false} CollapseShape(s: string, from: nat)
    requires from <= |s|
    ensures Collapsed(s, from, Sub(Blanks, s, from, " "))
    decreases |s| - from
  {
    match Search(Blanks, s, from)
    case None =>
      BlanksGap(s, from, |s|);
      assert Sub(Blanks, s, from, " ") == s[from..];
      NoSpaceSingleSpaced(s[from..]);
      assert from < |s| ==> s[from..][0] == s[from];
    case Some(h) =>
      BlanksGap(s, from, h.start);
      assert ProbeAt(Blanks, s, h.start) == Some(h);
      assert IsSpace(s[h.start]) && h.end == RunEnd(s, h.start, Space);
      var rest := Sub(Blanks, s, h.end, " ");
      CollapseShape(s, h.end);
      assert Sub(Blanks, s, from, " ") == s[from..h.start] + " " + rest;
      CollapseGlue(s, from, h.start, h.end, rest);
  }

  /** A blank-free gap, one blank for a whitespace run, then a collapsed remainder. */
  lemma CollapseGlue(s: string, from: nat, j: nat, e: nat, rest: string)
    requires from <= j < e <= |s| && NoSpaceIn(s[from..j]) && IsSpace(s[j])
    requires e == |s| || !IsSpace(s[e])
    requires Collapsed(s, e, rest)
    ensures Collapsed(s, from, s[from..j] + " " + rest)
  {
    var gap := s[from..j];
    var r := gap + " " + rest;
    NoSpaceSingleSpaced(gap);
    SingleSpacedConcat(gap, " ");
    assert rest != "" ==> !IsSpace(rest[0]);
    SingleSpacedConcat(gap + " ", rest);
    assert j == from ==> r[0] == ' ';
    assert j > from ==> r[0] == s[from] && !IsSpace(s[from]) by {
      if j > from { assert r[0] == gap[0] && gap[0] == s[from]; }
    }
  }

  lemma CollapseSingleSpaced(s: string)
    ensures SingleSpaced(CollapseBlanks(s))
  {
    CollapseShape(s, 0);
  }

  /** The cleaning every CV extractor applies to an item's inner HTML. */
  function Clean(s: string): (r: string)
    ensures IsStripped(r) && SingleSpaced(r)
  {
    var c := CollapseBlanks(StripTags(s));
    CollapseSingleSpaced(StripTags(s));
    var r := Strip(c);
    var a := RunEnd(c, 0, Space);
    SingleSpacedSlice(c, a, a + |r|);
    r
  }

  // ---- text that is already clean ----

  /** Text without `<` has no tags to drop. */
  lemma StripTagsPlain(s: string)
    requires NoChar(s, '<')
    ensures StripTags(s) == s
  {
    assert forall j: nat :: ProbeAt(Tag, s, j).None?;
    assert Search(Tag, s, 0).None?;
  }

  /** In single-spaced text every whitespace match is one lone blank. */
  lemma LoneBlank(s: string, j: nat, h: Hit)
    requires SingleSpaced(s) && ProbeAt(Blanks, s, j) == Some(h)
    ensures s[j] == ' ' && h.end == j + 1
  {
    assert BlanksAt(s, j) == Some(h);
    assert IsSpace(s[j]);
    assert j + 1 < |s| ==> !InClass(Space, s[j + 1]);
    RunEndIs(s, j, j + 1, Space);
  }

  /** Collapsing a single-spaced tail changes nothing. */
  lemma {:induction false} CollapseFixed(s: string, from: nat)
    requires from <= |s| && SingleSpaced(s)
    ensures Sub(Blanks, s, from, " ") == s[from..]
    decreases |s| - from
  {
    match Search(Blanks, s, from)
    case None =>
    case Some(h) =>
      var j := h.start;
      LoneBlank(s, j, h);
      CollapseFixed(s, j + 1);
      assert s[from..] == s[from..j] + [s[j]] + s[j + 1..];
  }

  /** Cleaning leaves clean text alone. */
  lemma CleanFixed(s: string)
    requires NoChar(s, '<') && IsStripped(s) && SingleSpaced(s)
    ensures Clean(s) == s
  {
    StripTagsPlain(s);
    CollapseFixed(s, 0);
    StripStripped(s);
  }

  /** Cleaning twice is cleaning once, when no stray `<` survives the first pass. */
  lemma CleanIdempotent(s: string)
    requires NoChar(Clean(s), '<')
    ensures Clean(Clean(s)) == Clean(s)
  {
    CleanFixed(Clean(s));
  }

  /** Replacing matches by text without `c` never brings `c` in. */
  lemma {:induction false} SubNoChar(p: Probe, s: string, from: nat, rep: string, c: char)
    requires Valid(p) && from <= |s| && NoChar(s, c) && NoChar(rep, c)
    ensures NoChar(Sub(p, s, from, rep), c)
    decreases |s| - from
  {
    match Search(p, s, from)
    case None =>
      NoCharSuffix(s, c, from);
    case Some(h) =>
      SubNoChar(p, s, h.end, rep, c);
      NoCharSlice(s, c, from, h.start);
      NoCharAppend(s[from..h.start], rep, c);
      NoCharAppend(s[from..h.start] + rep, Sub(p, s, h.end, rep), c);
  }

  /** Cleaning never brings in a character other than the blank. */
  lemma CleanNoChar(s: string, c: char)
    requires NoChar(s, c) && c != ' '
    ensures NoChar(Clean(s), c)
  {
    SubNoChar(Tag, s, 0, "", c);
    var t := StripTags(s);
    SubNoChar(Blanks, t, 0, " ", c);
    var b := CollapseBlanks(t);
    var a := RunEnd(b, 0, Space);
    NoCharSlice(b, c, a, a + |Strip(b)|);
  }
}

=== FILE: publications.dfy ===
/**
 The page-side half of `update_publications.py`: reading titles and years back out of the
 publications list, rebuilding that list in year order, and the dedup step that decides which
 parsed citations are new.
 */
module Publications {
  import opened Wrappers
  import opened Text
  import opened Scan
  import opened Citation
  import StableSort

  const ListMarker: string := "<ul id=\"publications-list\">"
  const ListEnd: string := "</ul>"
  const ItemIndent: string := "                    "
  const EndIndent: string := "                "

  /** `ul_start`, the first list marker, and `ul_end`, the first `</ul>` at or after it. */
  function ListBounds(html: string): (r: Option<(nat, nat)>)
    ensures r.Some? ==> var (a, b) := r.value;
      && At(html, a, ListMarker) && (forall j: nat :: j < a ==> !At(html, j, ListMarker))
      && a <= b && At(html, b, ListEnd) && (forall j: nat :: a <= j < b ==> !At(html, j, ListEnd))
    ensures r.None? <==> !Contains(html, ListMarker)
                         || (forall j: nat :: FindFrom(html, ListMarker, 0).value <= j ==> !At(html, j, ListEnd))
  {
    match FindFrom(html, ListMarker, 0)
    case None => None
    case Some(a) =>
      match FindFrom(html, ListEnd, a)
      case None => None
      case Some(b) => Some((a, b))
  }

  // ---- titles ----

  /** The link text of the first anchor of one item, stripped. */
  function TitleOfItem(inner: string): (r: Option<string>)
    ensures r.Some? ==> IsStrippedResult(r.value)
  {
    match FirstGroup(Anchor, inner)
    case None => None
    case Some(t) => Some(Strip(t))
  }

  predicate IsStrippedResult(t: string) {
    t == "" || (!IsSpace(t[0]) && !IsSpace(t[|t| - 1]))
  }

  /** The titles of the items, in order, skipping items without an anchor. */
  function TitlesOf(inners: seq<string>): (r: seq<string>)
    ensures |r| <= |inners|
    ensures forall t :: t in r <==> exists k :: 0 <= k < |inners| && TitleOfItem(inners[k]) == Some(t)
  {
    if inners == [] then []
    else
      var rest := TitlesOf(inners[1..]);
      assert forall k :: 0 < k < |inners| ==> inners[k] == inners[1..][k - 1];
      assert forall t :: (exists k :: 0 <= k < |inners[1..]| && TitleOfItem(inners[1..][k]) == Some(t))
                         ==> (exists k :: 0 <= k < |inners| && TitleOfItem(inners[k]) == Some(t)) by {
        forall t | (exists k :: 0 <= k < |inners[1..]| && TitleOfItem(inners[1..][k]) == Some(t))
          ensures exists k :: 0 <= k < |inners| && TitleOfItem(inners[k]) == Some(t)
        {
          var k :| 0 <= k < |inners[1..]| && TitleOfItem(inners[1..][k]) == Some(t);
          assert TitleOfItem(inners[k + 1]) == Some(t);
        }
      }
      match TitleOfItem(inners[0])
      case None => rest
      case Some(t) => [t] + rest
  }

  /** `extract_existing_publications`: the titles of the items between the list marker and the
      first `</ul>` after it; no list, no titles. */
  function ExtractTitles(html: string): (r: seq<string>)
    ensures ListBounds(html).None? ==> r == []
  {
    match ListBounds(html)
    case None => []
    case Some((a, b)) => TitlesOf(AllFirstGroups(LiItem, html[a..b]))
  }

  // ---- years ----

  /** The value of the four digits of the `(dddd)` at `i`. */
  function YearAt(s: string, i: nat): (y: nat)
    requires IsParenYearAt(s, i)
    ensures y <= 9999
  {
    DigitsSlice(s, i + 1, i + 5);
    FourDigitValue(s[i + 1..i + 5]);
    ParseNat(s[i + 1..i + 5])
  }

  /** `parse_existing_publication_html`: the first parenthesised four-digit year, else 0. */
  function YearOf(li: string): (y: int)
    ensures 0 <= y <= 9999
    ensures (forall j: nat :: !IsParenYearAt(li, j)) ==> y == 0
    ensures forall j: nat :: IsParenYearAt(li, j) && (forall k: nat :: k < j ==> !IsParenYearAt(li, k))
                        ==> y == YearAt(li, j)
  {
    match Search(ParenYear, li, 0)
    case None =>
      assert forall j: nat :: !IsParenYearAt(li, j) by {
        forall j: nat ensures !IsParenYearAt(li, j) { assert ProbeAt(ParenYear, li, j).None?; }
      }
      0
    case Some(h) =>
      assert ProbeAt(ParenYear, li, h.start).Some?;
      assert forall j: nat :: j < h.start ==> !IsParenYearAt(li, j) by {
        forall j: nat | j < h.start ensures !IsParenYearAt(li, j) { assert ProbeAt(ParenYear, li, j).None?; }
      }
      YearAt(li, h.start)
  }

  // ---- rebuilding the list ----

  /** One list item with the year it sorts by. */
  datatype Entry = Entry(year: int, html: string)

  function YearKey(e: Entry): int { e.year }

  function Tagged(items: seq<string>): (r: seq<Entry>)
    ensures |r| == |items|
    ensures forall k :: 0 <= k < |r| ==> r[k] == Entry(YearOf(items[k]), items[k])
  {
    seq(|items|, k requires 0 <= k < |items| => Entry(YearOf(items[k]), items[k]))
  }

  /** The whole `<li ...>...</li>` matches of the existing list content, in order. */
  function ExistingItems(existing: string): (r: seq<string>)
    ensures existing == "" ==> r == []
    ensures |r| == |FindAll(LiItem, existing, 0)|
    ensures forall k :: 0 <= k < |r| ==> var h := FindAll(LiItem, existing, 0)[k];
      h.end <= |existing| && r[k] == existing[h.start..h.end]
  {
    if existing == "" then
      assert FindAll(LiItem, existing, 0) == [];
      []
    else
      var hits := FindAll(LiItem, existing, 0);
      seq(|hits|, k requires 0 <= k < |hits| => existing[hits[k].start..hits[k].end])
  }

  /** Existing items first, then the new ones, each tagged with its year, sorted newest first. */
  function Arrange(existing: string, newItems: seq<string>): seq<Entry> {
    StableSort.Sort(Tagged(ExistingItems(existing)) + Tagged(newItems), YearKey)
  }

  /** The arrangement is a stable descending sort of the existing-then-new entries: ordered by
      year, nothing gained or lost, and within one year existing items stay ahead of new ones. */
  lemma ArrangeIsStableSort(existing: string, newItems: seq<string>, y: int)
    ensures var all := Tagged(ExistingItems(existing)) + Tagged(newItems);
      var r := Arrange(existing, newItems);
      && StableSort.Descending(r, YearKey)
      && multiset(r) == multiset(all)
      && StableSort.WithKey(r, YearKey, y)
         == StableSort.WithKey(Tagged(ExistingItems(existing)), YearKey, y)
            + StableSort.WithKey(Tagged(newItems), YearKey, y)
  {
    var a, b := Tagged(ExistingItems(existing)), Tagged(newItems);
    StableSort.SortStable(a + b, YearKey, y);
    StableSort.WithKeyAppend(a, b, YearKey, y);
  }

  function Lines(entries: seq<Entry>): string {
    if entries == [] then "" else ItemIndent + entries[0].html + "\n" + Lines(entries[1..])
  }

  /** The replacement list: the marker, one indented line per item, the indented `</ul>`. */
  function Block(entries: seq<Entry>): (r: string)
    ensures |r| >= |ListMarker| + |ListEnd|
    ensures r[..|ListMarker|] == ListMarker
    ensures r[|r| - |ListEnd|..] == ListEnd
  {
    var r := ListMarker + "\n" + Lines(entries) + EndIndent + ListEnd;
    assert r[..|ListMarker|] == ListMarker;
    assert r[|r| - |ListEnd|..] == ListEnd;
    r
  }

  /** The pure part of `update_html_file`: None where the script reports a missing list and
      writes nothing; otherwise the page with the list replaced by the rebuilt one. */
  function Rebuild(content: string, newItems: seq<string>, existing: string): (r: Option<string>)
    ensures r.None? <==> ListBounds(content).None?
    ensures r.Some? ==> var (a, b) := ListBounds(content).value;
      && b + |ListEnd| <= |content|
      && r.value == content[..a] + Block(Arrange(existing, newItems)) + content[b + |ListEnd|..]
  {
    match ListBounds(content)
    case None => None
    case Some((a, b)) =>
      Some(content[..a] + Block(Arrange(existing, newItems)) + content[b + |ListEnd|..])
  }

  /** Everything before the list marker and after the old `</ul>` survives the rewrite. */
  lemma RebuildKeepsSurroundings(content: string, newItems: seq<string>, existing: string)
    requires ListBounds(content).Some?
    ensures var (a, b) := ListBounds(content).value;
      var r := Rebuild(content, newItems, existing).value;
      var tail := |content| - (b + |ListEnd|);
      && |r| >= a + tail
      && r[..a] == content[..a]
      && r[|r| - tail..] == content[b + |ListEnd|..]
  {
    var (a, b) := ListBounds(content).value;
    var r := Rebuild(content, newItems, existing).value;
    var mid := Block(Arrange(existing, newItems));
    assert r == content[..a] + mid + content[b + |ListEnd|..];
    assert r[..a] == content[..a];
    assert r[|r| - (|content| - (b + |ListEnd|))..] == content[b + |ListEnd|..];
  }

  // ---- choosing the new citations ----

  /** The records `main` keeps: one per non-blank line that parses, unless its title is already
      on the page. The parser is a parameter; `main` uses `Citation.Parse`. */
  function Fresh(lines: seq<string>, existingTitles: seq<string>, parse: string -> Option<Publication>)
    : seq<Publication>
  {
    if lines == [] then []
    else
      var t := Strip(lines[0]);
      var rest := Fresh(lines[1..], existingTitles, parse);
      if t == "" then rest
      else match parse(t)
        case None => rest
        case Some(p) => if p.title in existingTitles then rest else [p] + rest
  }

  /** No kept record duplicates a title on the page, and each one was parsed from a non-blank
      input line. */
  lemma {:induction false} FreshSound(lines: seq<string>, existingTitles: seq<string>,
                                      parse: string -> Option<Publication>)
    ensures forall p :: p in Fresh(lines, existingTitles, parse) ==>
      && p.title !in existingTitles
      && exists k :: 0 <= k < |lines| && Strip(lines[k]) != "" && parse(Strip(lines[k])) == Some(p)
  {
    if lines != [] {
      FreshSound(lines[1..], existingTitles, parse);
      forall p | p in Fresh(lines[1..], existingTitles, parse)
        ensures exists k :: 0 <= k < |lines| && Strip(lines[k]) != "" && parse(Strip(lines[k])) == Some(p)
      {
        var k :| 0 <= k < |lines[1..]| && Strip(lines[1..][k]) != "" && parse(Strip(lines[1..][k])) == Some(p);
        assert lines[k + 1] == lines[1..][k];
      }
    }
  }

  /** Every non-blank line that parses to a record with an unseen title is kept. */
  lemma {:induction false} FreshComplete(lines: seq<string>, existingTitles: seq<string>,
                                         parse: string -> Option<Publication>, k: nat)
    requires k < |lines| && Strip(lines[k]) != "" && parse(Strip(lines[k])).Some?
    requires parse(Strip(lines[k])).value.title !in existingTitles
    ensures parse(Strip(lines[k])).value in Fresh(lines, existingTitles, parse)
  {
    if k > 0 {
      assert lines[1..][k - 1] == lines[k];
      FreshComplete(lines[1..], existingTitles, parse, k - 1);
    }
  }

  /** The dedup loop of `main`, with its counter of new publications. */
  method SelectNew(lines: seq<string>, existingTitles: seq<string>)
    returns (kept: seq<Publication>, count: nat)
    ensures kept == Fresh(lines, existingTitles, Parse)
    ensures count == |kept|
  {
    kept := [];
    count := 0;
    var i := |lines|;
    // walking backwards lets each step prepend, mirroring the recursive definition
    while i > 0
      invariant 0 <= i <= |lines|
      invariant kept == Fresh(lines[i..], existingTitles, Parse)
      invariant count == |kept|
    {
      i := i - 1;
      assert lines[i..][1..] == lines[i + 1..];
      var t := Strip(lines[i]);
      if t != "" {
        var parsed := Parse(t);
        if parsed.Some? && parsed.value.title !in existingTitles {
          kept := [parsed.value] + kept;
          count := count + 1;
        }
      }
    }
    assert lines[0..] == lines;
  }

  /** `main`'s window for the existing items: the text after the marker up to `ul_end`. */
  function ExistingListHtml(html: string): (r: string)
    ensures ListBounds(html).None? ==> r == ""
  {
    match ListBounds(html)
    case None => ""
    case Some((a, b)) => if a + |ListMarker| <= b then html[a + |ListMarker|..b] else ""
  }

  /** `main` from reading the page to writing it: the page is rebuilt (merely re-sorted when no
      citation is new), or left alone when it has no list. */
  function Update(html: string, lines: seq<string>): (r: Option<string>)
    ensures r.None? <==> ListBounds(html).None?
  {
    var found := Fresh(lines, ExtractTitles(html), Parse);
    var items := if found == [] then []
      else var sorted := StableSort.Sort(found, (p: Publication) => p.year);
        seq(|sorted|, k requires 0 <= k < |sorted| => Render(sorted[k]));
    Rebuild(html, items, ExistingListHtml(html))
  }
}

=== FILE: readback.dfy ===
/**
 The renderer and the extractors of `update_publications.py` fit together: the title and the
 year the page-side scanners read out of a rendered `<li>` fragment are the ones it was
 rendered from.
 */
module Readback {
  import opened Wrappers
  import opened Text
  import opened Scan
  import opened Citation
  import opened Publications
  import opened Framing

  // ---- the anchor ----

  const AnchorHead: string := "<a href=\""
  const AnchorMid: string := "\" target=\"_blank\">"

  /** Where the pieces of `TitleLink(h, t)` sit: `g` is the index of the `>` closing the tag. */
  lemma TitleLinkShape(h: string, t: string)
    requires NoChar(h, '>')
    ensures var l := TitleLink(h, t); var g := |AnchorHead| + |h| + |AnchorMid| - 1;
      && |l| == g + 1 + |t| + 4
      && l[..2] == "<a"
      && (forall k :: 2 <= k < g ==> l[k] != '>')
      && l[g] == '>'
      && l[g + 1..g + 1 + |t|] == t
      && l[g + 1 + |t|..] == "</a>"
  {
    var l := TitleLink(h, t);
    assert l == AnchorHead + h + AnchorMid + t + "</a>";
    var g := |AnchorHead| + |h| + |AnchorMid| - 1;
    forall k | 2 <= k < g ensures l[k] != '>' {
      if k < |AnchorHead| {
        assert l[k] == AnchorHead[k];
      } else if k < |AnchorHead| + |h| {
        assert l[k] == h[k - |AnchorHead|];
      } else {
        assert l[k] == AnchorMid[k - |AnchorHead| - |h|];
      }
    }
  }

  /** The index of the `>` closing the opening tag of `TitleLink(h, _)`. */
  function LinkGap(h: string): nat {
    |AnchorHead| + |h| + |AnchorMid| - 1
  }

  /** A rendered link starts with `<a`, and its tag closes at the first `>` after that. */
  lemma LinkTagEnd(s: string, n: nat, h: string, t: string)
    requires At(s, n, TitleLink(h, t)) && NoChar(h, '>')
    ensures At(s, n, "<a") && FindFrom(s, ">", n + 2) == Some(n + LinkGap(h))
  {
    var l := TitleLink(h, t);
    var g := LinkGap(h);
    TitleLinkShape(h, t);
    AtChars(s, n, l);
    assert At(s, n, "<a") by { assert s[n..n + 2] == l[..2]; }
    forall j: nat | n + 2 <= j < n + g ensures !At(s, j, ">") {
      AtOne(s, j, '>');
      assert s[j] == l[j - n];
    }
    AtOne(s, n + g, '>');
    FindFromIs(s, ">", n + 2, n + g);
  }

  /** The title of a rendered link sits right after the `>` of its tag. */
  lemma LinkTitleAt(s: string, n: nat, h: string, t: string)
    requires At(s, n, TitleLink(h, t)) && NoChar(h, '>')
    ensures At(s, n + LinkGap(h) + 1, t)
  {
    var g := LinkGap(h);
    TitleLinkShape(h, t);
    assert At(TitleLink(h, t), g + 1, t);
    AtNested(s, n, TitleLink(h, t), g + 1, t, n + g + 1);
  }

  /** `</a>` follows the title of a rendered link. */
  lemma LinkCloseAt(s: string, n: nat, h: string, t: string)
    requires At(s, n, TitleLink(h, t)) && NoChar(h, '>')
    ensures At(s, n + LinkGap(h) + 1 + |t|, "</a>")
  {
    var g := LinkGap(h);
    TitleLinkShape(h, t);
    assert At(TitleLink(h, t), g + 1 + |t|, "</a>");
    AtNested(s, n, TitleLink(h, t), g + 1 + |t|, "</a>", n + g + 1 + |t|);
  }

  /** An anchor scan started on a rendered title link reads the title. */
  lemma AnchorOnLink(s: string, n: nat, h: string, t: string)
    requires At(s, n, TitleLink(h, t))
    requires NoChar(h, '>') && t != "" && NoChar(t, '<')
    ensures ProbeAt(Anchor, s, n).Some? && ProbeAt(Anchor, s, n).value.groups == [t]
  {
    var a := n + LinkGap(h) + 1;
    var m := a + |t|;
    LinkTagEnd(s, n, h, t);
    LinkTitleAt(s, n, h, t);
    LinkCloseAt(s, n, h, t);
    assert s[m] == '<' by {
      AtChars(s, m, "</a>");
    }
    RunEndAtChar(s, a, t, '<');
    assert AnchorSpan(s, n) == Some((a, m));
  }

  /** No anchor starts in front of `n` when `s[..n]` holds none and does not end with `<`. */
  lemma NoAnchorBefore(s: string, n: nat)
    requires n <= |s| && !Contains(s[..n], "<a") && (n == 0 || s[n - 1] != '<')
    ensures forall j: nat :: j < n ==> ProbeAt(Anchor, s, j).None?
  {
    forall j: nat | j < n ensures !At(s, j, "<a") {
      if j + 2 <= n {
        assert s[..n][j..j + 2] == s[j..j + 2];
        NotContains(s[..n], "<a", j);
      }
    }
  }

  /** The byline carries no anchor and does not end with `<`. */
  lemma BylinePlain(p: Publication)
    requires !Contains(p.authors, "<a")
    ensures var b := Byline(p); !Contains(b, "<a") && b[|b| - 1] != '<'
  {
    var y := IntToString(p.year);
    var b := Byline(p);
    var a := |p.authors|;
    assert NoChar(y, '<') by {
      if p.year < 0 { assert y == "-" + NatToString(-p.year); }
    }
    assert forall k :: a <= k < |b| ==> b[k] != '<' by {
      forall k | a <= k < |b| ensures b[k] != '<' {
        if a + 2 <= k < a + 2 + |y| { assert b[k] == y[k - a - 2]; }
      }
    }
    forall j: nat | j + 2 <= |b| ensures !At(b, j, "<a") {
      if j + 2 <= a {
        assert b[j..j + 2] == p.authors[j..j + 2];
        NotContains(p.authors, "<a", j);
      } else if j + 1 == a {
        assert b[j + 1] == ' ';
      } else {
        assert b[j..j + 2][0] == b[j];
      }
    }
  }

  /** The anchor scanner reads the title out of the citation text. */
  lemma CitationTitle(p: Publication)
    requires p.title != "" && NoChar(p.title, '<')
    requires !Contains(p.authors, "<a") && NoChar(Href(p), '>')
    ensures FirstGroup(Anchor, CitationText(p)) == Some(p.title)
  {
    var c := CitationText(p);
    var b := Byline(p);
    var l := TitleLink(Href(p), p.title);
    assert c[..|b|] == b;
    assert At(c, |b|, l) by { assert c[|b|..|b| + |l|] == l; }
    BylinePlain(p);
    NoAnchorBefore(c, |b|);
    AnchorOnLink(c, |b|, Href(p), p.title);
    SearchFinds(Anchor, c, 0, |b|);
  }

  // ---- the list item ----

  /** The item tag is an `<li` whose first `>` is its last character. */
  lemma ItemOpenScan(li: string)
    requires At(li, 0, ItemOpen)
    ensures At(li, 0, LiOpen) && FindFrom(li, ">", 3) == Some(|ItemOpen| - 1)
  {
    var o := |ItemOpen|;
    AtChars(li, 0, ItemOpen);
    assert li[..3] == LiOpen by {
      forall k | 0 <= k < 3 ensures li[..3][k] == LiOpen[k] {
        assert li[k] == ItemOpen[k];
      }
    }
    forall j: nat | 3 <= j < o - 1 ensures !At(li, j, ">") {
      AtOne(li, j, '>');
      assert li[j] == ItemOpen[j];
    }
    AtOne(li, o - 1, '>');
    assert li[o - 1] == ItemOpen[o - 1];
    FindFromIs(li, ">", 3, o - 1);
  }

  /** After the item tag, the first `</li>` is the closing tag, when the citation holds none. */
  lemma ItemCloseScan(c: string)
    requires !Contains(c, LiClose)
    ensures var li := ItemOpen + c + ItemClose;
      FindFrom(li, LiClose, |ItemOpen|) == Some(|ItemOpen| + |c|) && li[|ItemOpen|..|ItemOpen| + |c|] == c
  {
    var li := ItemOpen + c + ItemClose;
    var o := |ItemOpen|;
    var e := o + |c|;
    Wrapped(ItemOpen, c, ItemClose);
    forall j: nat | o <= j < e ensures !At(li, j, LiClose) {
      if j + 5 <= e {
        assert c[j - o..j - o + 5] == li[j..j + 5];
        NotContains(c, LiClose, j - o);
      } else {
        assert li[j..j + 5][e - j] == li[e] == '<';
        assert LiClose[e - j] != '<';
      }
    }
    FindFromIs(li, LiClose, o, e);
  }

  /** The `<li>` scanner finds exactly one item in a rendered fragment, the citation inside it. */
  lemma ItemGroups(c: string)
    requires !Contains(c, LiClose)
    ensures AllFirstGroups(LiItem, ItemOpen + c + ItemClose) == [c]
  {
    var li := ItemOpen + c + ItemClose;
    var e := |ItemOpen| + |c|;
    Wrapped(ItemOpen, c, ItemClose);
    ItemOpenScan(li);
    ItemCloseScan(c);
    assert ProbeAt(LiItem, li, 0) == Some(Hit(0, e + 5, [c]));
    assert FindAll(LiItem, li, e + 5) == [];
    assert FindAll(LiItem, li, 0) == [Hit(0, e + 5, [c])];
  }

  /** Title round trip: the title extractor reads back the title a record was rendered with. */
  lemma TitleReadBack(p: Publication)
    requires p.title != "" && NoChar(p.title, '<') && IsStripped(p.title)
    requires !Contains(p.authors, "<a") && NoChar(Href(p), '>')
    requires !Contains(CitationText(p), LiClose)
    ensures TitlesOf(AllFirstGroups(LiItem, Render(p))) == [p.title]
  {
    var c := CitationText(p);
    ItemGroups(c);
    CitationTitle(p);
    StripStripped(p.title);
    assert TitleOfItem(c) == Some(p.title);
  }

  // ---- the year ----

  /** Whether `(dddd)` starts at `i` depends only on the six characters from there. */
  lemma ParenYearShift(s: string, i: nat, t: string, d: nat)
    requires i + 6 <= |s| && d + 6 <= |t| && s[i..i + 6] == t[d..d + 6]
    ensures IsParenYearAt(s, i) <==> IsParenYearAt(t, d)
  {
    forall j | i <= j < i + 6 ensures s[j] == t[j - i + d] {
      assert s[j] == s[i..i + 6][j - i];
      assert t[j - i + d] == t[d..d + 6][j - i];
    }
    assert s[i] == t[d] && s[i + 5] == t[d + 5];
    assert AllIn(s, i + 1, i + 5, Digit) ==> AllIn(t, d + 1, d + 5, Digit) by {
      if AllIn(s, i + 1, i + 5, Digit) {
        forall j | d + 1 <= j < d + 5 ensures InClass(Digit, t[j]) {
          assert t[j] == s[j - d + i];
        }
      }
    }
    assert AllIn(t, d + 1, d + 5, Digit) ==> AllIn(s, i + 1, i + 5, Digit) by {
      if AllIn(t, d + 1, d + 5, Digit) {
        forall j | i + 1 <= j < i + 5 ensures InClass(Digit, s[j]) {
          assert s[j] == t[j - i + d];
        }
      }
    }
  }

  /** A ` (dddd)` written at `m` puts a parenthesised year at `m + 1` holding those digits. */
  lemma ParenYearWritten(s: string, m: nat, y: string)
    requires |y| == 4 && AllDigits(y) && At(s, m, " (" + y + ")")
    ensures s[m] == ' ' && IsParenYearAt(s, m + 1) && s[m + 2..m + 6] == y
  {
    var w := " (" + y + ")";
    AtJoin(" (", y);
    AtExtend(" (" + y, 2, y, ")");
    AtNested(s, m, w, 2, y, m + 2);
    AtChars(s, m, w);
    assert s[m] == w[0] && s[m + 1] == w[1] && s[m + 6] == w[6];
    forall k | m + 2 <= k < m + 6 ensures InClass(Digit, s[k]) {
      assert s[k] == s[m + 2..m + 6][k - m - 2];
    }
  }

  /** A blank at `m` stops every year that would straddle it. */
  lemma NoYearStraddles(s: string, m: nat)
    requires m < |s| && s[m] == ' '
    requires forall i: nat :: i + 6 <= m ==> !IsParenYearAt(s, i)
    ensures forall i: nat :: i <= m ==> !IsParenYearAt(s, i)
  {
    forall i: nat | i <= m && i + 6 > m ensures !IsParenYearAt(s, i) {
      if i < m && m <= i + 4 {
        assert !InClass(Digit, s[m]);
      }
    }
  }

  /** The first `(dddd)` of `s` is the ` (n)` written at `m`, when no year ends before `m`. */
  lemma YearAtOffset(s: string, m: nat, n: nat)
    requires 1000 <= n <= 9999
    requires At(s, m, " (" + NatToString(n) + ")")
    requires forall i: nat :: i + 6 <= m ==> !IsParenYearAt(s, i)
    ensures YearOf(s) == n
  {
    var y := NatToString(n);
    FourDigitSpelling(n);
    ParenYearWritten(s, m, y);
    NoYearStraddles(s, m);
    ParseNatToString(n);
    assert YearAt(s, m + 1) == n;
  }

  /** The byline is the author list followed by ` (year)`. */
  lemma BylineYear(p: Publication)
    requires 0 <= p.year
    ensures At(Byline(p), 0, p.authors)
    ensures At(Byline(p), |p.authors|, " (" + NatToString(p.year) + ")")
  {
    var b := Byline(p);
    var w := " (" + NatToString(p.year) + ")";
    assert b == p.authors + w + ". ";
    assert b[..|p.authors|] == p.authors;
    assert b[|p.authors|..|p.authors| + |w|] == w;
  }

  /** The rendered item holds the byline right after the item tag. */
  lemma RenderByline(p: Publication)
    ensures At(Render(p), 0, ItemOpen) && At(Render(p), |ItemOpen|, Byline(p))
  {
    var c := CitationText(p);
    var r := Render(p);
    assert r == ItemOpen + c + ItemClose;
    assert r[..|ItemOpen|] == ItemOpen;
    assert r[|ItemOpen|..|ItemOpen| + |c|] == c;
    assert c[..|Byline(p)|] == Byline(p);
    assert At(c, 0, Byline(p));
    AtNested(r, |ItemOpen|, c, 0, Byline(p), |ItemOpen|);
  }

  /** The item tag holds no `(`, so no year starts inside it. */
  lemma NoYearInOpen(r: string)
    requires At(r, 0, ItemOpen)
    ensures forall i: nat :: i < |ItemOpen| ==> !IsParenYearAt(r, i)
  {
    forall i: nat | i < |ItemOpen| ensures r[i] != '(' {
      assert r[i] == r[..|ItemOpen|][i];
    }
  }

  /** The year scan of an item tag, then a year-free author list, then ` (n)`, reads `n`. */
  lemma YearAfterAuthors(r: string, authors: string, n: nat)
    requires 1000 <= n <= 9999
    requires At(r, 0, ItemOpen) && At(r, |ItemOpen|, authors)
    requires At(r, |ItemOpen| + |authors|, " (" + NatToString(n) + ")")
    requires forall i: nat :: !IsParenYearAt(authors, i)
    ensures YearOf(r) == n
  {
    var o := |ItemOpen|;
    var a := |authors|;
    NoYearInOpen(r);
    forall i: nat | i + 6 <= o + a ensures !IsParenYearAt(r, i) {
      if o <= i {
        AtSlice(r, o, authors, i - o, 6);
        ParenYearShift(r, i, authors, i - o);
      }
    }
    YearAtOffset(r, o + a, n);
  }

  /** Year round trip: the year scanner reads back the year a record was rendered with. */
  lemma YearReadBack(p: Publication)
    requires 1000 <= p.year <= 9999
    requires forall i: nat :: !IsParenYearAt(p.authors, i)
    ensures YearOf(Render(p)) == p.year
  {
    var r := Render(p);
    RenderByline(p);
    BylineYear(p);
    AtNested(r, |ItemOpen|, Byline(p), 0, p.authors, |ItemOpen|);
    AtNested(r, |ItemOpen|, Byline(p), |p.authors|, " (" + NatToString(p.year) + ")", |ItemOpen| + |p.authors|);
    YearAfterAuthors(r, p.authors, p.year);
  }
}

=== FILE: scan.dfy ===
/**
 `re.search`, `re.findall` and `re.sub` for the fixed patterns the scripts scan HTML with.
 Each pattern here matches deterministically once its start position is fixed (every greedy
 run is followed by a character outside its class, every lazy `.*?` under DOTALL stops at the
 first occurrence of the literal after it), so a pattern is modelled by `ProbeAt`, the match
 starting at one position, and the Python search functions are scans over start positions.
 */
module Scan {
  import opened Wrappers
  import opened Text

  /** One match: `s[start..end]` with its capture groups. */
  datatype Hit = Hit(start: nat, end: nat, groups: seq<string>)

  const LiOpen: string := "<li"
  const LiClose: string := "</li>"
  const TimelineYearOpen: string := "<div class=\"timeline-year\">"

  /** The patterns, each named after what it recognises. */
  datatype Probe =
    | LiItem            // <li[^>]*>(.*?)</li>                  (DOTALL)
    | Anchor            // <a[^>]*>([^<]+)</a>
    | ParenYear         // \((\d{4})\)
    | FourDigits        // (\d{4})
    | Emphasis          // <em>([^<]+)</em>
    | Tag               // <[^>]+>
    | Blanks            // \s+
    | Bullet            // &bull; ([^<]+)<br />
    | YearBlock         // <h3>(\d{4})</h3>\s*<ul>(.*?)</ul>    (DOTALL)
    | TimelineYear      // <div class="timeline-year">(\d{4})</div>
    | TitleAfterYear    // \((\d{4})\)\.\s*<a[^>]*>([^<]+)</a>\.\s*<em>
    | TitleFallback     // \((\d{4})\)\.\s*([^.]+)\.
    | TimelineClose     // </div>\s*</div>\s*</div>
    | Literal(p: string)                       // p, no special characters
    | Section(head: string, open: string, close: string)  // head.*?open(.*?)close  (DOTALL)
    | EducationLine(lead: string)              // lead\s*<a[^>]*>([^<]+)</a>,\s*([^<]+)

  /** The literal parts a pattern is built from are non-empty where its match needs them. */
  predicate Valid(p: Probe) {
    match p
    case Literal(q) => q != ""
    case Section(h, _, _) => h != ""
    case EducationLine(l) => l != ""
    case _ => true
  }

  function GroupCount(p: Probe): nat {
    match p
    case Tag => 0
    case Blanks => 0
    case TimelineClose => 0
    case Literal(_) => 0
    case YearBlock => 2
    case TitleAfterYear => 2
    case TitleFallback => 2
    case EducationLine(_) => 2
    case _ => 1
  }

  /** `(dddd)` at `i`. */
  predicate IsParenYearAt(s: string, i: nat) {
    i + 6 <= |s| && s[i] == '(' && AllIn(s, i + 1, i + 5, Digit) && s[i + 5] == ')'
  }

  /** `<a[^>]*>([^<]+)</a>` at `i`: the span of the link text. */
  function AnchorSpan(s: string, i: nat): (r: Option<(nat, nat)>)
    ensures r.Some? ==> i + 2 < r.value.0 < r.value.1 && r.value.1 + 4 <= |s|
  {
    if !At(s, i, "<a") then None
    else match FindFrom(s, ">", i + 2)
      case None => None
      case Some(g) =>
        var m := RunEnd(s, g + 1, Except('<'));
        if m > g + 1 && At(s, m, "</a>") then Some((g + 1, m)) else None
  }

  function LiItemAt(s: string, i: nat): (r: Option<Hit>)
    ensures r.Some? ==> r.value.start == i < r.value.end <= |s| && |r.value.groups| == 1
  {
    if !At(s, i, LiOpen) then None
    else (match FindFrom(s, ">", i + 3)
      case None => None
      case Some(g) =>
        match FindFrom(s, LiClose, g + 1)
        case None => None
        case Some(c) => Some(Hit(i, c + 5, [s[g + 1..c]])))
  }

  function AnchorAt(s: string, i: nat): (r: Option<Hit>)
    ensures r.Some? ==> r.value.start == i < r.value.end <= |s| && |r.value.groups| == 1
  {
    (match AnchorSpan(s, i)
     case None => None
     case Some((a, b)) => Some(Hit(i, b + 4, [s[a..b]])))
  }

  function ParenYearAt(s: string, i: nat): (r: Option<Hit>)
    ensures r.Some? ==> r.value.start == i < r.value.end <= |s| && |r.value.groups| == 1
  {
    if IsParenYearAt(s, i) then Some(Hit(i, i + 6, [s[i + 1..i + 5]])) else None
  }

  /** `dddd` at `i`. */
  predicate IsFourDigitsAt(s: string, i: nat) {
    i + 4 <= |s| && AllIn(s, i, i + 4, Digit)
  }

  function FourDigitsAt(s: string, i: nat): (r: Option<Hit>)
    ensures r.Some? ==> r.value.start == i < r.value.end <= |s| && |r.value.groups| == 1
  {
    if IsFourDigitsAt(s, i) then Some(Hit(i, i + 4, [s[i..i + 4]])) else None
  }

  function EmphasisAt(s: string, i: nat): (r: Option<Hit>)
    ensures r.Some? ==> r.value.start == i < r.value.end <= |s| && |r.value.groups| == 1
  {
    if !At(s, i, "<em>") then None
    else
      var m := RunEnd(s, i + 4, Except('<'));
      if m > i + 4 && At(s, m, "</em>") then Some(Hit(i, m + 5, [s[i + 4..m]])) else None
  }

  function TagAt(s: string, i: nat): (r: Option<Hit>)
    ensures r.Some? ==> r.value.start == i < r.value.end <= |s| && |r.value.groups| == 0
  {
    if i < |s| && s[i] == '<' then
      var m := RunEnd(s, i + 1, Except('>'));
      if m > i + 1 && m < |s| then Some(Hit(i, m + 1, [])) else None
    else None
  }

  function BlanksAt(s: string, i: nat): (r: Option<Hit>)
    ensures r.Some? ==> r.value.start == i < r.value.end <= |s| && |r.value.groups| == 0
  {
    if i < |s| && IsSpace(s[i]) then Some(Hit(i, RunEnd(s, i, Space), [])) else None
  }

  function BulletAt(s: string, i: nat): (r: Option<Hit>)
    ensures r.Some? ==> r.value.start == i < r.value.end <= |s| && |r.value.groups| == 1
  {
    if !At(s, i, "&bull; ") then None
    else
      var m := RunEnd(s, i + 7, Except('<'));
      if m > i + 7 && At(s, m, "<br />") then Some(Hit(i, m + 6, [s[i + 7..m]])) else None
  }

  function YearBlockAt(s: string, i: nat): (r: Option<Hit>)
    ensures r.Some? ==> r.value.start == i < r.value.end <= |s| && |r.value.groups| == 2
  {
    if !(At(s, i, "<h3>") && i + 8 <= |s| && AllIn(s, i + 4, i + 8, Digit) && At(s, i + 8, "</h3>")) then None
    else
      var w := RunEnd(s, i + 13, Space);
      if !At(s, w, "<ul>") then None
      else (match FindFrom(s, "</ul>", w + 4)
        case None => None
        case Some(c) => Some(Hit(i, c + 5, [s[i + 4..i + 8], s[w + 4..c]])))
  }

  function TimelineYearAt(s: string, i: nat): (r: Option<Hit>)
    ensures r.Some? ==> r.value.start == i < r.value.end <= |s| && |r.value.groups| == 1
  {
    var n := |TimelineYearOpen|;
    if At(s, i, TimelineYearOpen) && i + n + 4 <= |s| && AllIn(s, i + n, i + n + 4, Digit)
       && At(s, i + n + 4, "</div>")
    then Some(Hit(i, i + n + 10, [s[i + n..i + n + 4]]))
    else None
  }

  function TitleAfterYearAt(s: string, i: nat): (r: Option<Hit>)
    ensures r.Some? ==> r.value.start == i < r.value.end <= |s| && |r.value.groups| == 2
  {
    if !(IsParenYearAt(s, i) && i + 6 < |s| && s[i + 6] == '.') then None
    else
      var w := RunEnd(s, i + 7, Space);
      (match AnchorSpan(s, w)
       case None => None
       case Some((a, b)) =>
         if b + 4 < |s| && s[b + 4] == '.' then
           var w2 := RunEnd(s, b + 5, Space);
           if At(s, w2, "<em>") then Some(Hit(i, w2 + 4, [s[i + 1..i + 5], s[a..b]])) else None
         else None)
  }

  function TitleFallbackAt(s: string, i: nat): (r: Option<Hit>)
    ensures r.Some? ==> r.value.start == i < r.value.end <= |s| && |r.value.groups| == 2
  {
    if !(IsParenYearAt(s, i) && i + 6 < |s| && s[i + 6] == '.') then None
    else
      var q := i + 7;
      var e := RunEnd(s, q, Space);
      if e < |s| && s[e] != '.' then
        var m := RunEnd(s, e, Except('.'));
        if m < |s| then Some(Hit(i, m + 1, [s[i + 1..i + 5], s[e..m]])) else None
      else if e < |s| && e > q then
        // the greedy \s* gives back its last blank, which becomes the whole title
        Some(Hit(i, e + 1, [s[i + 1..i + 5], s[e - 1..e]]))
      else None
  }

  function TimelineCloseAt(s: string, i: nat): (r: Option<Hit>)
    ensures r.Some? ==> r.value.start == i < r.value.end <= |s| && |r.value.groups| == 0
  {
    if !At(s, i, "</div>") then None
    else
      var w1 := RunEnd(s, i + 6, Space);
      if !At(s, w1, "</div>") then None
      else
        var w2 := RunEnd(s, w1 + 6, Space);
        if At(s, w2, "</div>") then Some(Hit(i, w2 + 6, [])) else None
  }

  function LiteralAt(q: string, s: string, i: nat): (r: Option<Hit>)
    requires q != ""
    ensures r.Some? ==> r.value.start == i < r.value.end <= |s| && |r.value.groups| == 0
  {
    if At(s, i, q) then Some(Hit(i, i + |q|, [])) else None
  }

  function SectionAt(h: string, o: string, c: string, s: string, i: nat): (r: Option<Hit>)
    requires h != ""
    ensures r.Some? ==> r.value.start == i < r.value.end <= |s| && |r.value.groups| == 1
  {
    if !At(s, i, h) then None
    else (match FindFrom(s, o, i + |h|)
      case None => None
      case Some(a) =>
        match FindFrom(s, c, a + |o|)
        case None => None
        case Some(b) => Some(Hit(i, b + |c|, [s[a + |o|..b]])))
  }

  function EducationLineAt(l: string, s: string, i: nat): (r: Option<Hit>)
    requires l != ""
    ensures r.Some? ==> r.value.start == i < r.value.end <= |s| && |r.value.groups| == 2
  {
    if !At(s, i, l) then None
    else
      var w := RunEnd(s, i + |l|, Space);
      match AnchorSpan(s, w)
      case None => None
      case Some((a, b)) =>
        if !(b + 4 < |s| && s[b + 4] == ',') then None
        else
          var q := b + 5;
          var e := RunEnd(s, q, Space);
          if e < |s| && s[e] != '<' then
            var n := RunEnd(s, e, Except('<'));
            Some(Hit(i, n, [s[a..b], s[e..n]]))
          else if e > q then
            // the greedy \s* gives back its last blank to the [^<]+ group
            Some(Hit(i, e, [s[a..b], s[e - 1..e]]))
          else None
  }

  /** The match of `p` starting exactly at `i`, if there is one. */
  function ProbeAt(p: Probe, s: string, i: nat): (r: Option<Hit>)
    requires Valid(p)
    ensures r.Some? ==> r.value.start == i < r.value.end <= |s|
    ensures r.Some? ==> |r.value.groups| == GroupCount(p)
  {
    match p
    case LiItem => LiItemAt(s, i)
    case Anchor => AnchorAt(s, i)
    case ParenYear => ParenYearAt(s, i)
    case FourDigits => FourDigitsAt(s, i)
    case Emphasis => EmphasisAt(s, i)
    case Tag => TagAt(s, i)
    case Blanks => BlanksAt(s, i)
    case Bullet => BulletAt(s, i)
    case YearBlock => YearBlockAt(s, i)
    case TimelineYear => TimelineYearAt(s, i)
    case TitleAfterYear => TitleAfterYearAt(s, i)
    case TitleFallback => TitleFallbackAt(s, i)
    case TimelineClose => TimelineCloseAt(s, i)
    case Literal(q) => LiteralAt(q, s, i)
    case Section(h, o, c) => SectionAt(h, o, c, s, i)
    case EducationLine(l) => EducationLineAt(l, s, i)
  }

  /** `re.search(p, s[from:])`, positions counted in `s`: the leftmost match at or after `from`. */
  function Search(p: Probe, s: string, from: nat): (r: Option<Hit>)
    requires Valid(p)
    ensures r.Some? ==> from <= r.value.start && ProbeAt(p, s, r.value.start) == r
    ensures r.Some? ==> forall j :: from <= j < r.value.start ==> ProbeAt(p, s, j).None?
    ensures r.None? ==> forall j :: from <= j ==> ProbeAt(p, s, j).None?
    decreases |s| - from
  {
    if from >= |s| then None
    else match ProbeAt(p, s, from)
      case Some(h) => Some(h)
      case None => Search(p, s, from + 1)
  }

  /** The search result is pinned down by the first position that matches. */
  lemma SearchFinds(p: Probe, s: string, from: nat, x: nat)
    requires Valid(p) && from <= x && ProbeAt(p, s, x).Some?
    requires forall j :: from <= j < x ==> ProbeAt(p, s, j).None?
    ensures Search(p, s, from) == ProbeAt(p, s, x)
  {
  }

  /** Searching for a literal is `str.find`: both find the same first occurrence, or neither
      finds one. */
  lemma SearchLiteral(q: string, s: string, from: nat)
    requires q != ""
    ensures Search(Literal(q), s, from).Some? <==> FindFrom(s, q, from).Some?
    ensures Search(Literal(q), s, from).Some? ==> Search(Literal(q), s, from).value.start == FindFrom(s, q, from).value
  {
    match Search(Literal(q), s, from)
    case Some(n) =>
      assert At(s, n.start, q) by { assert ProbeAt(Literal(q), s, n.start).Some?; }
      forall j: nat | from <= j < n.start ensures !At(s, j, q) {
        assert ProbeAt(Literal(q), s, j).None?;
      }
    case None =>
      forall j: nat | from <= j ensures !At(s, j, q) {
        assert ProbeAt(Literal(q), s, j).None?;
      }
  }

  /** `re.findall`/`re.finditer`: the successive non-overlapping matches from `from`. */
  function FindAll(p: Probe, s: string, from: nat): (r: seq<Hit>)
    requires Valid(p)
    ensures forall k :: 0 <= k < |r| ==> from <= r[k].start && ProbeAt(p, s, r[k].start) == Some(r[k])
    ensures forall k :: 0 <= k < |r| - 1 ==> r[k].end <= r[k + 1].start
    decreases |s| - from
  {
    match Search(p, s, from)
    case None => []
    case Some(h) =>
      var rest := FindAll(p, s, h.end);
      HitsCons(p, s, from, h, rest);
      [h] + rest
  }

  /** `FindAll` misses no match: every position from `from` that starts one and is not inside
      an earlier match is among the hits. */
  lemma {:induction false} FindAllComplete(p: Probe, s: string, from: nat)
    requires Valid(p)
    ensures NoneMissed(p, s, from, FindAll(p, s, from))
    decreases |s| - from
  {
    match Search(p, s, from)
    case None =>
    case Some(h) =>
      FindAllComplete(p, s, h.end);
      MissedCons(p, s, from, h, FindAll(p, s, h.end));
  }

  /** No match of `p` starts at a position in `[lo, hi)`. */
  predicate NoneBetween(p: Probe, s: string, lo: nat, hi: nat)
    requires Valid(p)
  {
    forall j: nat :: lo <= j < hi ==> ProbeAt(p, s, j).None?
  }

  /** No match of `p` starts at `lo` or later. */
  ghost predicate NoneAfter(p: Probe, s: string, lo: nat)
    requires Valid(p)
  {
    forall j: nat :: lo <= j ==> ProbeAt(p, s, j).None?
  }

  /** The matches `r` leave out none: no match starts before the first one, in a gap between
      two of them, or after the last one (anywhere from `from` when there are none). */
  ghost predicate NoneMissed(p: Probe, s: string, from: nat, r: seq<Hit>)
    requires Valid(p)
  {
    && (r == [] ==> NoneAfter(p, s, from))
    && (r != [] ==> NoneBetween(p, s, from, r[0].start) && NoneAfter(p, s, r[|r| - 1].end))
    && (forall k :: 0 <= k < |r| - 1 ==> NoneBetween(p, s, r[k].end, r[k + 1].start))
  }

  lemma MissedCons(p: Probe, s: string, from: nat, h: Hit, rest: seq<Hit>)
    requires Valid(p) && Search(p, s, from) == Some(h)
    requires NoneMissed(p, s, h.end, rest)
    ensures NoneMissed(p, s, from, [h] + rest)
  {
    var r := [h] + rest;
    assert r[0] == h;
    if rest == [] {
      assert r[|r| - 1] == h;
    } else {
      assert r[|r| - 1] == rest[|rest| - 1];
      assert r[1] == rest[0];
    }
    forall k | 0 <= k < |r| - 1 ensures NoneBetween(p, s, r[k].end, r[k + 1].start) {
      if k > 0 {
        assert r[k] == rest[k - 1] && r[k + 1] == rest[k];
      }
    }
  }

  predicate HitsFrom(p: Probe, s: string, from: nat, r: seq<Hit>)
    requires Valid(p)
  {
    && (forall k :: 0 <= k < |r| ==> from <= r[k].start && IsHit(p, s, r[k]))
    && (forall k :: 0 <= k < |r| - 1 ==> r[k].end <= r[k + 1].start)
  }

  predicate IsHit(p: Probe, s: string, h: Hit)
    requires Valid(p)
  {
    ProbeAt(p, s, h.start) == Some(h)
  }

  lemma HitsCons(p: Probe, s: string, from: nat, h: Hit, rest: seq<Hit>)
    requires Valid(p) && from <= h.start && IsHit(p, s, h)
    requires HitsFrom(p, s, h.end, rest)
    ensures HitsFrom(p, s, from, [h] + rest)
  {
    var r := [h] + rest;
    assert h.start < h.end by {
      assert ProbeAt(p, s, h.start) == Some(h);
    }
    forall k | 0 <= k < |r| ensures from <= r[k].start && IsHit(p, s, r[k]) {
      if k > 0 {
        assert r[k] == rest[k - 1];
        assert h.end <= rest[k - 1].start;
      }
    }
    forall k | 0 <= k < |r| - 1 ensures r[k].end <= r[k + 1].start {
      if k > 0 {
        assert r[k] == rest[k - 1] && r[k + 1] == rest[k];
      } else {
        assert r[1] == rest[0];
      }
    }
  }

  /** `re.sub(p, rep, s[from:])`: every match of `FindAll` replaced by `rep`. */
  function Sub(p: Probe, s: string, from: nat, rep: string): string
    requires Valid(p) && from <= |s|
    decreases |s| - from
  {
    match Search(p, s, from)
    case None => s[from..]
    case Some(h) => s[from..h.start] + rep + Sub(p, s, h.end, rep)
  }

  /** The first capture group of the first match, as `re.search(...).group(1)`. */
  function FirstGroup(p: Probe, s: string): Option<string>
    requires Valid(p) && GroupCount(p) >= 1
  {
    match Search(p, s, 0)
    case None => None
    case Some(h) => Some(h.groups[0])
  }

  /** The first groups of all matches, as `re.findall` returns them for a one-group pattern. */
  function AllFirstGroups(p: Probe, s: string): (r: seq<string>)
    requires Valid(p) && GroupCount(p) >= 1
    ensures |r| == |FindAll(p, s, 0)|
    ensures forall k :: 0 <= k < |r| ==> r[k] == FindAll(p, s, 0)[k].groups[0]
  {
    var hits := FindAll(p, s, 0);
    seq(|hits|, k requires 0 <= k < |hits| => hits[k].groups[0])
  }
}

=== FILE: scholar.dfy ===
/**
 `update_from_scholar.py`: how one filled Google Scholar entry becomes the record the
 renderer takes (author names, owner emphasis, field defaults), and which of the fetched
 records are new to the page.
 */
module Scholar {
  import opened Wrappers
  import opened Lists
  import opened Text
  import opened Citation
  import StableSort
  import Publications

  // ---- author names ----

  /** The first letter of each given name, each followed by a period: `F.M.` */
  function Initials(given: seq<string>): (r: string)
    requires forall k :: 0 <= k < |given| ==> given[k] != ""
    ensures |r| == 2 * |given|
    ensures forall k :: 0 <= k < |given| ==> r[2 * k] == given[k][0] && r[2 * k + 1] == '.'
  {
    if given == [] then ""
    else
      var rest := Initials(given[1..]);
      var r := [given[0][0], '.'] + rest;
      forall k | 0 < k < |given| ensures r[2 * k] == given[k][0] && r[2 * k + 1] == '.' {
        assert r[2 * k] == rest[2 * (k - 1)] && r[2 * k + 1] == rest[2 * (k - 1) + 1];
        assert given[1..][k - 1] == given[k];
      }
      r
  }

  /** One entry of the `and`-separated author field as `Last, F.M.`; a one-word name is kept as
      it is and a blank entry is dropped (None). */
  function FormatName(entry: string): (r: Option<string>)
    ensures r.None? <==> Words(Strip(entry)) == []
    ensures |Words(Strip(entry))| == 1 ==> r == Some(Words(Strip(entry))[0])
  {
    var parts := Words(Strip(entry));
    if parts == [] then None
    else if |parts| == 1 then Some(parts[0])
    else Some(parts[|parts| - 1] + ", " + Initials(parts[..|parts| - 1]))
  }

  /** The first letters of the given names. */
  function FirstLetters(given: seq<string>): (r: seq<char>)
    requires forall k :: 0 <= k < |given| ==> given[k] != ""
    ensures |r| == |given| && forall k :: 0 <= k < |given| ==> r[k] == given[k][0]
  {
    seq(|given|, k requires 0 <= k < |given| => given[k][0])
  }

  /** Reading a formatted name back: the text before the first `, ` and every other character
      after it. */
  function Letters(s: string): seq<char>
    decreases |s|
  {
    if |s| < 2 then [] else [s[0]] + Letters(s[2..])
  }

  function ReadName(name: string): (string, seq<char>) {
    match FindFrom(name, ", ", 0)
    case None => (name, [])
    case Some(i) => (name[..i], Letters(name[i + 2..]))
  }

  lemma {:induction false} LettersOfInitials(given: seq<string>)
    requires forall k :: 0 <= k < |given| ==> given[k] != ""
    ensures Letters(Initials(given)) == FirstLetters(given)
    decreases |given|
  {
    if given != [] {
      var r := Initials(given);
      assert r[2..] == Initials(given[1..]);
      LettersOfInitials(given[1..]);
    }
  }

  /** A word holds no blank, so the first `, ` of `Last, F.M.` is the one after the last name. */
  lemma CommaAfterLast(last: string, rest: string)
    requires last != "" && NoSpaceIn(last)
    ensures FindFrom(last + ", " + rest, ", ", 0) == Some(|last|)
  {
    var s := last + ", " + rest;
    forall j: nat | j < |last| ensures !At(s, j, ", ") {
      if j + 1 < |last| {
        assert s[j + 1] == last[j + 1];
      } else {
        assert s[j + 1] == ',';
      }
      assert j + 2 <= |s| ==> s[j..j + 2][1] == s[j + 1];
    }
    assert s[|last|..|last| + 2] == ", ";
    FindFromIs(s, ", ", 0, |last|);
  }

  /** A name of two or more words reads back as its last word and its first letters. */
  lemma FormatNameInverse(entry: string)
    requires |Words(Strip(entry))| >= 2
    ensures var parts := Words(Strip(entry));
      ReadName(FormatName(entry).value) == (parts[|parts| - 1], FirstLetters(parts[..|parts| - 1]))
  {
    var parts := Words(Strip(entry));
    var last := parts[|parts| - 1];
    var given := parts[..|parts| - 1];
    var ini := Initials(given);
    var name := last + ", " + ini;
    assert FormatName(entry).value == name;
    CommaAfterLast(last, ini);
    assert name[..|last|] == last;
    assert name[|last| + 2..] == ini;
    LettersOfInitials(given);
  }

  /** The non-blank entries, formatted, in input order. */
  function Names(entries: seq<string>): (r: seq<string>)
    ensures |r| <= |entries|
  {
    if entries == [] then []
    else
      var rest := Names(entries[1..]);
      match FormatName(entries[0])
      case None => rest
      case Some(n) => [n] + rest
  }

  /** `Names` works entry by entry: it distributes over concatenation. */
  lemma {:induction false} NamesAppend(a: seq<string>, b: seq<string>)
    ensures Names(a + b) == Names(a) + Names(b)
    decreases |a|
  {
    if a == [] {
      assert a + b == b;
    } else {
      assert (a + b)[0] == a[0] && (a + b)[1..] == a[1..] + b;
      NamesAppend(a[1..], b);
    }
  }

  lemma NamesSingle(e: string)
    ensures Names([e]) == (match FormatName(e) case None => [] case Some(n) => [n])
  {
    assert [e][1..] == [];
  }

  /** `str.replace("&", "&amp;")`. */
  function Escape(s: string): string {
    ReplaceAll(s, "&", "&amp;")
  }

  /** Escaping loses nothing: replacing `&amp;` back gives the original text. */
  lemma EscapeInverse(s: string)
    ensures ReplaceAll(Escape(s), "&amp;", "&") == s
  {
    SubstituteInverse(s, "&", "&amp;", false, false);
  }

  /** The author field: split at ` and `, formatted, joined with `, `, `&` escaped. */
  function AuthorList(field: string): string {
    Escape(Join(Names(Split(field, " and ")), ", "))
  }

  // ---- owner emphasis ----

  const Yang: string := "Yang, Y."

  /** `re.sub(r'Yang, [A-ZY]\.?', '<b>Yang, Y.</b>', s)`: `Yang, ` and a capital, with the period
      after it if there is one, becomes the emphasised owner name. */
  function YangFallback(s: string): string
    decreases |s|
  {
    if |s| < 7 then s
    else if s[..6] == "Yang, " && IsUpper(s[6]) then
      Bolded(Yang) + YangFallback(s[if |s| > 7 && s[7] == '.' then 8 else 7..])
    else [s[0]] + YangFallback(s[1..])
  }

  /** The fallback rewrites whatever capital follows `Yang, ` to the owner's initial. */
  lemma FallbackAnyInitial(c: char)
    requires IsUpper(c)
    ensures YangFallback("Yang, " + [c] + ".") == Bolded(Yang)
  {
    var s := "Yang, " + [c] + ".";
    assert s[..6] == "Yang, " && s[6] == c && s[7] == '.';
    assert s[8..] == "";
  }

  /** The bolding in `fetch_and_parse_publications`: emphasise `Yang, Y.`; when that inserted
      no `<b>` but `Yang` occurs, retry with the looser pattern on the unemphasised list. */
  function BoldYang(s: string): (r: string)
    ensures NoChar(s, '<') ==>
      r == (if !Contains(s, Yang) && Contains(s, "Yang")
            then YangFallback(s) else ReplaceAll(s, Yang, Bolded(Yang)))
    ensures !Contains(s, "Yang") ==> r == s
  {
    var first := ReplaceAll(s, Yang, Bolded(Yang));
    assert Yang == "Yang" + ", Y.";
    assert Contains(s, Yang) ==> Contains(first, "<b>") by {
      if Contains(s, Yang) {
        SubstituteIntroduces(s, Yang, Bolded(Yang), false);
        assert Bolded(Yang) == "<b>" + (Yang + "</b>");
        ContainsPrefix(first, "<b>", Yang + "</b>");
      }
    }
    assert !Contains(s, Yang) ==> first == s by {
      if !Contains(s, Yang) { ReplaceAllAbsent(s, Yang, Bolded(Yang)); }
    }
    assert NoChar(s, '<') ==> !Contains(s, "<b>") by {
      if NoChar(s, '<') {
        forall i: nat ensures !At(s, i, "<b>") {
          if i + 3 <= |s| { assert s[i..i + 3][0] == s[i]; }
        }
      }
    }
    assert !Contains(s, "Yang") ==> !Contains(s, Yang) by {
      if Contains(s, Yang) { ContainsPrefix(s, "Yang", ", Y."); }
    }
    if !Contains(first, "<b>") && Contains(s, "Yang") then YangFallback(s) else first
  }

  /** Where `Yang, Y.` occurs, only the exact name was emphasised: removing the emphasis gives
      back the author list. */
  lemma BoldYangReversible(s: string)
    requires NoChar(s, '<') && Contains(s, Yang)
    ensures ReplaceAll(BoldYang(s), Bolded(Yang), Yang) == s
  {
    SubstituteInverse(s, Yang, Bolded(Yang), false, false);
  }

  // ---- the remaining fields ----

  /** A value Python treats as true: present and non-empty. */
  predicate Truthy(o: Option<string>) {
    o.Some? && o.value != ""
  }

  /** Where the first true value of `opts` sits, or `|opts|` when there is none. */
  function FirstTruthyIndex(opts: seq<Option<string>>): (k: nat)
    ensures k <= |opts| && (k < |opts| ==> Truthy(opts[k]))
    ensures forall j :: 0 <= j < k ==> !Truthy(opts[j])
  {
    if opts == [] || Truthy(opts[0]) then 0
    else
      var tail := opts[1..];
      var k := FirstTruthyIndex(tail);
      assert forall j :: 1 <= j < k + 1 ==> opts[j] == tail[j - 1];
      k + 1
  }

  /** The first true value of `opts` (a chain of `or`), else `default`. */
  function FirstTruthy(opts: seq<Option<string>>, default: string): (r: string)
    ensures (forall k :: 0 <= k < |opts| ==> !Truthy(opts[k])) ==> r == default
    ensures forall k :: 0 <= k < |opts| && Truthy(opts[k]) && (forall j :: 0 <= j < k ==> !Truthy(opts[j]))
                        ==> r == opts[k].value
  {
    var k := FirstTruthyIndex(opts);
    if k < |opts| then opts[k].value else default
  }

  const UnknownVenue: string := "Unknown Journal"

  /** What the filled entry carries, `None` for a missing key. `author` is "" when missing. */
  datatype Bib = Bib(
    author: string,
    journal: Option<string>,
    conference: Option<string>,
    publisher: Option<string>,
    volume: Option<string>,
    number: Option<string>,
    pages: Option<string>)

  /** One entry of the author's publication list: the listing's title and year, the filled
      details and the filled `pub_url`. */
  datatype Entry = Entry(title: Option<string>, pubYear: Option<string>, bib: Bib, pubUrl: Option<string>)

  /** The venue `fetch_and_parse_publications` records: journal, else conference, else
      publisher, else the placeholder. */
  function Venue(b: Bib): (r: string)
    ensures r != ""
    ensures r == FirstTruthy([b.journal, b.conference, b.publisher], UnknownVenue)
  {
    var opts := [b.journal, b.conference, b.publisher];
    assert opts[0] == b.journal && opts[1] == b.conference && opts[2] == b.publisher;
    if Truthy(b.journal) then b.journal.value
    else if Truthy(b.conference) then b.conference.value
    else if Truthy(b.publisher) then b.publisher.value
    else UnknownVenue
  }

  /** The type test of `fetch_and_parse_publications`: "thesis" in the lower-cased title or
      venue. */
  predicate IsThesis(title: string, venue: string) {
    Contains(Lower(title), "thesis") || Contains(Lower(venue), "thesis")
  }

  lemma LowerSlice(s: string, i: nat, j: nat)
    requires i <= j <= |s|
    ensures Lower(s)[i..j] == Lower(s[i..j])
  {
    forall k | 0 <= k < j - i ensures Lower(s)[i..j][k] == Lower(s[i..j])[k] {
      assert Lower(s)[i..j][k] == Lower(s)[i + k] == LowerChar(s[i + k]);
      assert s[i..j][k] == s[i + k];
    }
  }

  /** Six characters of `s` from `i` that lower-case to `thesis`. */
  predicate ThesisAt(s: string, i: nat) {
    i + 6 <= |s| && Lower(s[i..i + 6]) == "thesis"
  }

  /** `thesis` occurs in `Lower(s)` exactly when some six characters of `s` lower-case to it. */
  lemma ContainsLower(s: string)
    ensures Contains(Lower(s), "thesis") <==> exists i: nat :: ThesisAt(s, i)
  {
    if Contains(Lower(s), "thesis") {
      var i := FindFrom(Lower(s), "thesis", 0).value;
      LowerSlice(s, i, i + 6);
      assert ThesisAt(s, i);
    }
    if exists i: nat :: ThesisAt(s, i) {
      var i: nat :| ThesisAt(s, i);
      LowerSlice(s, i, i + 6);
      ContainsAt(Lower(s), "thesis", i);
    }
  }

  /** The year `fetch_and_parse_publications` records: `int(year)` when the year is set, else 0;
      None stands for the ValueError that makes the script skip the entry. */
  function YearValue(y: Option<string>): (r: Option<int>)
    ensures !Truthy(y) ==> r == Some(0)
    ensures Truthy(y) ==> r == PyInt(y.value)
  {
    if Truthy(y) then PyInt(y.value) else Some(0)
  }

  function OrEmpty(o: Option<string>): string {
    if o.Some? then o.value else ""
  }

  /** What `fetch_and_parse_publications` makes of one entry: None when it is skipped (no title,
      or a year `int` rejects). */
  function Normalise(e: Entry): (r: Option<Publication>)
    ensures r.None? <==> !Truthy(e.title) || YearValue(e.pubYear).None?
    ensures r.Some? ==> var p := r.value;
      && p.authors == BoldYang(AuthorList(e.bib.author))
      && p.volume == (if e.bib.volume.Some? then e.bib.volume.value else "")
      && p.issue == (if e.bib.number.Some? then e.bib.number.value else "")
      && p.pages == (if e.bib.pages.Some? then e.bib.pages.value else "")
      && p.title == e.title.value
      && Some(p.year) == YearValue(e.pubYear)
      && p.venue == Venue(e.bib)
      && (p.kind == Thesis <==> IsThesis(p.title, p.venue))
      && (p.doi.Some? <==> Truthy(e.pubUrl))
      && (p.doi.Some? ==> p.doi == e.pubUrl)
  {
    if !Truthy(e.title) then None
    else match YearValue(e.pubYear)
      case None => None
      case Some(y) =>
        var title := e.title.value;
        var venue := Venue(e.bib);
        Some(Publication(
          BoldYang(AuthorList(e.bib.author)), y, title, venue,
          OrEmpty(e.bib.volume), OrEmpty(e.bib.number), OrEmpty(e.bib.pages),
          if Truthy(e.pubUrl) then e.pubUrl else None,
          if IsThesis(title, venue) then Thesis else Journal))
  }

  /** The records `fetch_and_parse_publications` returns, in listing order. */
  function Collect(entries: seq<Entry>): (r: seq<Publication>)
    ensures |r| <= |entries|
  {
    Accepted(Normalise, entries)
  }

  /** Every record comes from an entry that was not skipped. */
  lemma CollectFrom(entries: seq<Entry>, k: nat)
    requires k < |Collect(entries)|
    ensures exists i :: 0 <= i < |entries| && Normalise(entries[i]) == Some(Collect(entries)[k])
  {
    AcceptedFrom(Normalise, entries, k);
  }

  /** One entry gives its record, or nothing when it is skipped. */
  lemma CollectSingle(e: Entry)
    ensures Normalise(e).None? ==> Collect([e]) == []
    ensures Normalise(e).Some? ==> Collect([e]) == [Normalise(e).value]
  {
    assert [e][0] == e && [e][1..] == [];
  }

  /** The entries are taken one after another: `Collect` distributes over concatenation. */
  lemma CollectAppend(a: seq<Entry>, b: seq<Entry>)
    ensures Collect(a + b) == Collect(a) + Collect(b)
  {
    AcceptedAppend(Normalise, a, b);
  }

  function PubYear(p: Publication): int { p.year }

  // ---- the new-records filter ----

  /** The title filter in `main`: the records whose title is not on the page, in their order. */
  function NotPresent(pubs: seq<Publication>, existingTitles: seq<string>): (r: seq<Publication>)
    ensures |r| <= |pubs|
    ensures forall k :: 0 <= k < |r| ==> r[k].title !in existingTitles
  {
    if pubs == [] then []
    else
      var rest := NotPresent(pubs[1..], existingTitles);
      if pubs[0].title in existingTitles then rest else [pubs[0]] + rest
  }

  /** A record is kept exactly when it was fetched and its title is new. */
  lemma {:induction false} NotPresentMembers(pubs: seq<Publication>, existingTitles: seq<string>, p: Publication)
    ensures p in NotPresent(pubs, existingTitles) <==> p in pubs && p.title !in existingTitles
    decreases |pubs|
  {
    if pubs != [] {
      NotPresentMembers(pubs[1..], existingTitles, p);
      assert pubs == [pubs[0]] + pubs[1..];
    }
  }

  /** The filter keeps the order: it distributes over concatenation. */
  lemma {:induction false} NotPresentAppend(a: seq<Publication>, b: seq<Publication>, existingTitles: seq<string>)
    ensures NotPresent(a + b, existingTitles) == NotPresent(a, existingTitles) + NotPresent(b, existingTitles)
    decreases |a|
  {
    if a == [] {
      assert a + b == b;
    } else {
      assert (a + b)[0] == a[0] && (a + b)[1..] == a[1..] + b;
      NotPresentAppend(a[1..], b, existingTitles);
    }
  }

  /** Filtering a newest-first list leaves it newest first. */
  lemma {:induction false} NotPresentDescending(pubs: seq<Publication>, existingTitles: seq<string>)
    requires StableSort.Descending(pubs, PubYear)
    ensures StableSort.Descending(NotPresent(pubs, existingTitles), PubYear)
    decreases |pubs|
  {
    if pubs != [] {
      var tail := pubs[1..];
      assert StableSort.Descending(tail, PubYear) by {
        forall i, j | 0 <= i < j < |tail| ensures PubYear(tail[i]) >= PubYear(tail[j]) {
          assert tail[i] == pubs[i + 1] && tail[j] == pubs[j + 1];
        }
      }
      NotPresentDescending(tail, existingTitles);
      var rest := NotPresent(tail, existingTitles);
      forall k | 0 <= k < |rest| ensures PubYear(pubs[0]) >= PubYear(rest[k]) {
        NotPresentMembers(tail, existingTitles, rest[k]);
        var j :| 0 <= j < |tail| && tail[j] == rest[k];
        assert tail[j] == pubs[j + 1];
      }
    }
  }

  /** `main`: the fetched records, newest first, that are not on the page yet. */
  function NewRecords(entries: seq<Entry>, existingTitles: seq<string>): (r: seq<Publication>)
    ensures StableSort.Descending(r, PubYear)
  {
    var sorted := StableSort.Sort(Collect(entries), PubYear);
    NotPresentDescending(sorted, existingTitles);
    NotPresent(sorted, existingTitles)
  }

  /** The rest of `main`: nothing is written when no record is new; otherwise the new records are
      rendered and merged into the page's list as `update_publications.py` does it. */
  function ScholarUpdate(html: string, entries: seq<Entry>): (r: Option<string>)
    ensures r.None? <==> NewRecords(entries, Publications.ExtractTitles(html)) == []
                         || Publications.ListBounds(html).None?
  {
    var found := NewRecords(entries, Publications.ExtractTitles(html));
    if found == [] then None
    else
      var items := seq(|found|, k requires 0 <= k < |found| => Render(found[k]));
      Publications.Rebuild(html, items, Publications.ExistingListHtml(html))
  }
}

=== FILE: stable_sort.dfy ===
/**
 Python's `list.sort(key=..., reverse=True)`: a stable sort into descending key order.
 Modelled as an insertion sort; its three postconditions together pin the result down:
 the output is ordered, is a permutation of the input, and keeps the input order among
 elements with equal keys.
 */
module StableSort {

  /** Keys never increase along `s`. */
  ghost predicate Descending<T>(s: seq<T>, key: T -> int) {
    forall i, j :: 0 <= i < j < |s| ==> key(s[i]) >= key(s[j])
  }

  /** The elements of `s` whose key is `y`, in their order in `s`. */
  function WithKey<T>(s: seq<T>, key: T -> int, y: int): (r: seq<T>)
    ensures |r| <= |s|
  {
    if s == [] then []
    else (if key(s[0]) == y then [s[0]] else []) + WithKey(s[1..], key, y)
  }

  lemma {:induction false} WithKeyAppend<T>(s: seq<T>, t: seq<T>, key: T -> int, y: int)
    ensures WithKey(s + t, key, y) == WithKey(s, key, y) + WithKey(t, key, y)
    decreases |s|
  {
    if s == [] {
      assert s + t == t;
    } else {
      var h := if key(s[0]) == y then [s[0]] else [];
      var a, b := WithKey(s[1..], key, y), WithKey(t, key, y);
      assert (s + t)[0] == s[0] && (s + t)[1..] == s[1..] + t;
      WithKeyAppend(s[1..], t, key, y);
      assert WithKey(s + t, key, y) == h + (a + b);
      assert h + (a + b) == (h + a) + b;
    }
  }

  /** No element has key `y`. */
  lemma {:induction false} WithKeyNone<T>(s: seq<T>, key: T -> int, y: int)
    requires forall k :: 0 <= k < |s| ==> key(s[k]) != y
    ensures WithKey(s, key, y) == []
    decreases |s|
  {
    if s != [] {
      WithKeyNone(s[1..], key, y);
    }
  }

  /** The first position from `i` on whose key is below `v`, or `|acc|`. */
  function FirstBelow<T>(acc: seq<T>, key: T -> int, v: int, i: nat): (n: nat)
    requires i <= |acc|
    ensures i <= n <= |acc|
    ensures forall k :: i <= k < n ==> key(acc[k]) >= v
    ensures n < |acc| ==> key(acc[n]) < v
    decreases |acc| - i
  {
    if i == |acc| || key(acc[i]) < v then i else FirstBelow(acc, key, v, i + 1)
  }

  /** With no key below `v` from `i` on, the search runs to the end. */
  lemma FirstBelowNone<T>(acc: seq<T>, key: T -> int, v: int, i: nat)
    requires i <= |acc| && forall k :: i <= k < |acc| ==> key(acc[k]) >= v
    ensures FirstBelow(acc, key, v, i) == |acc|
  {
  }

  /** The position `x` takes in the ordered `acc`: after every element whose key is at least
      `x`'s, before every element whose key is below it. */
  lemma InsertPosition<T>(x: T, acc: seq<T>, key: T -> int)
    requires Descending(acc, key)
    ensures var n := FirstBelow(acc, key, key(x), 0);
      && (forall k :: 0 <= k < n ==> key(acc[k]) >= key(x))
      && (forall k :: n <= k < |acc| ==> key(acc[k]) < key(x))
  {
    var n := FirstBelow(acc, key, key(x), 0);
    forall k | n <= k < |acc| ensures key(acc[k]) < key(x) {
      assert key(acc[n]) >= key(acc[k]);
    }
  }

  lemma SpliceOrdered<T>(x: T, acc: seq<T>, key: T -> int, n: nat)
    requires n <= |acc| && Descending(acc, key)
    requires forall k :: 0 <= k < n ==> key(acc[k]) >= key(x)
    requires forall k :: n <= k < |acc| ==> key(acc[k]) < key(x)
    ensures Descending(acc[..n] + [x] + acc[n..], key)
  {
    var r := acc[..n] + [x] + acc[n..];
    assert forall i :: 0 <= i < n ==> r[i] == acc[i];
    assert r[n] == x;
    assert forall i :: n < i < |r| ==> r[i] == acc[i - 1];
  }

  /** Puts `x` into the ordered `acc` after every element whose key is at least `x`'s. */
  function Insert<T>(x: T, acc: seq<T>, key: T -> int): (r: seq<T>)
    requires Descending(acc, key)
    ensures Descending(r, key)
    ensures multiset(r) == multiset(acc) + multiset{x}
  {
    var n := FirstBelow(acc, key, key(x), 0);
    InsertPosition(x, acc, key);
    SpliceOrdered(x, acc, key, n);
    assert acc == acc[..n] + acc[n..];
    acc[..n] + [x] + acc[n..]
  }

  /** Putting `x` between `a` and `b` appends it to the run of its own key, provided `b` holds
      none of that key, and leaves every other run alone. */
  lemma {:induction false} WithKeySplice<T>(a: seq<T>, x: T, b: seq<T>, key: T -> int, y: int)
    requires key(x) == y ==> forall k :: 0 <= k < |b| ==> key(b[k]) != y
    ensures WithKey(a + [x] + b, key, y) == WithKey(a + b, key, y) + WithKey([x], key, y)
  {
    WithKeyAppend(a + [x], b, key, y);
    WithKeyAppend(a, [x], key, y);
    WithKeyAppend(a, b, key, y);
    if key(x) == y {
      WithKeyNone(b, key, y);
    } else {
      assert WithKey([x], key, y) == [];
    }
  }

  /** Where `Insert` splits `acc`, and that every element after `x` has a smaller key. */
  lemma InsertSplit<T>(x: T, acc: seq<T>, key: T -> int, n: nat)
    requires Descending(acc, key) && n == FirstBelow(acc, key, key(x), 0)
    ensures Insert(x, acc, key) == acc[..n] + [x] + acc[n..]
    ensures forall k :: 0 <= k < |acc[n..]| ==> key(acc[n..][k]) < key(x)
  {
    InsertPosition(x, acc, key);
    forall k | 0 <= k < |acc[n..]| ensures key(acc[n..][k]) < key(x) {
      assert acc[n..][k] == acc[n + k];
    }
  }

  lemma InsertWithKey<T>(x: T, acc: seq<T>, key: T -> int, y: int)
    requires Descending(acc, key)
    ensures WithKey(Insert(x, acc, key), key, y) == WithKey(acc, key, y) + WithKey([x], key, y)
  {
    var n := FirstBelow(acc, key, key(x), 0);
    InsertSplit(x, acc, key, n);
    WithKeySplice(acc[..n], x, acc[n..], key, y);
    assert acc[..n] + acc[n..] == acc;
  }

  /** The stable descending sort of `s`. */
  function Sort<T>(s: seq<T>, key: T -> int): (r: seq<T>)
    ensures Descending(r, key)
    ensures multiset(r) == multiset(s)
    ensures |r| == |s|
    decreases |s|
  {
    if s == [] then []
    else
      var init := s[..|s| - 1];
      assert s == init + [s[|s| - 1]];
      var r := Insert(s[|s| - 1], Sort(init, key), key);
      assert |r| == |multiset(r)| == |multiset(s)| == |s|;
      r
  }

  /** Stability: for every key, the elements with that key come out in their input order. */
  lemma {:induction false} SortStable<T>(s: seq<T>, key: T -> int, y: int)
    ensures WithKey(Sort(s, key), key, y) == WithKey(s, key, y)
    decreases |s|
  {
    if s != [] {
      var init := s[..|s| - 1];
      assert s == init + [s[|s| - 1]];
      SortStable(init, key, y);
      InsertWithKey(s[|s| - 1], Sort(init, key), key, y);
      WithKeyAppend(init, [s[|s| - 1]], key, y);
    }
  }

  /** An element no larger than any key of `acc` goes at the end. */
  lemma InsertAtEnd<T>(x: T, acc: seq<T>, key: T -> int)
    requires Descending(acc, key) && forall k :: 0 <= k < |acc| ==> key(acc[k]) >= key(x)
    ensures Insert(x, acc, key) == acc + [x]
  {
    var n := FirstBelow(acc, key, key(x), 0);
    FirstBelowNone(acc, key, key(x), 0);
    InsertSplit(x, acc, key, n);
    assert acc[..n] == acc && acc[n..] == [];
  }

  /** In a descending list, the front part is descending and every key in it is at least the
      last element's. */
  lemma DescendingSplit<T>(s: seq<T>, init: seq<T>, x: T, key: T -> int)
    requires s == init + [x] && Descending(s, key)
    ensures Descending(init, key)
    ensures forall k :: 0 <= k < |init| ==> key(init[k]) >= key(x)
  {
    forall i, j | 0 <= i < j < |init| ensures key(init[i]) >= key(init[j]) {
      assert init[i] == s[i] && init[j] == s[j];
    }
    forall k | 0 <= k < |init| ensures key(init[k]) >= key(x) {
      assert init[k] == s[k] && x == s[|init|];
    }
  }

  /** An input already in descending order comes back unchanged. */
  lemma {:induction false} SortOrdered<T>(s: seq<T>, key: T -> int)
    requires Descending(s, key)
    ensures Sort(s, key) == s
    decreases |s|
  {
    if s != [] {
      var init, x := s[..|s| - 1], s[|s| - 1];
      assert s == init + [x];
      DescendingSplit(s, init, x, key);
      SortOrdered(init, key);
      assert Sort(s, key) == Insert(x, init, key);
      InsertAtEnd(x, init, key);
    }
  }
}

=== FILE: text.dfy ===
/**
 Python string primitives used by the maintenance scripts, over `seq<char>`:
 character classes, first-occurrence search, `str.strip`, `str.split`, `str.join`,
 `str.replace`/`re.sub` with a literal pattern, and the integer/decimal conversions.
 */
module Text {
  import opened Wrappers

  /** The whitespace of `str.isspace` and of `\s` in a `str` pattern (ASCII and Latin-1 part). */
  predicate IsSpace(c: char) {
    c == ' ' || c == '\t' || c == '\n' || c == '\r' || c == '\U{000B}' || c == '\U{000C}'
    || ('\U{001C}' <= c <= '\U{001F}') || c == '\U{0085}' || c == '\U{00A0}'
  }

  predicate IsDigit(c: char) {
    '0' <= c <= '9'
  }

  predicate IsUpper(c: char) {
    'A' <= c <= 'Z'
  }

  /** A character of `\w`: letter, digit or underscore (ASCII part). */
  predicate IsWordChar(c: char) {
    IsDigit(c) || IsUpper(c) || ('a' <= c <= 'z') || c == '_'
  }

  /** A character class of the regular expressions used by the scripts. */
  datatype Class = Space | NonSpace | Digit | Except(x: char)

  predicate InClass(k: Class, c: char) {
    match k
    case Space => IsSpace(c)
    case NonSpace => !IsSpace(c)
    case Digit => IsDigit(c)
    case Except(x) => c != x
  }

  /** Every character of `s[lo..hi]` is in class `k`. */
  predicate AllIn(s: string, lo: nat, hi: nat, k: Class)
    requires lo <= hi <= |s|
  {
    forall j :: lo <= j < hi ==> InClass(k, s[j])
  }

  predicate AllDigits(s: string) {
    forall j :: 0 <= j < |s| ==> IsDigit(s[j])
  }

  lemma DigitsSlice(s: string, lo: nat, hi: nat)
    requires lo <= hi <= |s| && AllIn(s, lo, hi, Digit)
    ensures AllDigits(s[lo..hi])
  {
    forall j | 0 <= j < hi - lo ensures IsDigit(s[lo..hi][j]) {
      assert s[lo..hi][j] == s[lo + j];
      assert InClass(Digit, s[lo + j]);
    }
  }

  predicate NoChar(s: string, c: char) {
    forall j :: 0 <= j < |s| ==> s[j] != c
  }

  /** End of the longest run of class-`k` characters starting at `i` (a greedy `[k]*`). */
  function RunEnd(s: string, i: nat, k: Class): (e: nat)
    requires i <= |s|
    ensures i <= e <= |s| && AllIn(s, i, e, k)
    ensures e == |s| || !InClass(k, s[e])
    decreases |s| - i
  {
    if i < |s| && InClass(k, s[i]) then RunEnd(s, i + 1, k) else i
  }

  /** Start of the longest run of class-`k` characters ending at `j`. */
  function RunStart(s: string, j: nat, k: Class): (b: nat)
    requires j <= |s|
    ensures b <= j && AllIn(s, b, j, k)
    ensures b == 0 || !InClass(k, s[b - 1])
  {
    if j > 0 && InClass(k, s[j - 1]) then RunStart(s, j - 1, k) else j
  }

  /** `p` occurs in `s` at index `i`. */
  predicate At(s: string, i: nat, p: string) {
    i + |p| <= |s| && s[i..i + |p|] == p
  }

  /** `s.find(p, from)`: the first index at or after `from` where `p` occurs. */
  function FindFrom(s: string, p: string, from: nat): (r: Option<nat>)
    ensures r.Some? ==> from <= r.value && At(s, r.value, p)
    ensures r.Some? ==> forall j :: from <= j < r.value ==> !At(s, j, p)
    ensures r.None? ==> forall j :: from <= j ==> !At(s, j, p)
    decreases |s| - from
  {
    if from + |p| > |s| then None
    else if s[from..from + |p|] == p then Some(from)
    else FindFrom(s, p, from + 1)
  }

  /** The characters of an occurrence are those of the pattern. */
  lemma AtChars(s: string, i: nat, w: string)
    requires At(s, i, w)
    ensures forall k :: 0 <= k < |w| ==> s[i + k] == w[k]
  {
    forall k | 0 <= k < |w| ensures s[i + k] == w[k] {
      assert s[i..i + |w|][k] == s[i + k];
    }
  }

  /** A piece of an occurrence is the same piece of the pattern. */
  lemma AtSlice(s: string, i: nat, w: string, d: nat, n: nat)
    requires At(s, i, w) && d + n <= |w|
    ensures s[i + d..i + d + n] == w[d..d + n]
  {
    AtChars(s, i, w);
    var u, v := s[i + d..i + d + n], w[d..d + n];
    forall x | 0 <= x < n ensures u[x] == v[x] {
      assert u[x] == s[i + (d + x)] && v[x] == w[d + x];
    }
  }

  /** A one-character occurrence is that character. */
  lemma AtOne(s: string, i: nat, c: char)
    requires i < |s|
    ensures At(s, i, [c]) <==> s[i] == c
  {
    assert s[i..i + 1] == [s[i]];
  }

  /** A run of characters other than `c` that is followed by `c` ends right there. */
  lemma RunEndAtChar(s: string, a: nat, t: string, c: char)
    requires At(s, a, t) && NoChar(t, c) && a + |t| < |s| && s[a + |t|] == c
    ensures RunEnd(s, a, Except(c)) == a + |t|
  {
    var m := a + |t|;
    assert AllIn(s, a, m, Except(c)) by {
      AtChars(s, a, t);
      forall k | a <= k < m ensures s[k] != c {
        assert s[k] == t[k - a];
      }
    }
    RunEndIs(s, a, m, Except(c));
  }

  /** An occurrence inside an occurrence is an occurrence at the summed offset `k`. */
  lemma AtNested(s: string, i: nat, t: string, j: nat, w: string, k: nat)
    requires At(s, i, t) && At(t, j, w) && k == i + j
    ensures At(s, k, w)
  {
    forall x | 0 <= x < |w| ensures s[k + x] == w[x] {
      assert s[k + x] == s[i..i + |t|][j + x] == t[j + x];
      assert t[j + x] == t[j..j + |w|][x];
    }
  }

  /** The first occurrence is pinned down by an occurrence with none before it. */
  lemma {:induction false} FindFromIs(s: string, p: string, from: nat, x: nat)
    requires from <= x && At(s, x, p)
    requires forall j :: from <= j < x ==> !At(s, j, p)
    ensures FindFrom(s, p, from) == Some(x)
    decreases x - from
  {
    if from < x {
      assert !At(s, from, p);
      FindFromIs(s, p, from + 1, x);
    }
  }

  /** A run is pinned down by a class-`k` stretch followed by a character outside `k`. */
  lemma {:induction false} RunEndIs(s: string, i: nat, e: nat, k: Class)
    requires i <= e <= |s| && AllIn(s, i, e, k)
    requires e == |s| || !InClass(k, s[e])
    ensures RunEnd(s, i, k) == e
    decreases e - i
  {
    if i < e {
      RunEndIs(s, i + 1, e, k);
    }
  }

  /** `s.endswith(t)`. */
  predicate EndsWith(s: string, t: string) {
    |t| <= |s| && s[|s| - |t|..] == t
  }

  /** Python's `p in s`. */
  predicate Contains(s: string, p: string) {
    FindFrom(s, p, 0).Some?
  }

  lemma ContainsAt(s: string, p: string, i: nat)
    requires At(s, i, p)
    ensures Contains(s, p)
  {
  }

  /** An occurrence of `p + q` is an occurrence of `p`. */
  lemma ContainsPrefix(s: string, p: string, q: string)
    requires Contains(s, p + q)
    ensures Contains(s, p)
  {
    var i := FindFrom(s, p + q, 0).value;
    assert s[i..i + |p|] == s[i..i + |p + q|][..|p|];
    ContainsAt(s, p, i);
  }

  lemma NotContains(s: string, p: string, i: nat)
    requires !Contains(s, p)
    ensures !At(s, i, p)
  {
  }

  /** `s.strip()`: drop leading and trailing whitespace. */
  function Strip(s: string): (r: string)
    ensures |r| <= |s|
    ensures r == "" || (!IsSpace(r[0]) && !IsSpace(r[|r| - 1]))
    ensures var a := RunEnd(s, 0, Space);
            a + |r| <= |s| && r == s[a..a + |r|] && AllIn(s, a + |r|, |s|, Space)
  {
    var a := RunEnd(s, 0, Space);
    var t := s[a..];
    var b := RunStart(t, |t|, Space);
    assert b > 0 ==> !IsSpace(t[0]) by {
      if b > 0 { assert t[0] == s[a]; }
    }
    assert forall j :: a + b <= j < |s| ==> IsSpace(s[j]) by {
      forall j | a + b <= j < |s| ensures IsSpace(s[j]) {
        assert s[j] == t[j - a];
      }
    }
    t[..b]
  }

  predicate IsStripped(s: string) {
    s == "" || (!IsSpace(s[0]) && !IsSpace(s[|s| - 1]))
  }

  lemma StripStripped(s: string)
    requires IsStripped(s)
    ensures Strip(s) == s
  {
    if s != "" {
      assert RunEnd(s, 0, Space) == 0;
      assert RunStart(s, |s|, Space) == |s|;
    }
  }

  /** ASCII lower-casing, the part of `str.lower` the scripts depend on. */
  function LowerChar(c: char): char {
    if IsUpper(c) then (c as int + 32) as char else c
  }

  function Lower(s: string): (r: string)
    ensures |r| == |s| && forall j :: 0 <= j < |s| ==> r[j] == LowerChar(s[j])
  {
    seq(|s|, j requires 0 <= j < |s| => LowerChar(s[j]))
  }

  /** `sep.join(parts)`. */
  function Join(parts: seq<string>, sep: string): string {
    if |parts| == 0 then ""
    else if |parts| == 1 then parts[0]
    else parts[0] + sep + Join(parts[1..], sep)
  }

  /** The text before the first occurrence of `p` does not contain `p`. */
  lemma BeforeFirst(s: string, p: string, i: nat)
    requires |p| > 0 && FindFrom(s, p, 0) == Some(i)
    ensures !Contains(s[..i], p)
  {
    var head := s[..i];
    if Contains(head, p) {
      var j := FindFrom(head, p, 0).value;
      assert s[j..j + |p|] == head[j..j + |p|];
      assert At(s, j, p);
      assert false;
    }
  }

  /** Joining a head in front of a non-empty list puts one separator between them. */
  lemma JoinCons(head: string, rest: seq<string>, sep: string)
    requires |rest| >= 1
    ensures Join([head] + rest, sep) == head + sep + Join(rest, sep)
  {
    assert ([head] + rest)[0] == head && ([head] + rest)[1..] == rest;
  }

  /** `s.split(sep)` for a non-empty separator: cut at each occurrence, scanning left to right. */
  function Split(s: string, sep: string): (parts: seq<string>)
    requires |sep| > 0
    ensures |parts| >= 1
    ensures Join(parts, sep) == s
    ensures forall k :: 0 <= k < |parts| ==> !Contains(parts[k], sep)
    decreases |s|
  {
    match FindFrom(s, sep, 0)
    case None => [s]
    case Some(i) =>
      var head := s[..i];
      var rest := Split(s[i + |sep|..], sep);
      BeforeFirst(s, sep, i);
      JoinCons(head, rest, sep);
      assert s == head + sep + s[i + |sep|..];
      var r := [head] + rest;
      assert forall k :: 1 <= k < |r| ==> r[k] == rest[k - 1];
      r
  }

  /** Where part `k` of `parts` starts in `Join(parts, sep)`. */
  function CutAt(parts: seq<string>, sep: string, k: nat): nat
    requires k <= |parts|
  {
    if k == 0 then 0 else CutAt(parts, sep, k - 1) + |parts[k - 1]| + |sep|
  }

  lemma {:induction false} CutAtCons(head: string, rest: seq<string>, sep: string, k: nat)
    requires 1 <= k <= |rest| + 1
    ensures CutAt([head] + rest, sep, k) == |head| + |sep| + CutAt(rest, sep, k - 1)
  {
    var parts := [head] + rest;
    if k > 1 {
      CutAtCons(head, rest, sep, k - 1);
      assert parts[k - 1] == rest[k - 2];
    }
  }

  /** The first occurrence from `from` is at `v` when `p` occurs at `v` and nowhere before. */
  lemma FindFromFirst(s: string, p: string, from: nat, v: nat)
    requires from <= v && At(s, v, p)
    requires Absent(s, p, from, v)
    ensures FindFrom(s, p, from) == Some(v)
  {
  }

  /** `p` starts nowhere in `[lo, hi)`. */
  predicate Absent(s: string, p: string, lo: nat, hi: nat) {
    forall j: nat :: lo <= j < hi ==> !At(s, j, p)
  }

  /** An occurrence past a prefix is an occurrence in the rest. */
  lemma AtShift(pre: string, t: string, p: string, j: nat)
    ensures At(pre + t, |pre| + j, p) <==> At(t, j, p)
  {
    if |pre| + j + |p| <= |pre + t| {
      assert (pre + t)[|pre| + j..|pre| + j + |p|] == t[j..j + |p|];
    }
  }

  lemma ShiftAbsent(pre: string, t: string, p: string, x: nat, v: nat)
    requires forall j: nat :: x <= j < v ==> !At(t, j, p)
    ensures Absent(pre + t, p, |pre| + x, |pre| + v)
  {
    forall j: nat | |pre| + x <= j < |pre| + v ensures !At(pre + t, j, p) {
      var k: nat := j - |pre|;
      assert !At(t, k, p);
      AtShift(pre, t, p, k);
    }
  }

  /** `sep` occurs `n` characters after `c` and nowhere from `c` up to there. */
  predicate FoundAfter(s: string, sep: string, c: nat, n: nat) {
    At(s, c + n, sep) && Absent(s, sep, c, c + n)
  }

  /** `FoundAfter` is what the search for `sep` from `c` reports. */
  lemma FoundAfterFind(s: string, sep: string, c: nat, n: nat)
    ensures FoundAfter(s, sep, c, n) <==> FindFrom(s, sep, c) == Some(c + n)
  {
    if FoundAfter(s, sep, c, n) {
      FindFromFirst(s, sep, c, c + n);
    }
  }

  /** Each part of `parts` but the last ends where the search for `sep` from its start first
      finds `sep` in `s`. */
  predicate LeftCuts(s: string, sep: string, parts: seq<string>) {
    forall k :: 0 <= k < |parts| - 1 ==> FoundAfter(s, sep, CutAt(parts, sep, k), |parts[k]|)
  }

  /** `split` cuts at the leftmost occurrences: the search for `sep` from where each part starts
      finds the occurrence right after that part. */
  lemma {:induction false} SplitLeftmost(s: string, sep: string)
    requires |sep| > 0
    ensures LeftCuts(s, sep, Split(s, sep))
    decreases |s|
  {
    if FindFrom(s, sep, 0).Some? {
      var i := FindFrom(s, sep, 0).value;
      var head, t := s[..i], s[i + |sep|..];
      assert Split(s, sep) == [head] + Split(t, sep);
      assert s == head + sep + t;
      FoundAfterFind(s, sep, 0, i);
      SplitLeftmost(t, sep);
      LeftCutsCons(head, t, sep, Split(t, sep));
    }
  }

  /** Putting a part and a separator, found first, in front keeps the cuts leftmost. */
  lemma LeftCutsCons(head: string, t: string, sep: string, rest: seq<string>)
    requires FoundAfter(head + sep + t, sep, 0, |head|)
    requires LeftCuts(t, sep, rest)
    ensures LeftCuts(head + sep + t, sep, [head] + rest)
  {
    var parts := [head] + rest;
    forall k | 0 <= k < |parts| - 1
      ensures FoundAfter(head + sep + t, sep, CutAt(parts, sep, k), |parts[k]|)
    {
      if k == 0 {
        assert parts[0] == head;
      } else {
        assert FoundAfter(t, sep, CutAt(rest, sep, k - 1), |rest[k - 1]|);
        CutShift(head, t, sep, rest, k);
      }
    }
  }

  lemma CutShift(head: string, t: string, sep: string, rest: seq<string>, k: nat)
    requires 1 <= k < |rest|
    requires FoundAfter(t, sep, CutAt(rest, sep, k - 1), |rest[k - 1]|)
    ensures FoundAfter(head + sep + t, sep, CutAt([head] + rest, sep, k), |([head] + rest)[k]|)
  {
    var x, n := CutAt(rest, sep, k - 1), |rest[k - 1]|;
    CutAtCons(head, rest, sep, k);
    assert ([head] + rest)[k] == rest[k - 1];
    ShiftFound(head + sep, t, sep, x, n);
  }

  lemma ShiftFound(pre: string, t: string, sep: string, x: nat, n: nat)
    requires FoundAfter(t, sep, x, n)
    ensures FoundAfter(pre + t, sep, |pre| + x, n)
  {
    AtShift(pre, t, sep, x + n);
    ShiftAbsent(pre, t, sep, x, x + n);
  }

  predicate NoSpaceIn(s: string) {
    forall j :: 0 <= j < |s| ==> !IsSpace(s[j])
  }

  /** `s.split()`: the maximal runs of non-whitespace, in order. */
  function Words(s: string): (ws: seq<string>)
    ensures forall k :: 0 <= k < |ws| ==> |ws[k]| > 0 && NoSpaceIn(ws[k])
    ensures NoSpaceIn(s) && s != "" ==> ws == [s]
    decreases |s|
  {
    var a := RunEnd(s, 0, Space);
    if a == |s| then []
    else
      var b := RunEnd(s, a, NonSpace);
      var rest := Words(s[b..]);
      assert NoSpaceIn(s) ==> a == 0 && b == |s| && s[b..] == "" && rest == [] by {
        if NoSpaceIn(s) {
          assert !InClass(Space, s[0]);
          assert RunEnd(s[b..], 0, Space) == 0;
        }
      }
      assert NoSpaceIn(s) ==> s[a..b] == s;
      [s[a..b]] + rest
  }

  /** `s.split()` is empty exactly when `s` is all whitespace. */
  lemma WordsEmpty(s: string)
    ensures Words(s) == [] <==> AllIn(s, 0, |s|, Space)
  {
    var a := RunEnd(s, 0, Space);
    if a < |s| {
      assert !InClass(Space, s[a]);
    }
  }

  /** The characters of `s` that are not whitespace, in order. */
  function NonSpaceChars(s: string): string {
    if s == "" then "" else (if IsSpace(s[0]) then "" else [s[0]]) + NonSpaceChars(s[1..])
  }

  /** The words glued together with nothing between them. */
  function Concat(ws: seq<string>): string {
    if ws == [] then "" else ws[0] + Concat(ws[1..])
  }

  lemma {:induction false} NonSpaceCharsAppend(x: string, y: string)
    ensures NonSpaceChars(x + y) == NonSpaceChars(x) + NonSpaceChars(y)
    decreases |x|
  {
    if x == "" {
      assert x + y == y;
    } else {
      var h := if IsSpace(x[0]) then "" else [x[0]];
      assert (x + y)[0] == x[0] && (x + y)[1..] == x[1..] + y;
      NonSpaceCharsAppend(x[1..], y);
      assert h + (NonSpaceChars(x[1..]) + NonSpaceChars(y)) == (h + NonSpaceChars(x[1..])) + NonSpaceChars(y);
    }
  }

  lemma {:induction false} NonSpaceCharsRun(s: string, lo: nat, hi: nat, k: Class)
    requires lo <= hi <= |s| && AllIn(s, lo, hi, k) && (k == Space || k == NonSpace)
    ensures NonSpaceChars(s[lo..hi]) == if k == Space then "" else s[lo..hi]
    decreases hi - lo
  {
    if lo < hi {
      var w := s[lo..hi];
      assert w[0] == s[lo] && w[1..] == s[lo + 1..hi];
      assert InClass(k, s[lo]);
      NonSpaceCharsRun(s, lo + 1, hi, k);
    }
  }

  /** The words of `s.split()` hold exactly the non-whitespace characters of `s`, in order. */
  lemma {:induction false} WordsContent(s: string)
    ensures Concat(Words(s)) == NonSpaceChars(s)
    decreases |s|
  {
    var a := RunEnd(s, 0, Space);
    if a == |s| {
      assert s[0..a] == s;
      NonSpaceCharsRun(s, 0, a, Space);
    } else {
      var b := RunEnd(s, a, NonSpace);
      WordsUnfold(s, a, b);
      WordsContent(s[b..]);
      ConcatCons(s[a..b], Words(s[b..]));
      NonSpaceCharsSplit(s, a, b);
    }
  }

  /** One step of `Words` when `s` holds a word. */
  lemma WordsUnfold(s: string, a: nat, b: nat)
    requires a == RunEnd(s, 0, Space) && a < |s| && b == RunEnd(s, a, NonSpace)
    ensures Words(s) == [s[a..b]] + Words(s[b..])
  {
  }

  lemma ConcatCons(w: string, ws: seq<string>)
    ensures Concat([w] + ws) == w + Concat(ws)
  {
    assert ([w] + ws)[0] == w && ([w] + ws)[1..] == ws;
  }

  /** Whitespace, then a word, then the rest: only the word and the rest's characters count. */
  lemma NonSpaceCharsSplit(s: string, a: nat, b: nat)
    requires a <= b <= |s| && AllIn(s, 0, a, Space) && AllIn(s, a, b, NonSpace)
    ensures NonSpaceChars(s) == s[a..b] + NonSpaceChars(s[b..])
  {
    var u := s[a..];
    NonSpaceCharsFront(s, a, Space);
    AllInSuffix(s, a, b, NonSpace);
    NonSpaceCharsFront(u, b - a, NonSpace);
    SuffixSlices(s, a, b);
  }

  /** A run inside `s` is a front run of the suffix it starts. */
  lemma AllInSuffix(s: string, a: nat, b: nat, k: Class)
    requires a <= b <= |s| && AllIn(s, a, b, k)
    ensures AllIn(s[a..], 0, b - a, k)
  {
    forall j | 0 <= j < b - a ensures InClass(k, s[a..][j]) {
      assert s[a..][j] == s[a + j];
    }
  }

  lemma SuffixSlices(s: string, a: nat, b: nat)
    requires a <= b <= |s|
    ensures s[a..][..b - a] == s[a..b] && s[a..][b - a..] == s[b..]
  {
  }

  /** A front run of one class contributes all or none of its characters. */
  lemma NonSpaceCharsFront(s: string, m: nat, k: Class)
    requires m <= |s| && AllIn(s, 0, m, k) && (k == Space || k == NonSpace)
    ensures NonSpaceChars(s) == (if k == Space then "" else s[..m]) + NonSpaceChars(s[m..])
  {
    assert s[0..m] == s[..m];
    NonSpaceCharsRun(s, 0, m, k);
    assert s == s[..m] + s[m..];
    NonSpaceCharsAppend(s[..m], s[m..]);
  }

  /** End of a run is found the same after a prefix. */
  lemma {:induction false} RunEndShift(pre: string, t: string, i: nat, k: Class)
    requires i <= |t|
    ensures RunEnd(pre + t, |pre| + i, k) == |pre| + RunEnd(t, i, k)
    decreases |t| - i
  {
    if i < |t| {
      assert (pre + t)[|pre| + i] == t[i];
      if InClass(k, t[i]) {
        RunEndShift(pre, t, i + 1, k);
      }
    }
  }

  /** Leading whitespace does not change the words. */
  lemma WordsSpaceCons(c: char, r: string)
    requires IsSpace(c)
    ensures Words([c] + r) == Words(r)
  {
    var a := RunEnd(r, 0, Space);
    SpaceConsRunEnd(c, r);
    if a == |r| {
      WordsNone([c] + r);
      WordsNone(r);
    } else {
      SpaceConsWord(c, r, a, RunEnd(r, a, NonSpace));
    }
  }

  /** A leading blank lengthens the leading whitespace run by one. */
  lemma SpaceConsRunEnd(c: char, r: string)
    requires IsSpace(c)
    ensures RunEnd([c] + r, 0, Space) == 1 + RunEnd(r, 0, Space)
  {
    var s := [c] + r;
    assert s[0] == c && InClass(Space, c);
    assert RunEnd(s, 0, Space) == RunEnd(s, 1, Space);
    RunEndShift([c], r, 0, Space);
  }

  /** The first word behind a leading blank is the first word of the rest. */
  lemma SpaceConsWord(c: char, r: string, a: nat, b: nat)
    requires a == RunEnd(r, 0, Space) < |r| && b == RunEnd(r, a, NonSpace)
    requires RunEnd([c] + r, 0, Space) == 1 + a
    ensures Words([c] + r) == Words(r)
  {
    var s := [c] + r;
    RunEndShift([c], r, a, NonSpace);
    WordsUnfold(s, 1 + a, 1 + b);
    WordsUnfold(r, a, b);
    SliceCons(c, r, a, b);
  }

  lemma SliceCons(c: char, r: string, i: nat, j: nat)
    requires i <= j <= |r|
    ensures ([c] + r)[1 + i..1 + j] == r[i..j] && ([c] + r)[1 + j..] == r[j..]
  {
  }

  lemma WordsNone(s: string)
    requires RunEnd(s, 0, Space) == |s|
    ensures Words(s) == []
  {
  }

  /** Splitting words joined by single spaces gives those words back. */
  lemma {:induction false} WordsJoin(ws: seq<string>)
    requires forall k :: 0 <= k < |ws| ==> ws[k] != "" && NoSpaceIn(ws[k])
    ensures Words(Join(ws, " ")) == ws
    decreases |ws|
  {
    if |ws| == 1 {
      assert Join(ws, " ") == ws[0];
    } else if |ws| > 1 {
      var w, rest := ws[0], ws[1..];
      assert ws == [w] + rest;
      JoinCons(w, rest, " ");
      var r := Join(rest, " ");
      var t := [' '] + r;
      assert Join(ws, " ") == w + t;
      WordsJoin(rest);
      WordLead(w, t);
      WordsSpaceCons(' ', r);
      assert Words(w + t) == [w] + rest;
    }
  }

  /** A word in front is the first word; the rest is split on its own. */
  lemma WordLead(w: string, r: string)
    requires w != "" && NoSpaceIn(w) && r != "" && IsSpace(r[0])
    ensures Words(w + r) == [w] + Words(r)
  {
    var s := w + r;
    assert s[0] == w[0] && !InClass(Space, s[0]);
    assert RunEnd(s, 0, Space) == 0;
    WordRun(s, w, 0);
    assert s[|w|] == r[0];
    assert s[..|w|] == w && s[|w|..] == r;
  }

  lemma {:induction false} WordRun(s: string, w: string, i: nat)
    requires i <= |w| <= |s| && s[..|w|] == w && NoSpaceIn(w) && (|w| < |s| ==> IsSpace(s[|w|]))
    ensures RunEnd(s, i, NonSpace) == |w|
    decreases |w| - i
  {
    if i < |w| {
      assert s[i] == w[i];
      WordRun(s, w, i + 1);
    }
  }

  /** `s.replace(p, r)` (with `boundary` false) or `re.sub(r'\b' + p, r, s)` (with `boundary` true,
      for a pattern starting with a word character): non-overlapping occurrences left to right.
      `prevWord` says whether the character before `s` is a word character. */
  function Substitute(s: string, p: string, r: string, boundary: bool, prevWord: bool): string
    requires |p| > 0
    decreases |s|
  {
    if |s| < |p| then s
    else if s[..|p|] == p && !(boundary && prevWord) then
      r + Substitute(s[|p|..], p, r, boundary, IsWordChar(p[|p| - 1]))
    else [s[0]] + Substitute(s[1..], p, r, boundary, IsWordChar(s[0]))
  }

  function ReplaceAll(s: string, p: string, r: string): string
    requires |p| > 0
  {
    Substitute(s, p, r, false, false)
  }

  lemma SubstituteAbsent(s: string, p: string, r: string, boundary: bool, prevWord: bool)
    requires |p| > 0 && !Contains(s, p)
    ensures Substitute(s, p, r, boundary, prevWord) == s
    decreases |s|
  {
    if |s| >= |p| {
      assert !At(s, 0, p);
      assert !Contains(s[1..], p) by {
        if Contains(s[1..], p) {
          var j := FindFrom(s[1..], p, 0).value;
          assert s[1..][j..j + |p|] == s[j + 1..j + 1 + |p|];
          assert At(s, j + 1, p);
          assert false;
        }
      }
      SubstituteAbsent(s[1..], p, r, boundary, IsWordChar(s[0]));
    }
  }

  lemma ReplaceAllAbsent(s: string, p: string, r: string)
    requires |p| > 0 && !Contains(s, p)
    ensures ReplaceAll(s, p, r) == s
  {
    SubstituteAbsent(s, p, r, false, false);
  }

  /** Replacing back a replacement text that cannot occur by accident, character after character. */
  lemma ReplaceAllShort(s: string, p: string, r: string)
    requires |p| > 0 && |s| > 0 && NoChar(s, p[0])
    ensures ReplaceAll(s, p, r) == s
  {
    assert !Contains(s, p);
    ReplaceAllAbsent(s, p, r);
  }

  /** An occurrence after the first character is an occurrence in the tail. */
  lemma ContainsTail(s: string, p: string)
    requires Contains(s, p) && !At(s, 0, p)
    ensures Contains(s[1..], p)
  {
    var i := FindFrom(s, p, 0).value;
    assert i > 0 && s[1..][i - 1..i - 1 + |p|] == s[i..i + |p|];
    ContainsAt(s[1..], p, i - 1);
  }

  /** An occurrence in `t` is one in `[c] + t`. */
  lemma ContainsCons(c: char, t: string, r: string)
    requires Contains(t, r)
    ensures Contains([c] + t, r)
  {
    var j := FindFrom(t, r, 0).value;
    assert ([c] + t)[j + 1..j + 1 + |r|] == t[j..j + |r|];
    ContainsAt([c] + t, r, j + 1);
  }

  /** Replacing an occurring pattern leaves at least one copy of the replacement behind. */
  lemma {:induction false} SubstituteIntroduces(s: string, p: string, r: string, prevWord: bool)
    requires |p| > 0 && Contains(s, p)
    ensures Contains(Substitute(s, p, r, false, prevWord), r)
    decreases |s|
  {
    if s[..|p|] == p {
      var rest := Substitute(s[|p|..], p, r, false, IsWordChar(p[|p| - 1]));
      assert (r + rest)[..|r|] == r;
      ContainsAt(r + rest, r, 0);
    } else {
      ContainsTail(s, p);
      SubstituteIntroduces(s[1..], p, r, IsWordChar(s[0]));
      ContainsCons(s[0], Substitute(s[1..], p, r, false, IsWordChar(s[0])), r);
    }
  }

  /** Without a word-boundary condition the preceding character does not matter. */
  lemma {:induction false} SubstitutePlain(s: string, p: string, r: string, w1: bool, w2: bool)
    requires |p| > 0
    ensures Substitute(s, p, r, false, w1) == Substitute(s, p, r, false, w2)
  {
  }

  lemma NoCharSuffix(s: string, c: char, k: nat)
    requires k <= |s| && NoChar(s, c)
    ensures NoChar(s[k..], c)
  {
    forall j | 0 <= j < |s| - k ensures s[k..][j] != c {
      assert s[k..][j] == s[k + j];
    }
  }

  lemma NoCharAppend(x: string, y: string, c: char)
    requires NoChar(x, c) && NoChar(y, c)
    ensures NoChar(x + y, c)
  {
    forall j | 0 <= j < |x + y| ensures (x + y)[j] != c {
      if j < |x| { assert (x + y)[j] == x[j]; } else { assert (x + y)[j] == y[j - |x|]; }
    }
  }

  lemma NoCharSlice(s: string, c: char, i: nat, k: nat)
    requires i <= k <= |s| && NoChar(s, c)
    ensures NoChar(s[i..k], c)
  {
    forall j | 0 <= j < k - i ensures s[i..k][j] != c {
      assert s[i..k][j] == s[i + j];
    }
  }

  /** Replacing in a text that starts with the pattern: the replacement, then the rest replaced. */
  lemma ReplaceAllHead(r: string, rest: string, p: string)
    requires |r| > 0
    ensures ReplaceAll(r + rest, r, p) == p + ReplaceAll(rest, r, p)
  {
    var f := r + rest;
    assert f[..|r|] == r && f[|r|..] == rest;
    SubstitutePlain(rest, r, p, false, IsWordChar(r[|r| - 1]));
  }

  /** Replacing in a text whose first character cannot start the pattern keeps that character. */
  lemma ReplaceAllOther(c: char, rest: string, r: string, p: string)
    requires |r| > 0 && c != r[0]
    ensures ReplaceAll([c] + rest, r, p) == [c] + ReplaceAll(rest, r, p)
  {
    var f := [c] + rest;
    assert f[0] == c && f[1..] == rest;
    if |f| >= |r| {
      assert f[..|r|][0] == c;
      SubstitutePlain(rest, r, p, false, IsWordChar(c));
    } else {
      assert |rest| < |r|;
    }
  }

  /** Substituting `p` by `r` and then `r` back by `p` restores the text, provided the first
      character of `r` appears in `s` only where it is the whole of `p`. */
  lemma {:induction false} SubstituteInverse(s: string, p: string, r: string, boundary: bool, prevWord: bool)
    requires |p| > 0 && |r| > 0
    requires (p == [r[0]] && !boundary) || NoChar(s, r[0])
    ensures ReplaceAll(Substitute(s, p, r, boundary, prevWord), r, p) == s
    decreases |s|
  {
    if |s| < |p| {
      if s != [] {
        ReplaceAllShort(s, r, p);
      }
    } else if s[..|p|] == p && !(boundary && prevWord) {
      var tail := s[|p|..];
      var rest := Substitute(tail, p, r, boundary, IsWordChar(p[|p| - 1]));
      assert Substitute(s, p, r, boundary, prevWord) == r + rest;
      ReplaceAllHead(r, rest, p);
      if NoChar(s, r[0]) { NoCharSuffix(s, r[0], |p|); }
      SubstituteInverse(tail, p, r, boundary, IsWordChar(p[|p| - 1]));
      assert s == p + tail;
    } else {
      var tail := s[1..];
      var rest := Substitute(tail, p, r, boundary, IsWordChar(s[0]));
      assert Substitute(s, p, r, boundary, prevWord) == [s[0]] + rest;
      assert s[0] != r[0] by {
        if p == [r[0]] && !boundary {
          assert s[..1] == [s[0]];
        }
      }
      ReplaceAllOther(s[0], rest, r, p);
      if NoChar(s, r[0]) { NoCharSuffix(s, r[0], 1); }
      SubstituteInverse(tail, p, r, boundary, IsWordChar(s[0]));
      assert s == [s[0]] + tail;
    }
  }

  // ---- integers and their decimal spelling ----

  function DigitValue(c: char): (d: nat)
    requires IsDigit(c)
    ensures d < 10
  {
    c as int - '0' as int
  }

  function DigitChar(d: nat): (c: char)
    requires d < 10
    ensures IsDigit(c) && DigitValue(c) == d
  {
    ('0' as int + d) as char
  }

  /** `int(s)` for a string of ASCII digits. */
  function ParseNat(s: string): nat
    requires AllDigits(s)
  {
    if |s| == 0 then 0 else ParseNat(s[..|s| - 1]) * 10 + DigitValue(s[|s| - 1])
  }

  /** `str(n)` for a natural number: decimal, no leading zero. */
  function NatToString(n: nat): (s: string)
    ensures |s| > 0 && AllDigits(s)
    ensures s[0] == '0' ==> n == 0
    ensures n < 10 <==> |s| == 1
  {
    if n < 10 then [DigitChar(n)] else NatToString(n / 10) + [DigitChar(n % 10)]
  }

  /** `str(i)` for an integer. */
  function IntToString(i: int): string {
    if i < 0 then "-" + NatToString(-i) else NatToString(i)
  }

  lemma {:induction false} ParseNatToString(n: nat)
    ensures ParseNat(NatToString(n)) == n
  {
    if n >= 10 {
      var s := NatToString(n);
      assert s[..|s| - 1] == NatToString(n / 10);
      ParseNatToString(n / 10);
    }
  }

  /** A canonical digit string (no leading zero) is the spelling of its own value. */
  lemma {:induction false} NatToStringParse(s: string)
    requires |s| > 0 && AllDigits(s) && (s[0] != '0' || |s| == 1)
    ensures NatToString(ParseNat(s)) == s
    decreases |s|
  {
    if |s| == 1 {
    } else {
      var pre := s[..|s| - 1];
      assert pre[0] == s[0];
      NatToStringParse(pre);
      ParseNatLowerBound(pre);
      var n := ParseNat(s);
      assert n / 10 == ParseNat(pre);
      assert n % 10 == DigitValue(s[|s| - 1]);
      assert s == pre + [s[|s| - 1]];
    }
  }

  /** A digit string with a non-zero leading digit is at least 10^(|s|-1); a one-digit bound suffices here. */
  lemma {:induction false} ParseNatLowerBound(s: string)
    requires |s| > 0 && AllDigits(s) && s[0] != '0'
    ensures ParseNat(s) >= 1
    decreases |s|
  {
    if |s| > 1 {
      var pre := s[..|s| - 1];
      assert pre[0] == s[0];
      ParseNatLowerBound(pre);
    }
  }

  lemma FourDigitValue(s: string)
    requires |s| == 4 && AllDigits(s)
    ensures ParseNat(s) <= 9999
  {
    var s3, s2, s1 := s[..3], s[..3][..2], s[..3][..2][..1];
    assert s1[..0] == "";
    assert ParseNat(s1) == DigitValue(s[0]) by { assert s1[0] == s[0]; }
    assert ParseNat(s2) == ParseNat(s1) * 10 + DigitValue(s[1]) by { assert s2[1] == s[1] && s2[..1] == s1; }
    assert ParseNat(s3) == ParseNat(s2) * 10 + DigitValue(s[2]) by { assert s3[2] == s[2] && s3[..2] == s2; }
    assert ParseNat(s) == ParseNat(s3) * 10 + DigitValue(s[3]);
  }

  lemma FourDigitSpelling(n: nat)
    requires 1000 <= n <= 9999
    ensures |NatToString(n)| == 4
  {
    var a := n / 10;
    var b := a / 10;
    var c := b / 10;
    assert 100 <= a < 1000 && 10 <= b < 100 && 1 <= c < 10;
    assert |NatToString(b)| == |NatToString(c)| + 1 == 2;
    assert |NatToString(n)| == |NatToString(a)| + 1 == |NatToString(b)| + 2;
  }

  /** `int(s)` as Python evaluates it on a publication year: surrounding whitespace, an optional
      sign, then ASCII digits. None stands for the ValueError. */
  function PyInt(s: string): (r: Option<int>)
    ensures r.Some? ==> Strip(s) != ""
  {
    var t := Strip(s);
    if t == "" then None
    else if t[0] == '-' || t[0] == '+' then
      var d := t[1..];
      var v: int := if d != "" && AllDigits(d) then ParseNat(d) else 0;
      if d != "" && AllDigits(d) then Some(if t[0] == '-' then -v else v) else None
    else if AllDigits(t) then Some(ParseNat(t))
    else None
  }

  /** A sign `int` accepts in front of the digits. */
  predicate IsSign(sign: string) {
    sign == "" || sign == "-" || sign == "+"
  }

  /** Writing the stripped text as a sign and the rest (no sign left at the rest's front when the
      sign is empty), `int` succeeds exactly when the rest is a non-empty run of digits, and then
      gives the digits' value, negated under a minus sign. */
  lemma PyIntSpelling(s: string, sign: string, d: string)
    requires IsSign(sign) && Strip(s) == sign + d
    requires sign == "" && d != "" ==> d[0] != '-' && d[0] != '+'
    ensures PyInt(s).Some? <==> d != "" && AllDigits(d)
    ensures d != "" && AllDigits(d) ==>
      PyInt(s) == Some(if sign == "-" then -(ParseNat(d) as int) else ParseNat(d))
  {
    var t := Strip(s);
    if sign != "" {
      assert t[0] == sign[0] && t[1..] == d;
    } else {
      assert t == d;
    }
  }

  /** `int` of the spelling of a natural number is that number. */
  lemma PyIntDigits(i: int)
    requires 0 <= i
    ensures PyInt(IntToString(i)) == Some(i)
  {
    var t := NatToString(i);
    assert IsDigit(t[0]) && IsDigit(t[|t| - 1]);
    StripStripped(t);
    ParseNatToString(i);
  }

  /** `int` of a minus sign and digits is the negated value of the digits. */
  lemma PyIntMinus(d: string)
    requires d != "" && AllDigits(d)
    ensures PyInt("-" + d) == Some(-(ParseNat(d) as int))
  {
    var t := "-" + d;
    assert t[1..] == d;
    assert t[|t| - 1] == d[|d| - 1] && IsDigit(d[|d| - 1]);
    StripStripped(t);
  }

  /** `int` of a minus sign and the spelling of `m` is `-m`. */
  lemma PyIntMinusSpelling(m: nat)
    ensures PyInt("-" + NatToString(m)) == Some(-(m as int))
  {
    var d := NatToString(m);
    ParseNatToString(m);
    PyIntMinus(d);
    assert -(ParseNat(d) as int) == -(m as int);
  }

  /** `int` of the spelling of a negative number is that number. */
  lemma PyIntNegative(i: int)
    requires i < 0
    ensures PyInt(IntToString(i)) == Some(i)
  {
    var m: nat := -i;
    PyIntMinusSpelling(m);
    assert IntToString(i) == "-" + NatToString(m);
  }

  lemma PyIntOfIntToString(i: int)
    ensures PyInt(IntToString(i)) == Some(i)
  {
    if i < 0 {
      PyIntNegative(i);
    } else {
      PyIntDigits(i);
    }
  }
}

=== FILE: wrappers.dfy ===
/** An optional value, standing for Python's `None` or a present value. */
module Wrappers {

  datatype Option<+T> = None | Some(value: T)
}
